=== FILE: README.md ===
# Ocean View Resort front desk — a Dafny model

Ocean View Resort is a hotel front-desk application. A Spring back end
stores reservations and user accounts and serves reports. A React front end
has four working pages:

- a booking page that adds, edits, deletes and re-statuses reservations;
- a dashboard of counts, income and room availability;
- a reports page that filters the reservations in the browser;
- an administrators' page for user accounts.

This project models that core as pure Dafny functions over immutable data and
proves what the code promises about it.

Layout: one module per source concern.

- Shared building blocks:
  - `Wrappers`: `Option`/`Result`.
  - `Text`: trimming, lower-casing, substring search and string order.
  - `Patterns`: the email and contact-number regular expressions.
  - `Calendar`: proleptic Gregorian day numbers.
  - `IsoDate`: `YYYY-MM-DD` text.
  - `JsMath`: `Math.round` of a quotient.
  - `Seqs`: filter, count, sum and group-by folds.
  - `Records`: the reservation and user documents.
- Validators and billing:
  - `FormValidation`: the front end's reference validators.
  - `Billing`: the three copies of the bill calculation.
  - `ValidationService`: the server-side checks.
- Endpoints: `ReservationController`, `AuthController`, `ReportController`.
  - Each endpoint is a transition of a `map` from id to document.
  - Each returns the response it sends.
- Pages: `AddReservationPage`, `Dashboard`, `ReportsPage`, `UserManagementPage`.
  - Each page handler returns the request it sends and the page state it
    leaves.

Modelling conventions:

- Every nullable Java field and every optional JSON property is an `Option`.
- JavaScript truthiness of a string is "present and not empty" (`Truthy`).
- String comparison (`<` in JavaScript, `compareTo` in Java) is the
  lexicographic order `Text.Less`.
- Things the code reads from outside are parameters:
  - the id the database would generate (`freshId`);
  - the answer to a `window.confirm` (`confirmed`);
  - whether a request succeeded (`succeeded`);
  - the documents `findAll` returns (a sequence).

The proofs connect the copies of the same logic that the repository keeps
in several places:

- The reference bill functions, the booking form's bill and the server's
  `LocalDate` bill agree on forward stays with a real room type. They
  disagree, in stated ways, otherwise.
- The string tests on `YYYY-MM-DD` text are calendar order.
- The browser's report filter is the server's filter endpoint.
- The page's income is the summary endpoint's income.
- The reference form validators and the server validator accept the same
  inputs, under stated conditions.

## Model

| member | source | states |
|---|---|---|
| Text.Trim | backend/src/main/java/com/oceanview/services/ValidationService.java:44-60 | the trimmed text is empty exactly when the input is all whitespace, and otherwise neither starts nor ends with whitespace |
| Text.ToLower | frontend/oceanview-frontend/src/pages/UserManagement.jsx:110-114 | lower-casing keeps the length and maps every character by the ASCII case rule |
| Text.LessTrichotomy | backend/src/main/java/com/oceanview/controllers/ReportController.java:141-142 | the order `compareTo` and JavaScript `<` use on strings is a strict total order |
| Text.LessTransitive | backend/src/main/java/com/oceanview/controllers/ReportController.java:141-142 | that order is transitive |
| Text.LessAppend | backend/src/main/java/com/oceanview/controllers/ReportController.java:141-142 | two concatenations with equal-length heads compare by the heads, and by the tails only on a tie |
| Patterns.EmailShapeMatchesPattern | backend/src/main/java/com/oceanview/services/ValidationService.java:24 | the executable email check accepts exactly the strings `^[^\s@]+@[^\s@]+\.[^\s@]+$` matches, read literally |
| Patterns.EmailShapeHasOneAt | frontend/oceanview-frontend/src/validation.test.js:256-259 | an accepted email has exactly one '@', and not as its first character |
| Patterns.ContactNumberMatchesPattern | backend/src/main/java/com/oceanview/services/ValidationService.java:78-81 | the executable contact check accepts exactly the strings `^[+]?[0-9\s\-]{7,15}$` matches |
| IsoDate.ValueOfDigits | backend/src/main/java/com/oceanview/services/ValidationService.java:65-66 | writing a number in fixed-width digits and reading it back gives the number |
| IsoDate.DigitsOfValue | backend/src/main/java/com/oceanview/services/ValidationService.java:65-66 | reading a digit string and writing it back at its width gives the string |
| IsoDate.DigitsOrder | backend/src/main/java/com/oceanview/controllers/ReportController.java:78-81 | at a fixed width, digit strings compare as the numbers they write |
| IsoDate.ParseFormat | backend/src/main/java/com/oceanview/services/ValidationService.java:65-66 | parsing a formatted date gives the date back |
| IsoDate.FormatParse | backend/src/main/java/com/oceanview/services/ValidationService.java:65-66 | a string that parses is the formatting of its date, so the text is determined by the date |
| IsoDate.FormatOrder | backend/src/main/java/com/oceanview/controllers/ReportController.java:78-81 | comparing two formatted dates as strings is comparing the dates chronologically |
| IsoDate.TextOrderIsDayOrder | backend/src/main/java/com/oceanview/controllers/ReportController.java:78-81 | on two date strings the string order is the order of their day numbers, and equal text is the same day |
| Calendar.NextDayAddsOne | backend/src/test/java/com/oceanview/services/ReservationBillCalculationTest.java:32 | the calendar successor's day number is one more, across month and year ends |
| Calendar.AddDaysAddsN | backend/src/test/java/com/oceanview/services/ReservationBillCalculationTest.java:32 | stepping `n` days by successors adds `n` to the day number |
| Calendar.BeforeIffFewerDays | backend/src/main/java/com/oceanview/services/ValidationService.java:67 | chronological order is the order of day numbers, and equal day numbers are equal dates |
| Calendar.AddDaysReaches | backend/src/test/java/com/oceanview/services/ReservationBillCalculationTest.java:30-32 | every date not earlier than `a` is reached from `a` by as many successors as their day numbers differ |
| JsMath.RoundQuotient | frontend/oceanview-frontend/src/pages/Reports.jsx:178-180 | the result is the nearest integer to `a/b`, a half rounded up as `Math.round` does |
| JsMath.RoundPercent | frontend/oceanview-frontend/src/pages/Reports.jsx:180 | a rounded share of a whole is between 0 and 100 |
| JsMath.RoundExact | frontend/oceanview-frontend/src/pages/Dashboard.jsx:52 | an exact quotient is left unchanged by rounding |
| Seqs.Filter | backend/src/main/java/com/oceanview/controllers/ReportController.java:139-142 | a filter keeps exactly the elements that pass and is never longer than its input |
| Seqs.FilterIsSubsequence | backend/src/main/java/com/oceanview/controllers/ReportController.java:139-142 | a filter keeps the input's order |
| Seqs.FilterFuse | backend/src/main/java/com/oceanview/controllers/ReportController.java:139-142 | two filters in a row are one filter by the conjunction |
| Seqs.FilterCommute | frontend/oceanview-frontend/src/pages/Reports.jsx:139-142 | two filters may be applied in either order |
| Seqs.FilterKeepsAll | frontend/oceanview-frontend/src/pages/Reports.jsx:138-142 | a filter every element passes changes nothing |
| Seqs.FilterSame | frontend/oceanview-frontend/src/pages/Reports.jsx:138-142 | two filters that agree on every element give the same result |
| Seqs.FilterAppend | backend/src/main/java/com/oceanview/controllers/ReportController.java:139-142 | filtering distributes over concatenation |
| Seqs.SumPartition | backend/src/main/java/com/oceanview/controllers/ReportController.java:32-48 | a sum over a filter that splits into two disjoint filters is the sum of the two sums |
| Seqs.CountPartition | backend/src/main/java/com/oceanview/controllers/ReportController.java:25-30 | a count over a filter that splits into two disjoint filters is the sum of the two counts |
| Seqs.CountComplement | frontend/oceanview-frontend/src/pages/Dashboard.jsx:36 | the elements that pass a test and those that fail it add up to all of them |
| Seqs.SumFilterAtMost | backend/src/main/java/com/oceanview/controllers/ReportController.java:77-101 | with no negative terms, a sum over a filter lies between zero and the full sum |
| Seqs.SumOnes | backend/src/main/java/com/oceanview/controllers/ReportController.java:51-52 | `counting()` as a sum of ones is the number of elements |
| Seqs.GroupSumTotal | backend/src/main/java/com/oceanview/controllers/ReportController.java:43-52 | the per-key totals of a `groupingBy` add up to the total over all elements |
| Billing.Rate | frontend/oceanview-frontend/src/validation.test.js:15 | a rate exists exactly for the three room types and is 5000, 8000 or 12000 |
| Billing.Nights | frontend/oceanview-frontend/src/validation.test.js:17-24 | no nights unless both dates are given |
| Billing.NightsAreDaySteps | frontend/oceanview-frontend/src/validation.test.js:17-24 | the night count is positive exactly when check-out is later, and is then the number of calendar successors from check-in to check-out |
| Billing.ReferenceBill | frontend/oceanview-frontend/src/validation.test.js:26-30 | an unknown or missing room type bills zero; a known one bills nights times its rate |
| Billing.FormRate | frontend/oceanview-frontend/src/pages/AddReservation.jsx:55 | the booking form's rate is the reference rate on the three room types and the Suite rate on anything else |
| Billing.FormQuote | frontend/oceanview-frontend/src/pages/AddReservation.jsx:54-58 | the form's night count is the signed calendar-day difference: stepping that many days forward from check-in reaches check-out, or, for a backward stay, stepping its negation forward from check-out reaches check-in; it is positive exactly when check-out is later and zero exactly on the same date, and the bill is nights times the form rate |
| Billing.ServerBill | backend/src/test/java/com/oceanview/services/ReservationBillCalculationTest.java:29-40 | an unparsable date throws the parse error before the room type is looked at; an unknown room type throws; otherwise the bill is the rate times the signed `DAYS.between` count, the same as the form's bill, backward stays included |
| Billing.BillCopiesAgree | backend/src/test/java/com/oceanview/services/ReservationBillCalculationTest.java:29-40 | for a real room type and a forward stay, the reference, form and server bills are equal: the rate times the calendar days of the stay |
| Billing.UnknownRoomTypeDisagrees | backend/src/test/java/com/oceanview/services/ReservationBillCalculationTest.java:148-153 | on an unknown room type the reference bills zero, the form bills the Suite rate and the server throws |
| Billing.BackwardStayDisagrees | frontend/oceanview-frontend/src/validation.test.js:98-101 | on a stay that does not move forward the reference clamps to zero, while the form and the server keep the same non-positive bill, whose night count steps from check-out back to check-in |
| Billing.MonthBoundaryBill | backend/src/test/java/com/oceanview/services/ReservationBillCalculationTest.java:155-161 | 2026-04-28 to 2026-05-02 is four nights and 20000 at the Standard rate |
| Billing.YearBoundaryBill | backend/src/test/java/com/oceanview/services/ReservationBillCalculationTest.java:163-169 | 2026-12-30 to 2027-01-02 bills 24000 Deluxe in both the reference and the server copy |
| FormValidation.ValidateReservationForm | frontend/oceanview-frontend/src/validation.test.js:32-47 | each field's error appears exactly when that field's condition fails: a blank number, a guest under two characters after trimming, a room type not among the three, a missing date; the range error appears exactly when both dates are given and check-out is not after check-in as text, and never beside a missing-date error |
| FormValidation.ReservationFormEmptyIff | frontend/oceanview-frontend/src/validation.test.js:32-47 | the form has no errors exactly when the number is not blank, the guest has two characters after trimming, the room type is one of three, both dates are given, and check-out is after check-in as text |
| FormValidation.DateRangeIsCalendarOrder | frontend/oceanview-frontend/src/validation.test.js:44-45 | on two real dates the range error appears exactly when check-out is not a later day |
| FormValidation.ValidateUserForm | frontend/oceanview-frontend/src/validation.test.js:49-61 | each field's error appears exactly when that field's condition fails |
| FormValidation.UserFormEmptyIff | frontend/oceanview-frontend/src/validation.test.js:49-61 | the user form has no errors exactly when all four conditions hold |
| FormValidation.EditWaivesOnlyPassword | frontend/oceanview-frontend/src/validation.test.js:266-269 | editing reports the creating errors minus the password one |
| FormValidation.EmailErrorIffNoMatch | frontend/oceanview-frontend/src/validation.test.js:53-55 | the email error appears exactly when the address is missing or the regular expression does not match |
| FormValidation.ValidateReportFilters | frontend/oceanview-frontend/src/validation.test.js:63-67 | a message exactly when both dates are given and the end date sorts before the start date, and it reads "End date must be on or after start date" (the behaviour tested at lines 286-303) |
| FormValidation.ReportRangeIsDayOrder | frontend/oceanview-frontend/src/validation.test.js:63-67 | on two real dates the range is refused exactly when the end is an earlier day, so a one-day range passes |
| FormValidation.StatusColor | frontend/oceanview-frontend/src/validation.test.js:69-78 | a palette exists exactly for the five statuses, and each status gets the background and text colour the tests at lines 307-331 fix |
| FormValidation.StatusColorsDistinct | frontend/oceanview-frontend/src/validation.test.js:69-78 | no two statuses share a background colour |
| ValidationService.CreateErrors | backend/src/main/java/com/oceanview/services/ValidationService.java:20-28 | on create, each of the three messages appears exactly when its field is missing or too short or malformed |
| ValidationService.UpdateErrors | backend/src/main/java/com/oceanview/services/ValidationService.java:29-32 | on update, the only possible error is a username that is non-blank but under three characters after trimming |
| ValidationService.ValidateUser | backend/src/main/java/com/oceanview/services/ValidationService.java:17-38 | an update never reports the email or the password, and the role error appears exactly for a given role other than USER and ADMIN |
| ValidationService.UpdateNoStricterThanCreate | backend/src/main/java/com/oceanview/services/ValidationService.java:17-38 | whatever a create accepts, an update accepts |
| ValidationService.EmptyUpdateAccepted | backend/src/main/java/com/oceanview/services/ValidationService.java:29-35 | an update body with every field null passes |
| ValidationService.CreateAcceptedIff | backend/src/main/java/com/oceanview/services/ValidationService.java:20-35 | a create passes exactly when the username, email, password and role conditions hold |
| ValidationService.UserFormAgreesWithCreate | frontend/oceanview-frontend/src/validation.test.js:49-61 | when a role is given, the front-end user form and the server create check accept the same users |
| ValidationService.ValidateReservation | backend/src/main/java/com/oceanview/services/ValidationService.java:41-84 | at most one message per check |
| ValidationService.ListedIffBroken | backend/src/main/java/com/oceanview/services/ValidationService.java:41-84 | a message is in the list exactly when its check fails, and the messages come in the order of the checks |
| ValidationService.IdentityMessages | backend/src/main/java/com/oceanview/services/ValidationService.java:44-54 | "number required" exactly for a missing or blank number; "guest required" exactly for a missing or blank name; "too short" exactly for a present name under two characters after trimming, so a blank name gets both and a missing one only the first; the room-type message exactly for a missing type or one not among the three |
| ValidationService.DateMessages | backend/src/main/java/com/oceanview/services/ValidationService.java:56-71 | each date's "required" message exactly when it is missing or blank; with both dates present, the format message exactly when either is unreadable, and the order message exactly when both are readable and check-out is not a later day; no comparison when a date is missing |
| ValidationService.OptionalMessages | backend/src/main/java/com/oceanview/services/ValidationService.java:73-81 | the bill message exactly for a present negative bill; the contact message exactly for a present non-empty number the pattern does not match |
| ValidationService.EmptyIffNothingBroken | backend/src/main/java/com/oceanview/services/ValidationService.java:41-84 | the list is empty exactly when no check fails |
| ValidationService.NothingBrokenIffAcceptable | backend/src/main/java/com/oceanview/services/ValidationService.java:41-84 | no check fails exactly when the number is not blank, the guest has two characters, the room type is one of three, both dates are real with check-out a later day, no bill is negative and the contact number is absent, empty or matches |
| ValidationService.DateLogic | backend/src/main/java/com/oceanview/services/ValidationService.java:62-72 | the order error appears exactly for two readable dates where check-out is not later; an unreadable date gives the format error instead |
| ValidationService.ValidationIgnoresIdAndStatus | backend/src/main/java/com/oceanview/services/ValidationService.java:41-84 | the reservation checks never read the id or the status |
| ValidationService.AcceptedIffAcceptable | backend/src/main/java/com/oceanview/services/ValidationService.java:41-84 | a reservation passes exactly when it has a non-blank number, a guest of two characters, a real room type, two real dates in calendar order, no negative bill and an absent, empty or well-formed contact number |
| ValidationService.EmptyDatesReportedThrice | backend/src/main/java/com/oceanview/services/ValidationService.java:56-70 | two empty dates are reported as two missing dates and once more as unreadable |
| ValidationService.ReservationFormPassesIffAcceptable | backend/src/main/java/com/oceanview/services/ValidationService.java:41-84 | under the same conditions, the form's pass condition is the server's acceptance condition |
| ValidationService.ReservationFormAgreesWithServer | backend/src/main/java/com/oceanview/services/ValidationService.java:41-84 | when each date is absent, empty or real, the bill is not negative and the contact number is absent, empty or well-formed, the front-end form and the server accept the same reservations |
| ValidationService.FormRangeIsDayOrder | backend/src/main/java/com/oceanview/services/ValidationService.java:63-68 | the form's string test on two dates is the server's `isAfter` on the parsed dates |
| ValidationService.IsValidStatusAsWritten | backend/src/main/java/com/oceanview/services/ValidationService.java:87-89 | as written: a null status throws, and a present one is valid exactly when it is one of the five |
| ValidationService.IsValidStatus | backend/src/main/java/com/oceanview/services/ValidationService.java:87-89 | as intended: valid exactly when present and one of the five statuses |
| ValidationService.NullStatusThrows | backend/src/main/java/com/oceanview/services/ValidationService.java:87-89 | the two versions differ only on null, where the written one throws and the intended one says false |
| ReservationController.Create | backend/src/main/java/com/oceanview/controllers/ReservationController.java:31-44 | the request is refused, with the store unchanged, exactly when validation reports errors; otherwise the saved document keeps a non-empty status and gets Pending in place of a missing or empty one, is stored under its own or a fresh id, passes validation, and apart from its id and status is the body |
| ReservationController.Patch | backend/src/main/java/com/oceanview/controllers/ReservationController.java:56-64 | the id of the stored document is never changed; every other field is the body's value when the body carries one and the stored value otherwise |
| ReservationController.PatchIdempotent | backend/src/main/java/com/oceanview/controllers/ReservationController.java:56-64 | applying the same body twice is applying it once |
| ReservationController.PatchExtremes | backend/src/main/java/com/oceanview/controllers/ReservationController.java:56-64 | an all-null body changes nothing; a body with every field set replaces all but the id |
| ReservationController.Update | backend/src/main/java/com/oceanview/controllers/ReservationController.java:47-68 | a bad status is refused before the lookup; a missing id is 404; otherwise the patched document replaces the stored one; nothing else changes, and documents stay under their own ids |
| ReservationController.Delete | backend/src/main/java/com/oceanview/controllers/ReservationController.java:71-78 | 200 exactly when the id was stored, and afterwards the id is gone and nothing else changed |
| ReservationController.GetById | backend/src/main/java/com/oceanview/controllers/ReservationController.java:81-86 | found exactly when stored, and the found document carries the requested id |
| ReservationController.CreateKeepsKeys | backend/src/main/java/com/oceanview/controllers/ReservationController.java:39-43 | after a create every document is still stored under its own id |
| ReservationController.CreateThenGet | backend/src/main/java/com/oceanview/controllers/ReservationController.java:31-44 | a valid create can be read back unchanged under the id it was given |
| ReservationController.CreateThenDelete | backend/src/main/java/com/oceanview/controllers/ReservationController.java:71-78 | deleting a freshly created document restores the store |
| ReservationController.CreateWithStoredIdReplaces | backend/src/main/java/com/oceanview/controllers/ReservationController.java:43 | a create whose body names a stored id replaces that document and adds none |
| ReservationController.UpdateStoresInvalidDocuments | backend/src/main/java/com/oceanview/controllers/ReservationController.java:54-65 | the update endpoint stores a negative bill that the create checks would refuse |
| AuthController.FindBy | backend/src/main/java/com/oceanview/repositories/UserRepository.java:11-14 | a single-result query finds nothing exactly when no user matches, the one user exactly when one matches, and fails exactly when two or more users match |
| AuthController.FindUnique | backend/src/main/java/com/oceanview/repositories/UserRepository.java:11 | a query exactly one user matches returns that user |
| AuthController.UniqueUsernameLookup | backend/src/main/java/com/oceanview/repositories/UserRepository.java:11 | with unique usernames a username query never fails on several matches |
| AuthController.View | backend/src/main/java/com/oceanview/controllers/AuthController.java:68-73 | a response shows the user's own id, username, email and role, and no password |
| AuthController.Register | backend/src/main/java/com/oceanview/controllers/AuthController.java:21-50 | a refusal is 400 and stores nothing; any change to the store follows unused username and email checks and a four-character password, saves the body under its id with the given role, or USER when the role is missing or empty, and changes nothing else; the response names the same role; "Username already exists" exactly when one user has the username, "Email already exists" exactly when none has it and one has the email, and the short-password refusal only after both are unused |
| AuthController.RegisterKeepsUsernamesUnique | backend/src/main/java/com/oceanview/controllers/AuthController.java:24-27 | registration keeps usernames unique |
| AuthController.Login | backend/src/main/java/com/oceanview/controllers/AuthController.java:53-74 | a profile is returned only for a stored user with that username and an equal password; "User not found" exactly when no user has the username; "Invalid password" exactly when one user has it and its stored password differs; a profile exactly when that password is equal and the user can be shown; every refusal is 401 |
| AuthController.RegisterThenLogin | backend/src/main/java/com/oceanview/controllers/AuthController.java:53-74 | a user who has just registered with an email logs in with the same credentials |
| AuthController.GetUserById | backend/src/main/java/com/oceanview/controllers/AuthController.java:84-94 | 404 exactly when the id is not stored; a profile is the stored user's view |
| AuthController.PatchUser | backend/src/main/java/com/oceanview/controllers/AuthController.java:100-106 | the id is kept; username, email and role are the body's when given and the stored ones otherwise; the password is the body's when non-empty and the stored one otherwise; a body with nothing to set changes nothing |
| AuthController.UpdateUser | backend/src/main/java/com/oceanview/controllers/AuthController.java:97-111 | done exactly when the id is stored, writing the patched user and nothing else; otherwise 404 and no change |
| AuthController.UpdateCanDuplicateUsername | backend/src/main/java/com/oceanview/controllers/AuthController.java:100-101 | renaming a user to another's username is accepted, breaks uniqueness, and every later login with that name is a server error |
| AuthController.DeleteUser | backend/src/main/java/com/oceanview/controllers/AuthController.java:114-121 | done exactly when the id is stored; the id is removed and unique usernames stay unique |
| AuthController.ChangePassword | backend/src/main/java/com/oceanview/controllers/AuthController.java:124-142 | the change succeeds exactly when the user exists, the old password equals the stored one and the new one has four characters; only that password changes; a wrong old password is refused before the new one is looked at, and a stored user without a password is a server error |
| AuthController.ChangePasswordThenLogin | backend/src/main/java/com/oceanview/controllers/AuthController.java:124-142 | after a change the old password is refused at login and the new one logs in |
| ReportController.DateWindow | backend/src/main/java/com/oceanview/controllers/ReportController.java:77-82 | a reservation is kept exactly when it meets each bound that is given and non-empty; a missing check-in fails any bound |
| ReportController.WindowIsDayWindow | backend/src/main/java/com/oceanview/controllers/ReportController.java:78-81 | on real dates the string bounds are calendar bounds, both ends included |
| ReportController.GetSummary | backend/src/main/java/com/oceanview/controllers/ReportController.java:21-66 | the summary fails exactly when some reservation has no room type; otherwise the total is the count of all, and every income key is a room type that occurs |
| ReportController.Average | backend/src/main/java/com/oceanview/controllers/ReportController.java:37-40 | the average times the count is the total, and zero for no values |
| ReportController.StatusCountsPartition | backend/src/main/java/com/oceanview/controllers/ReportController.java:25-30 | the five status counts plus the odd-status count make up all reservations |
| ReportController.SummaryCountsAddUp | backend/src/main/java/com/oceanview/controllers/ReportController.java:25-30 | the five counts never exceed the total and equal it exactly when every status is one of the five |
| ReportController.SummaryIncomeAddsUp | backend/src/main/java/com/oceanview/controllers/ReportController.java:32-48 | the income by room type adds up to the total income |
| ReportController.SummaryBookingsAddUp | backend/src/main/java/com/oceanview/controllers/ReportController.java:50-52 | the bookings by room type add up to the number of reservations |
| ReportController.SummaryAverage | backend/src/main/java/com/oceanview/controllers/ReportController.java:37-40 | the average bill is the total income over the number of non-cancelled reservations that carry a bill |
| ReportController.RowOf | backend/src/main/java/com/oceanview/controllers/ReportController.java:86-96 | a report row carries the reservation's bill and status |
| ReportController.IncomeKept | backend/src/main/java/com/oceanview/controllers/ReportController.java:76-85 | the window applied bound by bound and the cancelled reservations dropped after it select exactly the reservations inside the window that are not cancelled, in stored order |
| ReportController.GetIncomeReport | backend/src/main/java/com/oceanview/controllers/ReportController.java:69-108 | the rows are, in stored order, the rows of exactly the reservations inside the window that are not cancelled; the count is the number of rows and the total is the sum of their bills |
| ReportController.UnboundedIncomeIsSummaryIncome | backend/src/main/java/com/oceanview/controllers/ReportController.java:77-101 | with no bounds the income report's total is the summary's total income |
| ReportController.WindowIncomeAtMostAll | backend/src/main/java/com/oceanview/controllers/ReportController.java:77-101 | with no negative bills a window's income lies between zero and the income with no window |
| ReportController.GetOccupancy | backend/src/main/java/com/oceanview/controllers/ReportController.java:111-127 | the report fails exactly when an occupying reservation has no room type or any reservation has no status; otherwise the total is the count of all |
| ReportController.OccupancyAddsUp | backend/src/main/java/com/oceanview/controllers/ReportController.java:115-125 | the status breakdown adds up to the total, the room breakdown to the checked-in and confirmed count, and each status entry is that status's count |
| ReportController.FilterReservations | backend/src/main/java/com/oceanview/controllers/ReportController.java:130-145 | the filtered list is never longer than the full list |
| ReportController.WindowIsFilter | backend/src/main/java/com/oceanview/controllers/ReportController.java:141-142 | the two conditional date steps are one filter |
| ReportController.FilterIsSelection | backend/src/main/java/com/oceanview/controllers/ReportController.java:139-142 | the chain of four conditional filters keeps exactly the reservations the whole selection accepts, in order |
| ReportsPage.Loaded | frontend/oceanview-frontend/src/pages/Reports.jsx:121-124 | once loaded, every reservation is shown |
| ReportsPage.ApplyFilters | frontend/oceanview-frontend/src/pages/Reports.jsx:132-145 | a reversed range sets the message and keeps the list; otherwise the message is cleared and the list is refiltered from all reservations |
| ReportsPage.ResetFilters | frontend/oceanview-frontend/src/pages/Reports.jsx:147-154 | reset clears the filters and the message and shows all reservations |
| ReportsPage.ClientDatesAreWindow | frontend/oceanview-frontend/src/pages/Reports.jsx:139-140 | the page's two date steps are the server's window step |
| ReportsPage.ClientFilterIsSelection | frontend/oceanview-frontend/src/pages/Reports.jsx:138-142 | the page's four filters are one filter by the server's selection |
| ReportsPage.ClientFilterIsServerFilter | frontend/oceanview-frontend/src/pages/Reports.jsx:138-142 | the browser filter and the filter endpoint give the same list, though they apply the steps in different orders |
| ReportsPage.ResetThenApplyShowsAll | frontend/oceanview-frontend/src/pages/Reports.jsx:132-154 | applying the filters after a reset shows every reservation |
| ReportsPage.RangeCheckIsReference | frontend/oceanview-frontend/src/pages/Reports.jsx:134-135 | the page refuses exactly the ranges the reference validator refuses, with another message |
| ReportsPage.PageStats | frontend/oceanview-frontend/src/pages/Reports.jsx:176-195 | the income is the bill sum of the non-cancelled filtered reservations, with a missing bill as zero; the average is that income over their number, rounded half up; the cancel rate is the cancelled share as a rounded percentage between 0 and 100; each status or room-type figure is the count of that status or type, and each room's income is the bill sum of its non-cancelled reservations |
| ReportsPage.CancelRateIsPercentage | frontend/oceanview-frontend/src/pages/Reports.jsx:179-180 | the cancellation rate is between 0 and 100 |
| ReportsPage.PageStatusCountsAddUp | frontend/oceanview-frontend/src/pages/Reports.jsx:182-185 | the five status figures and the odd-status count make up the filtered list |
| ReportsPage.PageIncomeIsSummaryIncome | frontend/oceanview-frontend/src/pages/Reports.jsx:176-177 | the page's income equals the summary endpoint's income on the same list |
| ReportsPage.PageIncomeByRoomAddsUp | frontend/oceanview-frontend/src/pages/Reports.jsx:192-195 | when every non-cancelled reservation has a real room type, the three room incomes add up to the total |
| ReportsPage.RoomIncomeSplits | frontend/oceanview-frontend/src/pages/Reports.jsx:192-195 | the three room incomes add up to the income of their union |
| ReportsPage.AveragesShareQuotientWhenAllBilled | frontend/oceanview-frontend/src/pages/Reports.jsx:176-178 | when every non-cancelled reservation carries a bill, the page's average is the summary's average rounded |
| ReportsPage.PageStatusColor | frontend/oceanview-frontend/src/pages/Reports.jsx:217-223 | the page gives the reference palette to the five statuses and the Pending palette to anything else |
| Dashboard.Line | frontend/oceanview-frontend/src/pages/Dashboard.jsx:38-50 | a room type's occupied count is its checked-in reservations; the free count lies between zero and the inventory, is zero exactly when the type is full, and makes up the inventory with the occupied when not over-booked |
| Dashboard.DashboardFigures | frontend/oceanview-frontend/src/pages/Dashboard.jsx:36-58 | the booking count is the list's length (the status cards are given meaning by DashboardCountsAddUp and DashboardCountsAreSummaryCounts); the income is the bill sum of the non-cancelled reservations; there is one availability line per room type with that type's inventory, and the totals are their sums; the occupancy rate is five percent per occupied room; recent is the first ten reservations |
| Dashboard.OccupancyIsFivePerRoom | frontend/oceanview-frontend/src/pages/Dashboard.jsx:7-52 | the inventory is 20 rooms, so the occupancy rate is exactly five times the occupied rooms |
| Dashboard.OccupiedAreCheckedIn | frontend/oceanview-frontend/src/pages/Dashboard.jsx:38-44 | occupied rooms never exceed the checked-in count, and equal it when every checked-in reservation has a real room type |
| Dashboard.OccupiedSplits | frontend/oceanview-frontend/src/pages/Dashboard.jsx:41-44 | the counts of the three room types add up to the count of reservations of any of them |
| Dashboard.AvailabilityAddsUp | frontend/oceanview-frontend/src/pages/Dashboard.jsx:46-52 | with no type over-booked, free and occupied rooms make up the inventory and the rate is a percentage |
| Dashboard.NothingFreeIffAllFull | frontend/oceanview-frontend/src/pages/Dashboard.jsx:46-50 | no room is free exactly when every room type is full |
| Dashboard.Badges | frontend/oceanview-frontend/src/pages/Dashboard.jsx:205-219 | at most one badge is shown |
| Dashboard.OneBadge | frontend/oceanview-frontend/src/pages/Dashboard.jsx:205-219 | exactly one badge is shown; Fully Occupied goes with the red card, Almost Full with one to three free rooms |
| Dashboard.OccupancyTone | frontend/oceanview-frontend/src/pages/Dashboard.jsx:138 | red exactly from 80 percent, green exactly below 50 |
| Dashboard.ToneMonotone | frontend/oceanview-frontend/src/pages/Dashboard.jsx:138 | a higher rate never shows a milder colour |
| Dashboard.RecentIsFirstTen | frontend/oceanview-frontend/src/pages/Dashboard.jsx:245 | the recent table is the first ten reservations, or all when fewer |
| Dashboard.DashboardCountsAddUp | frontend/oceanview-frontend/src/pages/Dashboard.jsx:38-58 | the five status cards together never exceed the bookings, and equal them exactly when every reservation has one of the five statuses |
| Dashboard.DashboardCountsAreSummaryCounts | frontend/oceanview-frontend/src/pages/Dashboard.jsx:38-58 | the bookings and the five status cards equal the summary endpoint's counts over the same reservations |
| Dashboard.IncomeAgreesWithReports | frontend/oceanview-frontend/src/pages/Dashboard.jsx:36-37 | the dashboard's income is the reports page's, and active plus cancelled is all |
| Dashboard.LinePercent | frontend/oceanview-frontend/src/pages/Dashboard.jsx:150 | a room type's percentage is a percentage when not over-booked |
| AddReservationPage.FormQuoteOf | frontend/oceanview-frontend/src/pages/AddReservation.jsx:54-58 | a bill exists exactly when both dates are readable; its night count is positive exactly when check-out is a later day |
| AddReservationPage.Body | frontend/oceanview-frontend/src/pages/AddReservation.jsx:76-90 | the body has no id, the given bill and status Pending |
| AddReservationPage.Submit | frontend/oceanview-frontend/src/pages/AddReservation.jsx:60-92 | missing dates and readable backward stays are refused with their toasts; an edit puts to the edited id and anything else posts; the bill is absent exactly for unreadable dates and otherwise is the form's bill of a forward stay |
| AddReservationPage.SentStayMovesForward | frontend/oceanview-frontend/src/pages/AddReservation.jsx:67-72 | a request sent with a bill has real dates, at least one night, check-out that many days after check-in, and at least one Standard night's bill |
| AddReservationPage.AfterSubmit | frontend/oceanview-frontend/src/pages/AddReservation.jsx:88-107 | success clears the form and ends the edit; a refusal or a failure keeps the page |
| AddReservationPage.HandleChange | frontend/oceanview-frontend/src/pages/AddReservation.jsx:50-52 | only the changed field takes the value |
| AddReservationPage.HandleEdit | frontend/oceanview-frontend/src/pages/AddReservation.jsx:110-122 | the row fills the form, a missing address or contact shows empty, and the row's id is remembered |
| AddReservationPage.HandleCancelEdit | frontend/oceanview-frontend/src/pages/AddReservation.jsx:124-135 | the form is emptied and the edit ended |
| AddReservationPage.HandleDelete | frontend/oceanview-frontend/src/pages/AddReservation.jsx:137-146 | a delete is sent exactly when confirmed, to the row's id |
| AddReservationPage.HandleStatusChange | frontend/oceanview-frontend/src/pages/AddReservation.jsx:148-166 | the row is put back without its id and with the new status, otherwise unchanged |
| AddReservationPage.Preview | frontend/oceanview-frontend/src/pages/AddReservation.jsx:292-304 | a preview shows the form's bill of a forward stay |
| AddReservationPage.PreviewIffSent | frontend/oceanview-frontend/src/pages/AddReservation.jsx:292-304 | on date-input values the preview is shown exactly when submitting sends a request, and it shows the bill that is sent |
| AddReservationPage.UnreadableDateSentWithoutBill | frontend/oceanview-frontend/src/pages/AddReservation.jsx:56-72 | a non-empty unreadable date passes both checks and is sent with no bill and no preview |
| AddReservationPage.BlankRefused | frontend/oceanview-frontend/src/pages/AddReservation.jsx:62-65 | the empty form is never sent |
| AddReservationPage.AddAndEditSendSameBody | frontend/oceanview-frontend/src/pages/AddReservation.jsx:75-90 | an add and an edit of the same form send the same body |
| AddReservationPage.CompleteFormSendsAcceptable | frontend/oceanview-frontend/src/pages/AddReservation.jsx:60-92 | a complete form is posted without an id, with a non-empty status and a body the server's conditions accept |
| AddReservationPage.BodyAcceptable | frontend/oceanview-frontend/src/pages/AddReservation.jsx:60-92 | the body built from a complete form and a bill that is not negative meets the server's conditions |
| AddReservationPage.CompleteFormAccepted | frontend/oceanview-frontend/src/pages/AddReservation.jsx:60-92 | a complete form passes the server's checks and is saved as Pending |
| AddReservationPage.StatusChangeSetsOnlyStatus | frontend/oceanview-frontend/src/pages/AddReservation.jsx:148-160 | a status change of a stored row through the update endpoint changes the status alone |
| AddReservationPage.UnknownStatusRefused | backend/src/main/java/com/oceanview/controllers/ReservationController.java:50-52 | a status outside the five is refused and the store is unchanged |
| AddReservationPage.EditResetsStatus | frontend/oceanview-frontend/src/pages/AddReservation.jsx:76-86 | re-saving an edited row stores it with the bill recomputed, missing address or contact made empty, and the status reset to Pending |
| UserManagementPage.ValidateUser | frontend/oceanview-frontend/src/pages/UserManagement.jsx:9-20 | each field's error appears exactly when that field's condition fails; any non-empty role passes |
| UserManagementPage.PageValidatorIsReferenceButRole | frontend/oceanview-frontend/src/pages/UserManagement.jsx:9-20 | the page and the reference validator agree on every field but the role, where the reference also demands USER or ADMIN |
| UserManagementPage.UnknownRolePassesPage | frontend/oceanview-frontend/src/pages/UserManagement.jsx:17-18 | an unknown role passes the page, fails the reference validator and is stored by the register endpoint |
| UserManagementPage.HandleChange | frontend/oceanview-frontend/src/pages/UserManagement.jsx:58-61 | the field takes the value and only its error is cleared |
| UserManagementPage.Submit | frontend/oceanview-frontend/src/pages/UserManagement.jsx:63-75 | invalid exactly when the page validator reports errors; an edit puts to the edited id, a create registers; the form is the body |
| UserManagementPage.ResetForm | frontend/oceanview-frontend/src/pages/UserManagement.jsx:103-108 | the form is emptied with role USER, the errors cleared, the edit ended and the form hidden |
| UserManagementPage.AfterSubmit | frontend/oceanview-frontend/src/pages/UserManagement.jsx:63-81 | errors are shown when invalid; a sent request clears them and a success resets the form |
| UserManagementPage.HandleEdit | frontend/oceanview-frontend/src/pages/UserManagement.jsx:83-89 | the user fills the form with an empty password and the form is shown |
| UserManagementPage.HandleDelete | frontend/oceanview-frontend/src/pages/UserManagement.jsx:91-101 | deleting oneself is refused before asking; otherwise a delete is sent exactly when confirmed |
| UserManagementPage.TextOf | frontend/oceanview-frontend/src/pages/UserManagement.jsx:111-113 | a truthy field reads as itself, anything else as the empty string |
| UserManagementPage.FilteredUsers | frontend/oceanview-frontend/src/pages/UserManagement.jsx:110-114 | the list keeps exactly the users whose username, email or role contains the search, ignoring case |
| UserManagementPage.EmptySearchShowsAll | frontend/oceanview-frontend/src/pages/UserManagement.jsx:110-114 | an empty search shows every user |
| UserManagementPage.SearchIgnoresCase | frontend/oceanview-frontend/src/pages/UserManagement.jsx:110-114 | searching the lower-cased text finds the same users |
| UserManagementPage.EditAndSaveKeepsAccount | frontend/oceanview-frontend/src/pages/UserManagement.jsx:83-89 | editing a valid stored user and saving unchanged leaves the account as it was, password included |
| UserManagementPage.CreateNeedsPassword | frontend/oceanview-frontend/src/pages/UserManagement.jsx:15-16 | a create without a password is refused with the password error |
| UserManagementPage.NoSelfDeletion | frontend/oceanview-frontend/src/pages/UserManagement.jsx:92 | deleting one's own account is refused whatever the confirmation would say |

## Left out

- HTTP, JSON and the database are not modelled.
  - A request is modelled as the value a handler sends.
  - A response is modelled as the outcome an endpoint returns.
  - The database is a `map` from id to document.
  - The id MongoDB would generate is the parameter `freshId`.
- Toasts, `localStorage` log-in and admin redirects, scrolling, and the
  loading flags are left out. They are I/O with no bearing on the data.
- `window.confirm` is a parameter, `confirmed`. Whether a request
  succeeded is a parameter, `succeeded`.
- Reads that only return the collection are left out, since there is
  nothing to state about them:
  - `getAllReservations` (ReservationController.java:25-28);
  - `getAllUsers` (AuthController.java:77-81);
  - the `test` endpoint (AuthController.java:145-148);
  - the pages' fetch functions.
- Display-only code is left out:
  - the Reports page's charts (Reports.jsx:9-95);
  - its monthly chart data, which reads the clock (Reports.jsx:197-205);
  - both pages' print functions (Reports.jsx:156-173, AddReservation.jsx:168 on);
  - the booking table's night column (AddReservation.jsx:373-375).
- The HTML `required` attributes on the inputs are not modelled.
  - In a browser they stop a submit with empty inputs before the handler
    runs.
  - The model takes the handlers as written, with their own checks.
- The models and the pages outside the core are not part of this model:
  Reservation.java, Register.jsx, Login.jsx, Help.jsx and the layout
  components.
- Bills are whole numbers. The server stores a Java `Double`, and the report
  sums are doubles. Every bill the front end computes is a rate times a whole
  night count, and the model keeps that in `int`.
- ReportsPage.PageStats: the cancellation rate is rounded from the exact
  quotient.
  - JavaScript computes `(cancelled / n) * 100` in floating point before
    rounding, which can land below a half.
  - For example, 29 cancelled of 200 gives 14 in the browser against 15
    exact.
- Text.Trim: strips the six ASCII whitespace characters only.
  - Java's `trim` strips every code unit up to U+0020.
  - JavaScript's `trim` and `\s` also cover Unicode spaces.
  - The two patterns' `\s` are modelled the same way.
- Text.ToLower: lower-cases ASCII letters only.
- Lengths count Dafny characters, which are Unicode scalar values. Java and
  JavaScript count UTF-16 code units, which differs outside the Basic
  Multilingual Plane.
- Text.Less: orders strings by Unicode scalar value. Java's `compareTo` and
  JavaScript's `<` order by UTF-16 code unit. The two orders differ only
  when a character above U+FFFF meets one between U+E000 and U+FFFF.
- IsoDate.Parse: accepts exactly `YYYY-MM-DD` with four-digit years and real
  calendar days.
  - Java's `LocalDate.parse` also accepts signed years of more digits.
  - JavaScript engines differ on impossible days such as 2026-02-30.
  - Such text is treated as unreadable.
- Billing.Nights, Billing.ReferenceBill: require each date to be absent,
  empty or a real `YYYY-MM-DD` date. Other text is not covered.
  - JavaScript's `new Date` gives NaN on text such as `abc`. The reference
    functions then return NaN.
  - `new Date` also reads other forms of the ECMAScript date-time string
    format, such as `2026`, `2026-03` or `2026-03-01T10:00`. On those the
    reference functions return a number.
- AddReservationPage.FormQuoteOf: treats every date text other than
  `YYYY-MM-DD` as unreadable. It then gives no bill, and the page sends a
  null bill (`AddReservationPage.UnreadableDateSentWithoutBill`).
  - This is the browser's behaviour on text `new Date` cannot read.
  - On `2026`, `2026-03` or a date-time, `new Date` reads a time. The page
    would then compute a bill from it, which the model does not.
  - The page's date inputs only produce `YYYY-MM-DD` or the empty string.
- Records.PathSegment: a missing id is written `null`, as a
  template string writes a JSON null. AddReservationPage.HandleDelete,
  AddReservationPage.HandleStatusChange and UserManagementPage.HandleDelete
  all build their paths with it. A row whose id key is absent
  altogether would be written `undefined`. The model takes every row the
  server lists to carry its id, null or not.
- AuthController.View: a response's `Map.of` throws on a null value. The
  model shows this as a server error whenever the id, username, email or role
  is missing. The exception's message is not modelled.
- JavaScript object keys that collide with `Object.prototype` names are
  out of scope. For example, a room type named `constructor` in
  `RATES[roomType]` reads an inherited value.
- Dashboard.Badges: only bounds the count of badges. The exact badge is
  stated by `Dashboard.OneBadge`.
- ValidationService.ValidateReservation: its own contract only bounds the
  list length. Which messages the list holds, and in what order, is stated
  by `ValidationService.ListedIffBroken`. What each check is comes from
  `ValidationService.IdentityMessages`, `ValidationService.DateMessages`
  and `ValidationService.OptionalMessages`.
- ReportController.FilterReservations: its own contract only bounds the
  length. The selection it makes is stated by
  `ReportController.FilterIsSelection`.
- ReportsPage.ClientFilter: its own contract only bounds the length. The
  selection it makes is stated by `ReportsPage.ClientFilterIsSelection`.

## Findings

| source | as written | input that shows it | evidently intended | confidence | as-written member | corrected member |
|---|---|---|---|---|---|---|
| backend/src/main/java/com/oceanview/services/ValidationService.java:87-89 | `List.of(...).contains(status)`. The immutable lists of `List.of` throw `NullPointerException` on `contains(null)` | `isValidStatus(null)` | false for a null status, as ValidationServiceTest.java:315-317 expects | not executed | ValidationService.IsValidStatusAsWritten, ValidationService.NullStatusThrows | ValidationService.IsValidStatus |

The update endpoint only calls the check on a non-null status
(ReservationController.java:50). The model's `ReservationController.Update`
uses the corrected `ValidationService.IsValidStatus`. The two versions agree
on every input the endpoint can pass.

=== FILE: add_reservation_page.dfy ===
/** The booking page: a seven-field form that posts a new reservation or puts
    an edited one, with the bill worked out in the browser; and a table whose
    rows can be edited, deleted or moved to another status. The page's
    handlers are modelled as the request each one sends and the page state
    it leaves. */
module AddReservationPage {
  import opened Wrappers
  import opened Records
  import opened Text
  import opened Patterns
  import opened IsoDate
  import opened Calendar
  import opened Billing
  import opened ValidationService
  import RC = ReservationController

  /** The form state. A field is `None` when an edited reservation lacked
      it. */
  datatype Form = Form(
    reservationNumber: Option<string>,
    guestName: Option<string>,
    address: Option<string>,
    contactNumber: Option<string>,
    roomType: Option<string>,
    checkInDate: Option<string>,
    checkOutDate: Option<string>)

  /** The empty form: every field empty, the room type Standard. */
  const Blank := Form(Some(""), Some(""), Some(""), Some(""), Some(Standard), Some(""), Some(""))

  /** The form and the id of the reservation being edited, if any. */
  datatype Page = Page(form: Form, editId: Option<string>)

  /** What a handler sends: a request, a refusal with the toast it shows, or
      nothing when the user declines the confirmation. */
  datatype Request =
    | Post(body: Reservation)
    | Put(path: string, body: Reservation)
    | Remove(path: string)
    | Refused(message: string)
    | Declined

  const DatesMissingMessage := "Please select check-in and check-out dates"
  const DateOrderMessage := "Check-out date must be after check-in date"

  datatype FormField = NumberField | GuestField | AddressField | ContactField | RoomField | CheckInField | CheckOutField

  /** `value || ""`. */
  function OrEmpty(v: Option<string>): (w: Option<string>)
    ensures Truthy(v) ==> w == v
    ensures !Truthy(v) ==> w == Some("")
  {
    if Truthy(v) then v else Some("")
  }

  /** The form's `calculateBill` on the form's dates, or `None` when
      `new Date` cannot read one of them and the result is NaN. A missing
      room type takes the fall-through rate like any other unknown one,
      which is what the empty string gets. */
  function FormQuoteOf(f: Form): (q: Option<Quote>)
    ensures q.Some? <==> f.checkInDate.Some? && f.checkOutDate.Some?
                         && IsDateText(f.checkInDate.value) && IsDateText(f.checkOutDate.value)
    ensures q.Some? ==>
      && (q.value.nights > 0 <==> DayNumber(f.checkInDate.value) < DayNumber(f.checkOutDate.value))
      && q.value.totalBill == q.value.nights * FormRate(f.roomType.GetOr(""))
  {
    if f.checkInDate.Some? && f.checkOutDate.Some?
       && IsDateText(f.checkInDate.value) && IsDateText(f.checkOutDate.value)
    then
      BeforeIffFewerDays(Parse(f.checkInDate.value).value, Parse(f.checkOutDate.value).value);
      Some(FormQuote(f.roomType.GetOr(""), f.checkInDate.value, f.checkOutDate.value))
    else None
  }

  /** The form as a request body with the given bill and a Pending status.
      The post spreads the form and the put lists its seven fields, so the
      two bodies are the same. */
  function Body(f: Form, bill: Option<int>): (r: Reservation)
    ensures r.id.None? && r.status == Some(Pending) && r.totalBill == bill
  {
    Reservation(None, f.reservationNumber, f.guestName, f.address, f.contactNumber,
                f.roomType, f.checkInDate, f.checkOutDate, bill, Some(Pending))
  }

  /** `handleSubmit`: both dates must be given, and a readable stay must
      move forward; an unreadable date makes the night count NaN, which
      passes the `<= 0` test and is sent as a null bill. An edit puts to the
      edited id, anything else posts. */
  function Submit(p: Page): (q: Request)
    ensures q.Post? || q.Put? || q.Refused?
    ensures q == Refused(DatesMissingMessage) <==> !Truthy(p.form.checkInDate) || !Truthy(p.form.checkOutDate)
    ensures q == Refused(DateOrderMessage) <==>
      Truthy(p.form.checkInDate) && Truthy(p.form.checkOutDate)
      && FormQuoteOf(p.form).Some? && FormQuoteOf(p.form).value.nights <= 0
    ensures q.Put? <==> !q.Refused? && Truthy(p.editId)
    ensures q.Put? ==> q.path == p.editId.value
    ensures q.Post? || q.Put? ==>
      && q.body == Body(p.form, q.body.totalBill)
      && (q.body.totalBill.None? <==> FormQuoteOf(p.form).None?)
      && (q.body.totalBill.Some? ==>
            FormQuoteOf(p.form).value.nights > 0 && q.body.totalBill.value == FormQuoteOf(p.form).value.totalBill)
  {
    var f := p.form;
    if !Truthy(f.checkInDate) || !Truthy(f.checkOutDate) then Refused(DatesMissingMessage)
    else
      var quote := FormQuoteOf(f);
      if quote.Some? && quote.value.nights <= 0 then Refused(DateOrderMessage)
      else
        var body := Body(f, if quote.Some? then Some(quote.value.totalBill) else None);
        if Truthy(p.editId) then Put(p.editId.value, body) else Post(body)
  }

  /** A booking sent with a bill is a stay that moves forward: the night
      count is the number of calendar days from check-in to check-out, at
      least one, and the bill is that many nights at the form's rate, so at
      least one Standard night. */
  lemma SentStayMovesForward(p: Page)
    requires Submit(p).Post? || Submit(p).Put?
    requires Submit(p).body.totalBill.Some?
    ensures var checkIn, checkOut := p.form.checkInDate.value, p.form.checkOutDate.value;
      var nights := Nights(Some(checkIn), Some(checkOut));
      && IsDateText(checkIn) && IsDateText(checkOut)
      && nights >= 1
      && Before(Parse(checkIn).value, Parse(checkOut).value)
      && AddDays(Parse(checkIn).value, nights) == Parse(checkOut).value
      && Submit(p).body.totalBill.value == nights * FormRate(p.form.roomType.GetOr(""))
      && Submit(p).body.totalBill.value >= StandardRate
  {
    var checkIn, checkOut := p.form.checkInDate.value, p.form.checkOutDate.value;
    NightsAreDaySteps(checkIn, checkOut);
    var nights := Nights(Some(checkIn), Some(checkOut));
    var rate := FormRate(p.form.roomType.GetOr(""));
    assert rate >= StandardRate;
    assert nights * rate >= 1 * rate;
  }

  /** The page after the request `Submit` sent has been answered: success
      clears the form and ends an edit, failure keeps everything. */
  function AfterSubmit(p: Page, succeeded: bool): (p': Page)
    ensures Submit(p).Refused? || !succeeded ==> p' == p
    ensures !Submit(p).Refused? && succeeded ==> p'.form == Blank && !Truthy(p'.editId)
  {
    if Submit(p).Refused? || !succeeded then p
    else if Truthy(p.editId) then Page(Blank, None)
    else Page(Blank, p.editId)
  }

  /** `handleChange`: one field takes the input's value. */
  function HandleChange(p: Page, field: FormField, value: string): (p': Page)
    ensures p'.editId == p.editId
    ensures field == NumberField ==> p'.form == p.form.(reservationNumber := Some(value))
    ensures field == GuestField ==> p'.form == p.form.(guestName := Some(value))
    ensures field == AddressField ==> p'.form == p.form.(address := Some(value))
    ensures field == ContactField ==> p'.form == p.form.(contactNumber := Some(value))
    ensures field == RoomField ==> p'.form == p.form.(roomType := Some(value))
    ensures field == CheckInField ==> p'.form == p.form.(checkInDate := Some(value))
    ensures field == CheckOutField ==> p'.form == p.form.(checkOutDate := Some(value))
  {
    var f := p.form;
    var v := Some(value);
    p.(form := match field
      case NumberField => f.(reservationNumber := v)
      case GuestField => f.(guestName := v)
      case AddressField => f.(address := v)
      case ContactField => f.(contactNumber := v)
      case RoomField => f.(roomType := v)
      case CheckInField => f.(checkInDate := v)
      case CheckOutField => f.(checkOutDate := v))
  }

  /** `handleEdit`: the row's fields fill the form, with a missing address
      or contact number shown as empty, and the row's id is remembered. */
  function HandleEdit(r: Reservation): (p: Page)
    ensures p.editId == r.id
    ensures p.form.address == OrEmpty(r.address) && p.form.contactNumber == OrEmpty(r.contactNumber)
    ensures Body(p.form, r.totalBill).(status := r.status, id := r.id, address := r.address, contactNumber := r.contactNumber) == r
  {
    Page(Form(r.reservationNumber, r.guestName, OrEmpty(r.address), OrEmpty(r.contactNumber),
              r.roomType, r.checkInDate, r.checkOutDate), r.id)
  }

  /** `handleCancelEdit`. */
  function HandleCancelEdit(p: Page): (p': Page)
    ensures p'.form == Blank && p'.editId.None?
  {
    Page(Blank, None)
  }

  /** `handleDelete`: the confirmation is the user's answer. */
  function HandleDelete(id: Option<string>, confirmed: bool): (q: Request)
    ensures q.Remove? <==> confirmed
    ensures q.Remove? ==> q.path == PathSegment(id)
    ensures !confirmed ==> q == Declined
  {
    if confirmed then Remove(PathSegment(id)) else Declined
  }

  /** `handleStatusChange`: the row is put back as it is, without its id and
      with the chosen status. */
  function HandleStatusChange(r: Reservation, newStatus: string): (q: Request)
    ensures q.Put? && q.path == PathSegment(r.id)
    ensures q.body.id.None? && q.body.status == Some(newStatus)
    ensures q.body.(id := r.id, status := r.status) == r
  {
    Put(PathSegment(r.id), r.(id := None, status := Some(newStatus)))
  }

  /** The estimated bill under the date inputs: shown when both dates are
      given and check-out is later, a comparison an unreadable date always
      fails. */
  function Preview(f: Form): (q: Option<Quote>)
    ensures q.Some? ==> FormQuoteOf(f) == q && q.value.nights > 0
  {
    var quote := FormQuoteOf(f);
    if Truthy(f.checkInDate) && Truthy(f.checkOutDate) && quote.Some?
       && DayNumber(f.checkInDate.value) < DayNumber(f.checkOutDate.value)
    then quote else None
  }

  // ------------------------------------------------------------- properties

  /** On dates a date input can hold, the preview is shown exactly when
      submitting sends a request, and it shows the bill that is sent. */
  lemma PreviewIffSent(p: Page)
    requires IsDateField(p.form.checkInDate) && IsDateField(p.form.checkOutDate)
    ensures Preview(p.form).Some? <==> !Submit(p).Refused?
    ensures Preview(p.form).Some? ==> Submit(p).body.totalBill == Some(Preview(p.form).value.totalBill)
  {
  }

  /** An unreadable date that is not empty gets past both checks, and the
      booking is sent without a bill and without a preview. */
  lemma UnreadableDateSentWithoutBill(p: Page)
    requires Truthy(p.form.checkInDate) && Truthy(p.form.checkOutDate)
    requires !IsDateText(p.form.checkInDate.value) || !IsDateText(p.form.checkOutDate.value)
    ensures !Submit(p).Refused? && Submit(p).body.totalBill.None?
    ensures Preview(p.form).None?
  {
  }

  /** The empty form is never sent. */
  lemma BlankRefused(editId: Option<string>)
    ensures Submit(Page(Blank, editId)) == Refused(DatesMissingMessage)
    ensures Submit(HandleCancelEdit(Page(Blank, editId))) == Refused(DatesMissingMessage)
  {
  }

  /** An add and an edit of the same form send the same body. */
  lemma AddAndEditSendSameBody(f: Form, id: string)
    requires id != ""
    ensures Submit(Page(f, None)).Post? <==> Submit(Page(f, Some(id))).Put?
    ensures Submit(Page(f, None)).Post? ==>
      Submit(Page(f, Some(id))) == Put(id, Submit(Page(f, None)).body)
  {
  }

  /** A booking made from a complete form (a non-blank number, a guest name
      of two or more characters, one of the three room types, a well-formed
      or empty contact number, two real dates in order) passes the server's
      checks, and the create endpoint saves it as Pending. */
  lemma CompleteFormAccepted(f: Form, s: RC.Store, freshId: string)
    requires f.reservationNumber.Some? && !IsBlank(f.reservationNumber.value)
    requires f.guestName.Some? && |Trim(f.guestName.value)| >= 2
    requires f.roomType.Some? && IsRoomType(f.roomType.value)
    requires !Truthy(f.contactNumber) || IsContactNumber(f.contactNumber.value)
    requires f.checkInDate.Some? && f.checkOutDate.Some?
    requires IsDateText(f.checkInDate.value) && IsDateText(f.checkOutDate.value)
    requires DayNumber(f.checkInDate.value) < DayNumber(f.checkOutDate.value)
    requires freshId !in s
    ensures Submit(Page(f, None)).Post?
    ensures var body := Submit(Page(f, None)).body;
      && ValidateReservation(body) == []
      && RC.Create(s, body, freshId).outcome == RC.Saved(body.(id := Some(freshId)))
  {
    CompleteFormSendsAcceptable(f);
    var body := Submit(Page(f, None)).body;
    AcceptedIffAcceptable(body);
    var st := RC.Create(s, body, freshId);
    assert st.outcome.Saved?;
    assert st.outcome.reservation == body.(id := Some(freshId));
  }

  /** A complete form is posted, with a body the server's checks accept. */
  lemma CompleteFormSendsAcceptable(f: Form)
    requires f.reservationNumber.Some? && !IsBlank(f.reservationNumber.value)
    requires f.guestName.Some? && |Trim(f.guestName.value)| >= 2
    requires f.roomType.Some? && IsRoomType(f.roomType.value)
    requires !Truthy(f.contactNumber) || IsContactNumber(f.contactNumber.value)
    requires f.checkInDate.Some? && f.checkOutDate.Some?
    requires IsDateText(f.checkInDate.value) && IsDateText(f.checkOutDate.value)
    requires DayNumber(f.checkInDate.value) < DayNumber(f.checkOutDate.value)
    ensures Submit(Page(f, None)).Post?
    ensures var body := Submit(Page(f, None)).body;
      Acceptable(body) && body.id.None? && Truthy(body.status)
  {
    var p := Page(f, None);
    assert Truthy(f.checkInDate) && Truthy(f.checkOutDate) by {
      assert !IsDateText("");
    }
    var q := FormQuoteOf(f);
    assert q.Some? && q.value.nights > 0;
    assert Submit(p) == Post(Body(f, Some(q.value.totalBill)));
    SentStayMovesForward(p);
    BodyAcceptable(f, Some(q.value.totalBill));
  }

  /** The body built from a complete form and a bill that is not negative
      passes the server's checks. */
  lemma BodyAcceptable(f: Form, bill: Option<int>)
    requires f.reservationNumber.Some? && !IsBlank(f.reservationNumber.value)
    requires f.guestName.Some? && |Trim(f.guestName.value)| >= 2
    requires f.roomType.Some? && IsRoomType(f.roomType.value)
    requires !Truthy(f.contactNumber) || IsContactNumber(f.contactNumber.value)
    requires f.checkInDate.Some? && f.checkOutDate.Some?
    requires IsDateText(f.checkInDate.value) && IsDateText(f.checkOutDate.value)
    requires DayNumber(f.checkInDate.value) < DayNumber(f.checkOutDate.value)
    requires bill.Some? && bill.value >= 0
    ensures Acceptable(Body(f, bill))
  {
    if Truthy(f.contactNumber) {
      ContactNumberMatchesPattern(f.contactNumber.value);
    }
  }


  /** A status change of a stored row goes through the update endpoint as a
      change of the status alone. */
  lemma StatusChangeSetsOnlyStatus(s: RC.Store, r: Reservation, newStatus: string)
    requires r.id.Some? && r.id.value in s && s[r.id.value] == r
    requires IsStatus(newStatus)
    ensures var q := HandleStatusChange(r, newStatus);
      RC.Update(s, q.path, q.body) == RC.Step(s[r.id.value := WithStatus(r, newStatus)], RC.Saved(WithStatus(r, newStatus)))
  {
  }

  /** A status outside the five is refused by the update endpoint and the
      row is left as it was. */
  lemma UnknownStatusRefused(s: RC.Store, r: Reservation, newStatus: string)
    requires !IsStatus(newStatus)
    ensures var q := HandleStatusChange(r, newStatus);
      RC.Update(s, q.path, q.body) == RC.Step(s, RC.InvalidStatus)
  {
  }

  /** Editing a stored row and submitting it unchanged stores it with the
      bill worked out again, a missing address or contact number turned
      into an empty one, and the status reset to Pending. */
  lemma EditResetsStatus(s: RC.Store, r: Reservation)
    requires Truthy(r.id) && r.id.value in s && s[r.id.value] == r
    requires r.checkInDate.Some? && r.checkOutDate.Some?
    requires IsDateText(r.checkInDate.value) && IsDateText(r.checkOutDate.value)
    requires DayNumber(r.checkInDate.value) < DayNumber(r.checkOutDate.value)
    ensures var q := Submit(HandleEdit(r));
      var bill := FormQuote(r.roomType.GetOr(""), r.checkInDate.value, r.checkOutDate.value).totalBill;
      var edited := r.(address := OrEmpty(r.address), contactNumber := OrEmpty(r.contactNumber),
                       totalBill := Some(bill), status := Some(Pending));
      && q == Put(r.id.value, q.body)
      && RC.Update(s, q.path, q.body) == RC.Step(s[r.id.value := edited], RC.Saved(edited))
  {
    var q := Submit(HandleEdit(r));
    assert q.Put?;
  }
}

=== FILE: auth_controller.dfy ===
/** The account endpoints as transitions of the user collection: register,
    log in, read, update, delete and change a password. The collection is a
    map from id to user; a lookup by username or email is a query that may
    match several users, and the repository's single-result query throws
    when it does. */
module AuthController {
  import opened Wrappers
  import opened Records

  type Users = map<string, User>

  /** Every user is stored under its own id. */
  predicate WellKeyed(s: Users) {
    forall k :: k in s ==> s[k].id == Some(k)
  }

  /** The ids of the users whose field, as `field` reads it, equals `v`. */
  function Matching(s: Users, field: User -> Option<string>, v: Option<string>): (ks: set<string>)
    ensures forall k :: k in ks <==> k in s && field(s[k]) == v
  {
    set k | k in s && field(s[k]) == v
  }

  function Username(u: User): Option<string> { u.username }
  function Email(u: User): Option<string> { u.email }

  /** No two users share a username. */
  predicate UniqueUsernames(s: Users) {
    forall a, b :: a in s && b in s && s[a].username == s[b].username ==> a == b
  }

  /** What a single-result query finds. */
  datatype Lookup = NoMatch | One(key: string) | Many

  lemma SingletonHasMember(ks: set<string>)
    requires |ks| == 1
    ensures exists k :: ks == {k}
  {
    var k :| k in ks;
    assert |ks - {k}| == 0;
  }

  /** `findByUsername` / `findByEmail`: no match, the one match, or more than
      one (which the query reports by throwing). */
  function FindBy(s: Users, field: User -> Option<string>, v: Option<string>): (l: Lookup)
    ensures l.NoMatch? <==> forall k :: k in s ==> field(s[k]) != v
    ensures l.One? ==> l.key in s && field(s[l.key]) == v
    ensures l.One? ==> forall k :: k in s && field(s[k]) == v ==> k == l.key
    ensures l.Many? <==> exists a, b :: a in s && b in s && a != b && field(s[a]) == v && field(s[b]) == v
    ensures l.NoMatch? <==> Matching(s, field, v) == {}
    ensures l.One? <==> |Matching(s, field, v)| == 1
    ensures l.Many? <==> |Matching(s, field, v)| >= 2
  {
    var ks := Matching(s, field, v);
    if |ks| == 0 then NoMatch
    else if |ks| == 1 then
      SingletonHasMember(ks);
      var k :| ks == {k};
      One(k)
    else
      var a :| a in ks;
      assert |ks - {a}| > 0;
      var b :| b in ks - {a};
      Many
  }

  /** A query that exactly one user matches finds that user. */
  lemma FindUnique(s: Users, field: User -> Option<string>, v: Option<string>, k: string)
    requires k in s && field(s[k]) == v
    requires forall j :: j in s && field(s[j]) == v ==> j == k
    ensures FindBy(s, field, v) == One(k)
  {
  }

  /** With unique usernames a username lookup never finds several users. */
  lemma UniqueUsernameLookup(s: Users, v: Option<string>)
    requires UniqueUsernames(s)
    ensures !FindBy(s, Username, v).Many?
  {
  }

  /** What a user looks like in a response: no password. */
  datatype UserView = UserView(id: string, username: string, email: string, role: string)

  /** The `Map.of` the responses build refuses null values, so a user with a
      missing id, username, email or role cannot be shown. */
  function View(u: User): (v: Option<UserView>)
    ensures v.Some? ==> Some(v.value.id) == u.id && Some(v.value.username) == u.username
    ensures v.Some? ==> Some(v.value.email) == u.email && Some(v.value.role) == u.role
  {
    if u.id.Some? && u.username.Some? && u.email.Some? && u.role.Some?
    then Some(UserView(u.id.value, u.username.value, u.email.value, u.role.value))
    else None
  }

  datatype Message =
    | UsernameExists
    | EmailExists
    | PasswordTooShort
    | UserNotFound
    | InvalidPassword
    | UserUpdated
    | UserDeleted
    | OldPasswordIncorrect
    | NewPasswordTooShort
    | PasswordChanged
  {
    function Text(): string {
      match this
      case UsernameExists => "Username already exists"
      case EmailExists => "Email already exists"
      case PasswordTooShort => "Password must be at least 4 characters"
      case UserNotFound => "User not found"
      case InvalidPassword => "Invalid password"
      case UserUpdated => "User updated successfully"
      case UserDeleted => "User deleted successfully"
      case OldPasswordIncorrect => "Old password is incorrect"
      case NewPasswordTooShort => "New password must be at least 4 characters"
      case PasswordChanged => "Password changed successfully"
    }
  }

  datatype Outcome =
    | Registered(username: string, role: string)  // 200 "Registration successful"
    | Profile(view: UserView)                     // 200 with the user, no password
    | Done(message: Message)                      // 200 with a message
    | Refused(code: int, message: Message)        // 400, 401 or 404 with a message
    | ServerError                                 // 500: an exception escaped
  {
    function Code(): int {
      match this
      case Registered(_, _) => 200
      case Profile(_) => 200
      case Done(_) => 200
      case Refused(c, _) => c
      case ServerError => 500
    }
  }

  datatype Step = Step(users: Users, outcome: Outcome)

  /** A password the register endpoint accepts. */
  predicate LongEnough(p: Option<string>) {
    p.Some? && |p.value| >= 4
  }

  /** `POST /api/auth/register`: the username, then the email, must be
      unused; the password must have four characters; a missing or empty
      role becomes USER. The user is saved before the response is built, so
      a user without a username is stored and the request still fails. */
  function Register(s: Users, u: User, freshId: string): (st: Step)
    requires freshId !in s
    ensures st.outcome.Registered? || st.outcome.Refused? || st.outcome.ServerError?
    ensures st.outcome.Refused? ==> st.users == s && st.outcome.code == 400
    ensures st.outcome.Registered? ==>
      && (forall k :: k in s ==> s[k].username != u.username && s[k].email != u.email)
      && LongEnough(u.password)
      && Some(st.outcome.username) == u.username
    ensures st.outcome.Registered? || st.users != s ==>
      && (forall k :: k in s ==> s[k].username != u.username && s[k].email != u.email)
      && LongEnough(u.password)
      && var id := if u.id.Some? then u.id.value else freshId;
         && id in st.users
         && st.users == s[id := u.(id := Some(id), role := st.users[id].role)]
         && st.users[id].role == Some(if Truthy(u.role) then u.role.value else UserRole)
    ensures st.outcome.Registered? ==> st.outcome.role == (if Truthy(u.role) then u.role.value else UserRole)
    ensures st.outcome == Refused(400, UsernameExists) <==> |Matching(s, Username, u.username)| == 1
    ensures st.outcome == Refused(400, EmailExists) <==>
      Matching(s, Username, u.username) == {} && |Matching(s, Email, u.email)| == 1
    ensures st.outcome == Refused(400, PasswordTooShort) <==>
      Matching(s, Username, u.username) == {} && Matching(s, Email, u.email) == {} && !LongEnough(u.password)
  {
    match FindBy(s, Username, u.username)
    case Many => Step(s, ServerError)
    case One(_) => Step(s, Refused(400, UsernameExists))
    case NoMatch =>
      match FindBy(s, Email, u.email)
      case Many => Step(s, ServerError)
      case One(_) => Step(s, Refused(400, EmailExists))
      case NoMatch =>
        if !LongEnough(u.password) then Step(s, Refused(400, PasswordTooShort))
        else
          var role := if Truthy(u.role) then u.role.value else UserRole;
          var id := if u.id.Some? then u.id.value else freshId;
          var saved := u.(id := Some(id), role := Some(role));
          var s' := s[id := saved];
          if saved.username.None? then Step(s', ServerError)
          else Step(s', Registered(saved.username.value, role))
  }

  /** A successful registration keeps usernames unique. */
  lemma RegisterKeepsUsernamesUnique(s: Users, u: User, freshId: string)
    requires freshId !in s && UniqueUsernames(s)
    ensures UniqueUsernames(Register(s, u, freshId).users)
  {
  }

  /** `POST /api/auth/login`: the user named in the body, then the password
      compared with `equals` on the stored one (a missing stored password
      throws). */
  function Login(s: Users, login: User): (o: Outcome)
    ensures o.Profile? ==>
      exists k :: k in s && s[k].username == login.username && s[k].password.Some?
        && s[k].password == login.password && View(s[k]) == Some(o.view)
    ensures o.Refused? ==> o.code == 401
    ensures o == Refused(401, UserNotFound) <==> forall k :: k in s ==> s[k].username != login.username
    ensures o == Refused(401, InvalidPassword) <==>
      && |Matching(s, Username, login.username)| == 1
      && forall k :: k in Matching(s, Username, login.username) ==>
           s[k].password.Some? && s[k].password != login.password
    ensures o.Profile? <==>
      && |Matching(s, Username, login.username)| == 1
      && forall k :: k in Matching(s, Username, login.username) ==>
           s[k].password.Some? && s[k].password == login.password && View(s[k]).Some?
  {
    match FindBy(s, Username, login.username)
    case NoMatch => Refused(401, UserNotFound)
    case Many => ServerError
    case One(k) =>
      var user := s[k];
      if user.password.None? then ServerError
      else if user.password != login.password then Refused(401, InvalidPassword)
      else match View(user)
        case None => ServerError
        case Some(v) => Profile(v)
  }

  /** A user who registers with an email can log in with the same
      credentials straight away. */
  lemma RegisterThenLogin(s: Users, u: User, freshId: string)
    requires freshId !in s
    requires u.email.Some?
    requires Register(s, u, freshId).outcome.Registered?
    ensures Login(Register(s, u, freshId).users, u).Profile?
  {
    var st := Register(s, u, freshId);
    var id := if u.id.Some? then u.id.value else freshId;
    assert forall k :: k in st.users && Username(st.users[k]) == u.username ==> k == id;
    FindUnique(st.users, Username, u.username, id);
  }

  /** `GET /api/auth/users/{id}`. */
  function GetUserById(s: Users, id: string): (o: Outcome)
    ensures o == Refused(404, UserNotFound) <==> id !in s
    ensures o.Profile? ==> id in s && View(s[id]) == Some(o.view)
    ensures o.Profile? || o.ServerError? || o.Refused?
  {
    if id !in s then Refused(404, UserNotFound)
    else match View(s[id])
      case None => ServerError
      case Some(v) => Profile(v)
  }

  /** The body of the update endpoint merged into the stored user: username,
      email and role when given, the password only when given and not
      empty. */
  function PatchUser(existing: User, body: User): (u: User)
    ensures u.id == existing.id
    ensures Overlays(u.username, body.username, existing.username)
    ensures Overlays(u.email, body.email, existing.email)
    ensures Overlays(u.role, body.role, existing.role)
    ensures Truthy(body.password) ==> u.password == body.password
    ensures !Truthy(body.password) ==> u.password == existing.password
    ensures body.username.None? && body.email.None? && body.role.None? && !Truthy(body.password)
            ==> u == existing
  {
    existing.(
      username := if body.username.Some? then body.username else existing.username,
      email := if body.email.Some? then body.email else existing.email,
      password := if Truthy(body.password) then body.password else existing.password,
      role := if body.role.Some? then body.role else existing.role)
  }

  /** `PUT /api/auth/users/{id}`: no check at all on what is written. */
  function UpdateUser(s: Users, id: string, body: User): (st: Step)
    ensures st.outcome == Done(UserUpdated) <==> id in s
    ensures st.outcome.Done? || st.outcome == Refused(404, UserNotFound)
    ensures st.outcome.Done? ==> id in s && st.users == s[id := PatchUser(s[id], body)]
    ensures !st.outcome.Done? ==> st.users == s
    ensures WellKeyed(s) ==> WellKeyed(st.users)
  {
    if id !in s then Step(s, Refused(404, UserNotFound))
    else Step(s[id := PatchUser(s[id], body)], Done(UserUpdated))
  }

  /** Because the update endpoint does not look for clashes, renaming one
      user to another's name is accepted, and from then on every login with
      that name fails with a server error. */
  lemma UpdateCanDuplicateUsername(s: Users, a: string, b: string, password: Option<string>)
    requires a in s && b in s && a != b && s[a].username.Some?
    ensures var st := UpdateUser(s, b, User(None, s[a].username, None, None, None));
      && st.outcome == Done(UserUpdated)
      && !UniqueUsernames(st.users)
      && Login(st.users, User(None, s[a].username, None, password, None)) == ServerError
  {
    var st := UpdateUser(s, b, User(None, s[a].username, None, None, None));
    assert st.users[a].username == st.users[b].username;
    assert FindBy(st.users, Username, s[a].username).Many?;
  }

  /** `DELETE /api/auth/users/{id}`. */
  function DeleteUser(s: Users, id: string): (st: Step)
    ensures st.outcome == Done(UserDeleted) <==> id in s
    ensures st.outcome.Done? || st.outcome == Refused(404, UserNotFound)
    ensures st.users == s - {id}
    ensures WellKeyed(s) ==> WellKeyed(st.users)
    ensures UniqueUsernames(s) ==> UniqueUsernames(st.users)
  {
    if id !in s then Step(s, Refused(404, UserNotFound)) else Step(s - {id}, Done(UserDeleted))
  }

  /** `PUT /api/auth/users/{id}/change-password`: the old password must be
      the stored one (a missing stored password throws), and the new one
      must have four characters. */
  function ChangePassword(s: Users, id: string, oldPassword: Option<string>, newPassword: Option<string>): (st: Step)
    ensures st.outcome == Done(PasswordChanged) <==>
      id in s && s[id].password.Some? && s[id].password == oldPassword && LongEnough(newPassword)
    ensures st.outcome.Done? ==> id in s && st.users == s[id := s[id].(password := newPassword)]
    ensures !st.outcome.Done? ==> st.users == s
    ensures st.outcome == Refused(404, UserNotFound) <==> id !in s
    ensures st.outcome == ServerError <==> id in s && s[id].password.None?
    ensures st.outcome == Refused(400, OldPasswordIncorrect) <==>
      id in s && s[id].password.Some? && s[id].password != oldPassword
    ensures st.outcome == Refused(400, NewPasswordTooShort) <==>
      id in s && s[id].password.Some? && s[id].password == oldPassword && !LongEnough(newPassword)
    ensures WellKeyed(s) ==> WellKeyed(st.users)
    ensures UniqueUsernames(s) ==> UniqueUsernames(st.users)
  {
    if id !in s then Step(s, Refused(404, UserNotFound))
    else
      var user := s[id];
      if user.password.None? then Step(s, ServerError)
      else if user.password != oldPassword then Step(s, Refused(400, OldPasswordIncorrect))
      else if !LongEnough(newPassword) then Step(s, Refused(400, NewPasswordTooShort))
      else Step(s[id := user.(password := newPassword)], Done(PasswordChanged))
  }

  /** After a password change the new password logs in and a different old
      one no longer does. */
  lemma ChangePasswordThenLogin(s: Users, id: string, oldPassword: Option<string>, newPassword: Option<string>)
    requires UniqueUsernames(s)
    requires ChangePassword(s, id, oldPassword, newPassword).outcome.Done?
    requires oldPassword != newPassword
    ensures var s' := ChangePassword(s, id, oldPassword, newPassword).users;
      && Login(s', User(None, s[id].username, None, oldPassword, None)) == Refused(401, InvalidPassword)
      && (View(s[id]).Some? ==> Login(s', User(None, s[id].username, None, newPassword, None)).Profile?)
  {
    var s' := ChangePassword(s, id, oldPassword, newPassword).users;
    assert UniqueUsernames(s');
    assert s'[id].username == s[id].username;
    FindUnique(s', Username, s[id].username, id);
  }
}

=== FILE: billing.dfy ===
/** The three copies of the bill calculation: the reference functions the
    front-end unit tests pin down, the booking form's own calculation, and
    the back-end's `LocalDate` version. A bill is the nightly rate of the
    room type times the number of nights; the copies differ only on unknown
    room types and on stays that do not move forward in time. */
module Billing {
  import opened Wrappers
  import opened Calendar
  import opened IsoDate
  import opened Records

  const StandardRate := 5000
  const DeluxeRate := 8000
  const SuiteRate := 12000

  /** The `RATES` table: a rate for each of the three room types and none
      for anything else. */
  function Rate(roomType: string): (r: Option<int>)
    ensures r.Some? <==> IsRoomType(roomType)
    ensures r.Some? ==> r.value in {StandardRate, DeluxeRate, SuiteRate}
  {
    if roomType == Standard then Some(StandardRate)
    else if roomType == Deluxe then Some(DeluxeRate)
    else if roomType == Suite then Some(SuiteRate)
    else None
  }

  /** What a date field may hold: nothing, the empty string of an untouched
      date input, or a complete `YYYY-MM-DD` date. */
  predicate IsDateField(v: Option<string>) {
    !Truthy(v) || IsDateText(v.value)
  }

  /** `calculateNights`: zero unless both dates are given, otherwise the
      whole days from check-in to check-out, never negative. The millisecond
      difference of two UTC midnights is a whole number of days, so the
      rounding step is exact. */
  function Nights(checkIn: Option<string>, checkOut: Option<string>): (n: nat)
    requires IsDateField(checkIn) && IsDateField(checkOut)
    ensures !Truthy(checkIn) || !Truthy(checkOut) ==> n == 0
  {
    if !Truthy(checkIn) || !Truthy(checkOut) then 0
    else
      var diff := DayNumber(checkOut.value) - DayNumber(checkIn.value);
      if diff > 0 then diff else 0
  }

  /** `calculateBill` of the unit tests: nights times the rate, with an
      unknown room type billed at zero. */
  function ReferenceBill(roomType: Option<string>, checkIn: Option<string>, checkOut: Option<string>): (b: nat)
    requires IsDateField(checkIn) && IsDateField(checkOut)
    ensures roomType.None? || !IsRoomType(roomType.value) ==> b == 0
    ensures roomType.Some? && IsRoomType(roomType.value) ==> b == Nights(checkIn, checkOut) * Rate(roomType.value).value
  {
    var rate := if roomType.Some? then Rate(roomType.value).GetOr(0) else 0;
    var nights := Nights(checkIn, checkOut);
    ProductNonNegative(nights, rate);
    nights * rate
  }

  lemma ProductNonNegative(a: int, b: int)
    requires a >= 0 && b >= 0
    ensures a * b >= 0
  {
  }

  /** The night count and the night count in the direction of time: a
      positive count is the number of calendar successors from check-in to
      check-out, and the count is positive exactly when check-out is later. */
  lemma NightsAreDaySteps(checkIn: string, checkOut: string)
    requires IsDateText(checkIn) && IsDateText(checkOut)
    ensures var n := Nights(Some(checkIn), Some(checkOut));
      && (n > 0 <==> Before(Parse(checkIn).value, Parse(checkOut).value))
      && (n > 0 ==> AddDays(Parse(checkIn).value, n) == Parse(checkOut).value)
  {
    var a, b := Parse(checkIn).value, Parse(checkOut).value;
    BeforeIffFewerDays(a, b);
    if Before(a, b) {
      BeforeIffFewerDays(b, a);
      AddDaysReaches(a, b);
    }
  }

  /** The booking form's rate: anything that is neither Standard nor Deluxe
      is charged the Suite rate. */
  function FormRate(roomType: string): (r: int)
    ensures IsRoomType(roomType) ==> Some(r) == Rate(roomType)
    ensures !IsRoomType(roomType) ==> r == SuiteRate
  {
    if roomType == Standard then StandardRate
    else if roomType == Deluxe then DeluxeRate
    else SuiteRate
  }

  /** The booking form's `{ nights, totalBill }`. */
  datatype Quote = Quote(nights: int, totalBill: int)

  /** The booking form's `calculateBill`: the signed day difference, not
      clamped, times the form's rate. */
  function FormQuote(roomType: string, checkIn: string, checkOut: string): (q: Quote)
    requires IsDateText(checkIn) && IsDateText(checkOut)
    ensures q.nights > 0 <==> Before(Parse(checkIn).value, Parse(checkOut).value)
    ensures q.nights == 0 <==> checkIn == checkOut
    ensures q.nights >= 0 ==> AddDays(Parse(checkIn).value, q.nights) == Parse(checkOut).value
    ensures q.nights <= 0 ==> AddDays(Parse(checkOut).value, -q.nights) == Parse(checkIn).value
    ensures q.totalBill == q.nights * FormRate(roomType)
  {
    var a, b := Parse(checkIn).value, Parse(checkOut).value;
    BeforeIffFewerDays(a, b);
    BeforeIffFewerDays(b, a);
    TextOrderIsDayOrder(checkIn, checkOut);
    var nights := DayNumber(checkOut) - DayNumber(checkIn);
    assert nights >= 0 ==> AddDays(a, nights) == b by {
      if nights >= 0 { AddDaysReaches(a, b); }
    }
    assert nights <= 0 ==> AddDays(b, -nights) == a by {
      if nights <= 0 { AddDaysReaches(b, a); }
    }
    Quote(nights, nights * FormRate(roomType))
  }

  /** Why the back-end calculation throws. */
  datatype BillError =
    | DateParseError            // `DateTimeParseException` from `LocalDate.parse`
    | InvalidRoomType(roomType: string)  // `IllegalArgumentException` from the rate switch

  /** The back-end `calculateBill`: both dates are parsed first, then the
      rate is chosen, and the signed `DAYS.between` count is multiplied by
      it. */
  function ServerBill(roomType: string, checkIn: string, checkOut: string): (r: Result<int, BillError>)
    ensures r == Err(DateParseError) <==> !IsDateText(checkIn) || !IsDateText(checkOut)
    ensures r.Err? && r.error.InvalidRoomType? ==> r.error.roomType == roomType && !IsRoomType(roomType)
    ensures r.Ok? <==> IsDateText(checkIn) && IsDateText(checkOut) && IsRoomType(roomType)
    ensures r.Ok? ==> r.value == FormQuote(roomType, checkIn, checkOut).totalBill
  {
    match (Parse(checkIn), Parse(checkOut))
    case (Some(a), Some(b)) =>
      var nights := DaysFromCivil(b) - DaysFromCivil(a);
      if roomType == Standard then Ok(nights * StandardRate)
      else if roomType == Deluxe then Ok(nights * DeluxeRate)
      else if roomType == Suite then Ok(nights * SuiteRate)
      else Err(InvalidRoomType(roomType))
    case _ => Err(DateParseError)
  }

  /** For a real room type and a stay that moves forward, the three copies
      give the same bill, and it is the rate times the number of calendar
      successors from check-in to check-out. */
  lemma BillCopiesAgree(roomType: string, checkIn: string, checkOut: string)
    requires IsRoomType(roomType) && IsDateText(checkIn) && IsDateText(checkOut)
    requires Before(Parse(checkIn).value, Parse(checkOut).value)
    ensures var n := Nights(Some(checkIn), Some(checkOut));
      && n > 0
      && AddDays(Parse(checkIn).value, n) == Parse(checkOut).value
      && ReferenceBill(Some(roomType), Some(checkIn), Some(checkOut)) == n * Rate(roomType).value
      && FormQuote(roomType, checkIn, checkOut) == Quote(n, n * Rate(roomType).value)
      && ServerBill(roomType, checkIn, checkOut) == Ok(n * Rate(roomType).value)
  {
    NightsAreDaySteps(checkIn, checkOut);
  }

  /** An unknown room type: the reference functions bill nothing, the form
      bills the Suite rate, the server throws. */
  lemma UnknownRoomTypeDisagrees(roomType: string, checkIn: string, checkOut: string)
    requires !IsRoomType(roomType) && IsDateText(checkIn) && IsDateText(checkOut)
    ensures ReferenceBill(Some(roomType), Some(checkIn), Some(checkOut)) == 0
    ensures FormQuote(roomType, checkIn, checkOut).totalBill
              == FormQuote(roomType, checkIn, checkOut).nights * SuiteRate
    ensures ServerBill(roomType, checkIn, checkOut) == Err(InvalidRoomType(roomType))
  {
  }

  /** A stay that does not move forward: the reference functions clamp to
      zero nights, while the form and the server keep the non-positive day
      difference. */
  lemma BackwardStayDisagrees(roomType: string, checkIn: string, checkOut: string)
    requires IsRoomType(roomType) && IsDateText(checkIn) && IsDateText(checkOut)
    requires !Before(Parse(checkIn).value, Parse(checkOut).value)
    ensures ReferenceBill(Some(roomType), Some(checkIn), Some(checkOut)) == 0
    ensures FormQuote(roomType, checkIn, checkOut).nights <= 0
    ensures AddDays(Parse(checkOut).value, -FormQuote(roomType, checkIn, checkOut).nights) == Parse(checkIn).value
    ensures ServerBill(roomType, checkIn, checkOut)
              == Ok(FormQuote(roomType, checkIn, checkOut).totalBill)
  {
    BeforeIffFewerDays(Parse(checkIn).value, Parse(checkOut).value);
  }

  /** The four-digit years of the examples. */
  lemma YearDigits()
    ensures Digits(2026, 4) == "2026" && Digits(2027, 4) == "2027"
  {
    assert Digits(202, 3) == "202";
  }

  /** The two-digit months and days of the examples. */
  lemma MonthDayDigits()
    ensures Digits(1, 2) == "01" && Digits(2, 2) == "02" && Digits(4, 2) == "04" && Digits(5, 2) == "05"
    ensures Digits(12, 2) == "12" && Digits(28, 2) == "28" && Digits(30, 2) == "30"
  {
  }

  /** The dates of the month-boundary example, written out. */
  lemma MonthExampleDates()
    ensures Format(Date(2026, 4, 28)) == "2026-04-28" && Format(Date(2026, 5, 2)) == "2026-05-02"
  {
    YearDigits();
    MonthDayDigits();
  }

  /** The dates of the year-boundary example, written out. */
  lemma YearExampleDates()
    ensures Format(Date(2026, 12, 30)) == "2026-12-30" && Format(Date(2027, 1, 2)) == "2027-01-02"
  {
    YearDigits();
    MonthDayDigits();
  }

  /** Four nights across the end of April: 20000 at the Standard rate. */
  lemma MonthBoundaryBill()
    ensures IsDateText("2026-04-28") && IsDateText("2026-05-02")
    ensures Nights(Some("2026-04-28"), Some("2026-05-02")) == 4
    ensures ServerBill(Standard, "2026-04-28", "2026-05-02") == Ok(20000)
  {
    MonthExampleDates();
    ParseFormatted("2026-04-28", Date(2026, 4, 28));
    ParseFormatted("2026-05-02", Date(2026, 5, 2));
  }

  /** Three nights across the end of the year: 24000 at the Deluxe rate. */
  lemma YearBoundaryBill()
    ensures IsDateText("2026-12-30") && IsDateText("2027-01-02")
    ensures ReferenceBill(Some(Deluxe), Some("2026-12-30"), Some("2027-01-02")) == 24000
    ensures ServerBill(Deluxe, "2026-12-30", "2027-01-02") == Ok(24000)
  {
    YearExampleDates();
    ParseFormatted("2026-12-30", Date(2026, 12, 30));
    ParseFormatted("2027-01-02", Date(2027, 1, 2));
    assert DaysFromCivil(Date(2027, 1, 2)) == DaysFromCivil(Date(2026, 12, 30)) + 3;
  }
}

=== FILE: calendar.dfy ===
/** Proleptic Gregorian calendar dates and their day numbers. Night counts
    are differences of day numbers, so month and year boundaries are
    handled by the calendar, not by the callers. */
module Calendar {

  datatype Date = Date(year: int, month: int, day: int)

  predicate IsLeapYear(y: int) {
    y % 4 == 0 && (y % 100 != 0 || y % 400 == 0)
  }

  function DaysInMonth(y: int, m: int): int {
    if m == 2 then (if IsLeapYear(y) then 29 else 28)
    else if m == 4 || m == 6 || m == 9 || m == 11 then 30
    else 31
  }

  function DaysInYear(y: int): int {
    if IsLeapYear(y) then 366 else 365
  }

  /** A real calendar date from year 0 onward. */
  predicate IsValid(d: Date) {
    d.year >= 0 && 1 <= d.month <= 12 && 1 <= d.day <= DaysInMonth(d.year, d.month)
  }

  /** Days of year `y` that lie in the months before month `m`. */
  function DaysBeforeMonth(y: int, m: int): int
    requires 1 <= m <= 12
  {
    var leap := if IsLeapYear(y) && m > 2 then 1 else 0;
    [0, 31, 59, 90, 120, 151, 181, 212, 243, 273, 304, 334][m - 1] + leap
  }

  /** How many of the years 0, 1, ..., y - 1 are leap years. */
  function LeapYearsBefore(y: int): int
    requires y >= 0
  {
    (y + 3) / 4 - (y + 99) / 100 + (y + 399) / 400
  }

  /** The day number of 1 January of year `y`, counted from 1 January of
      year 0. */
  function YearStart(y: int): int
    requires y >= 0
  {
    365 * y + LeapYearsBefore(y)
  }

  /** YearStart(1970): 1970 * 365 + 478 leap days. */
  const EpochOffset: int := 719528

  /** Zero-based position of `d` within its year. */
  function DayOfYear(d: Date): (n: int)
    requires IsValid(d)
    ensures 0 <= n < DaysInYear(d.year)
  {
    DaysBeforeMonth(d.year, d.month) + d.day - 1
  }

  /** Days from 1970-01-01 to `d`: the day count behind JavaScript's
      `new Date("YYYY-MM-DD")` (UTC midnight) and Java's
      `LocalDate.toEpochDay()`. */
  function DaysFromCivil(d: Date): int
    requires IsValid(d)
  {
    YearStart(d.year) + DayOfYear(d) - EpochOffset
  }

  /** The calendar successor of a date, defined by the month lengths alone. */
  function NextDay(d: Date): (e: Date)
    requires IsValid(d)
    ensures IsValid(e)
  {
    if d.day < DaysInMonth(d.year, d.month) then Date(d.year, d.month, d.day + 1)
    else if d.month < 12 then Date(d.year, d.month + 1, 1)
    else Date(d.year + 1, 1, 1)
  }

  /** The date `n` days after `d`, by repeated successors. */
  function AddDays(d: Date, n: nat): (e: Date)
    requires IsValid(d)
    ensures IsValid(e)
    decreases n
  {
    if n == 0 then d else AddDays(NextDay(d), n - 1)
  }

  /** Chronological order, read field by field. */
  predicate Before(a: Date, b: Date) {
    || a.year < b.year
    || (a.year == b.year && a.month < b.month)
    || (a.year == b.year && a.month == b.month && a.day < b.day)
  }

  /** Division by a positive number has one quotient and one remainder. */
  lemma DivUnique(a: int, k: int, q: int, r: int)
    requires k > 0 && 0 <= r < k && a == k * q + r
    ensures a / k == q && a % k == r
  {
    var d := q - a / k;
    assert k * d == a % k - r;
    MulAtLeast(k, d);
    MulAtLeast(k, -d);
  }

  lemma MulAtLeast(k: int, d: int)
    requires k > 0
    ensures d >= 1 ==> k * d >= k
  {
  }

  /** The number of multiples of `k` among 0, ..., y goes up by one exactly
      when `y` is a multiple. */
  lemma DivStep(y: int, k: int)
    requires y >= 0 && k > 0
    ensures (y + k) / k == (y + k - 1) / k + (if y % k == 0 then 1 else 0)
  {
    var q, r := y / k, y % k;
    DivUnique(y + k, k, q + 1, r);
    if r == 0 {
      DivUnique(y + k - 1, k, q, k - 1);
    } else {
      DivUnique(y + k - 1, k, q + 1, r - 1);
    }
  }

  /** The leap-year count goes up by one after a leap year. */
  lemma LeapYearsStep(y: int)
    requires y >= 0
    ensures LeapYearsBefore(y + 1) == LeapYearsBefore(y) + (if IsLeapYear(y) then 1 else 0)
  {
    DivStep(y, 4);
    DivStep(y, 100);
    DivStep(y, 400);
    if y % 100 == 0 {
      DivUnique(y, 4, 25 * (y / 100), 0);
    }
    if y % 400 == 0 {
      DivUnique(y, 100, 4 * (y / 400), 0);
    }
  }

  /** Consecutive years start one year-length apart. */
  lemma YearStartStep(y: int)
    requires y >= 0
    ensures YearStart(y + 1) == YearStart(y) + DaysInYear(y)
  {
    LeapYearsStep(y);
  }

  /** The day number advances by exactly one from a date to its successor,
      within a month, across a month end and across a year end. */
  lemma NextDayAddsOne(d: Date)
    requires IsValid(d)
    ensures DaysFromCivil(NextDay(d)) == DaysFromCivil(d) + 1
  {
    if d.day == DaysInMonth(d.year, d.month) && d.month == 12 {
      YearStartStep(d.year);
    }
  }

  /** Adding `n` days by successors adds `n` to the day number. */
  lemma {:induction false} AddDaysAddsN(d: Date, n: nat)
    requires IsValid(d)
    ensures DaysFromCivil(AddDays(d, n)) == DaysFromCivil(d) + n
    decreases n
  {
    if n > 0 {
      NextDayAddsOne(d);
      AddDaysAddsN(NextDay(d), n - 1);
    }
  }

  lemma {:induction false} YearStartGrows(y1: int, y2: int)
    requires 0 <= y1 < y2
    ensures YearStart(y1) + DaysInYear(y1) <= YearStart(y2)
    decreases y2 - y1
  {
    YearStartStep(y1);
    if y1 + 1 < y2 {
      YearStartGrows(y1 + 1, y2);
    }
  }

  lemma MonthStartGrows(y: int, m1: int, m2: int)
    requires 1 <= m1 < m2 <= 12
    ensures DaysBeforeMonth(y, m1) + DaysInMonth(y, m1) <= DaysBeforeMonth(y, m2)
  {
  }

  /** Chronological order is exactly the order of day numbers. */
  lemma BeforeIffFewerDays(a: Date, b: Date)
    requires IsValid(a) && IsValid(b)
    ensures Before(a, b) <==> DaysFromCivil(a) < DaysFromCivil(b)
    ensures a == b <==> DaysFromCivil(a) == DaysFromCivil(b)
  {
    if a != b {
      var (x, y) := if Before(a, b) then (a, b) else (b, a);
      assert Before(x, y);
      if x.year < y.year {
        YearStartGrows(x.year, y.year);
      } else if x.month < y.month {
        MonthStartGrows(x.year, x.month, y.month);
      }
    }
  }

  /** Every date not before `a` is reached from `a` by successors. */
  lemma {:induction false} AddDaysReaches(a: Date, b: Date)
    requires IsValid(a) && IsValid(b) && !Before(b, a)
    ensures DaysFromCivil(a) <= DaysFromCivil(b)
    ensures AddDays(a, DaysFromCivil(b) - DaysFromCivil(a)) == b
    decreases DaysFromCivil(b) - DaysFromCivil(a)
  {
    BeforeIffFewerDays(b, a);
    if a != b {
      BeforeIffFewerDays(a, b);
      var n := DaysFromCivil(b) - DaysFromCivil(a);
      var next := NextDay(a);
      NextDayAddsOne(a);
      BeforeIffFewerDays(b, next);
      AddDaysReaches(next, b);
      assert AddDays(a, n) == AddDays(next, n - 1);
    }
  }
}

=== FILE: dashboard.dfy ===
/** The dashboard: booking counts and income, and room availability worked
    out from a fixed room inventory and the reservations that are checked in
    right now. */
module Dashboard {
  import opened Wrappers
  import opened Records
  import opened Seqs
  import opened JsMath
  import opened ReportController
  import ReportsPage

  const StandardRooms: nat := 10
  const DeluxeRooms: nat := 6
  const SuiteRooms: nat := 4

  /** The whole inventory, summed as the page sums it. */
  const TotalRooms: nat := StandardRooms + DeluxeRooms + SuiteRooms

  /** One room type's line of the availability panel. */
  datatype RoomLine = RoomLine(roomType: string, total: nat, occupied: nat, available: nat, pct: int)

  /** The three availability badges the panel can show. */
  datatype Badge = FullyOccupied | AlmostFull | RoomsAvailable

  /** The colour of the occupancy rate. */
  datatype Tone = Green | Amber | Red

  datatype Figures = Figures(
    total: nat,
    active: nat,
    totalIncome: int,
    checkedIn: nat,
    lines: seq<RoomLine>,
    totalOccupied: nat,
    totalAvailable: nat,
    occupancyPct: int,
    pending: nat,
    confirmed: nat,
    checkedOut: nat,
    cancelled: nat,
    recent: seq<Reservation>)

  function Max(a: int, b: int): int { if a >= b then a else b }

  /** A room type's line: the checked-in reservations of that type occupy
      rooms; what is left of the inventory, never below zero, is free. */
  function Line(rs: seq<Reservation>, roomType: string, total: nat): (l: RoomLine)
    requires total > 0
    ensures l.roomType == roomType && l.total == total
    ensures l.occupied == Count(rs, (r: Reservation) => r.status == Some(CheckedIn) && r.roomType == Some(roomType))
    ensures 0 <= l.available <= total
    ensures l.available == 0 <==> l.occupied >= total
    ensures l.occupied <= total ==> l.available + l.occupied == total
  {
    var checkedIn := Filter(rs, StatusIs(Some(CheckedIn)));
    var occupied := Count(checkedIn, RoomIs(Some(roomType)));
    FilterFuse(rs, StatusIs(Some(CheckedIn)), RoomIs(Some(roomType)),
               (r: Reservation) => r.status == Some(CheckedIn) && r.roomType == Some(roomType));
    RoomLine(roomType, total, occupied, Max(total - occupied, 0), RoundQuotient(100 * occupied, total))
  }

  /** Every figure on the dashboard, worked out from the reservation list:
      the bookings and the non-cancelled income, one availability line per
      room type, five percent of occupancy per occupied room, and the ten
      most recent reservations. */
  function DashboardFigures(rs: seq<Reservation>): (f: Figures)
    ensures f.total == |rs|
    ensures f.totalIncome == Sum(Filter(rs, NotCancelled), BillOrZero)
    ensures f.lines == [Line(rs, Standard, StandardRooms), Line(rs, Deluxe, DeluxeRooms), Line(rs, Suite, SuiteRooms)]
    ensures f.totalOccupied == f.lines[0].occupied + f.lines[1].occupied + f.lines[2].occupied
    ensures f.totalAvailable == f.lines[0].available + f.lines[1].available + f.lines[2].available
    ensures f.occupancyPct == 5 * f.totalOccupied
    ensures f.recent == rs[..if |rs| < 10 then |rs| else 10]
  {
    var active := Filter(rs, NotCancelled);
    var lines := [Line(rs, Standard, StandardRooms), Line(rs, Deluxe, DeluxeRooms), Line(rs, Suite, SuiteRooms)];
    var occupied := lines[0].occupied + lines[1].occupied + lines[2].occupied;
    RoundExact(100 * occupied, TotalRooms, 5 * occupied);
    Figures(
      |rs|,
      |active|,
      Sum(active, BillOrZero),
      Count(rs, StatusIs(Some(CheckedIn))),
      lines,
      occupied,
      lines[0].available + lines[1].available + lines[2].available,
      RoundQuotient(100 * occupied, TotalRooms),
      Count(rs, StatusIs(Some(Pending))),
      Count(rs, StatusIs(Some(Confirmed))),
      Count(rs, StatusIs(Some(CheckedOut))),
      Count(rs, StatusIs(Some(Cancelled))),
      rs[..if |rs| < 10 then |rs| else 10])
  }

  /** The inventory is twenty rooms, and each room is five percent of it:
      the occupancy rate is exactly five times the occupied rooms. */
  lemma OccupancyIsFivePerRoom(rs: seq<Reservation>)
    ensures TotalRooms == 20
    ensures DashboardFigures(rs).occupancyPct == 5 * DashboardFigures(rs).totalOccupied
  {
    var f := DashboardFigures(rs);
    RoundExact(100 * f.totalOccupied, TotalRooms, 5 * f.totalOccupied);
  }

  /** The occupied rooms are the checked-in reservations of the three room
      types, so never more than the checked-in count, and exactly that count
      when every checked-in reservation has one of the three types. */
  lemma OccupiedAreCheckedIn(rs: seq<Reservation>)
    ensures DashboardFigures(rs).totalOccupied <= DashboardFigures(rs).checkedIn
    ensures (forall i :: 0 <= i < |rs| && rs[i].status == Some(CheckedIn) ==>
               rs[i].roomType.Some? && IsRoomType(rs[i].roomType.value))
            ==> DashboardFigures(rs).totalOccupied == DashboardFigures(rs).checkedIn
  {
    var ci := Filter(rs, StatusIs(Some(CheckedIn)));
    OccupiedSplits(ci);
    if forall i :: 0 <= i < |rs| && rs[i].status == Some(CheckedIn) ==>
         rs[i].roomType.Some? && IsRoomType(rs[i].roomType.value) {
      CheckedInHaveRooms(rs);
    }
  }

  /** A reservation of one of the three room types. */
  function AnyRoomType(): Reservation -> bool {
    Either(Either(RoomIs(Some(Standard)), RoomIs(Some(Deluxe))), RoomIs(Some(Suite)))
  }

  /** The three room types count apart. */
  lemma OccupiedSplits(xs: seq<Reservation>)
    ensures Count(xs, RoomIs(Some(Standard))) + Count(xs, RoomIs(Some(Deluxe))) + Count(xs, RoomIs(Some(Suite)))
            == Count(xs, AnyRoomType())
  {
    var p1, p2, p3 := RoomIs(Some(Standard)), RoomIs(Some(Deluxe)), RoomIs(Some(Suite));
    CountPartition(xs, p1, p2, Either(p1, p2));
    CountPartition(xs, Either(p1, p2), p3, AnyRoomType());
  }

  /** When every checked-in reservation has a known room type, each of them
      is of one of the three. */
  lemma CheckedInHaveRooms(rs: seq<Reservation>)
    requires forall i :: 0 <= i < |rs| && rs[i].status == Some(CheckedIn) ==>
               rs[i].roomType.Some? && IsRoomType(rs[i].roomType.value)
    ensures Count(Filter(rs, StatusIs(Some(CheckedIn))), AnyRoomType()) == Count(rs, StatusIs(Some(CheckedIn)))
  {
    var ci := Filter(rs, StatusIs(Some(CheckedIn)));
    forall x | x in ci ensures AnyRoomType()(x) {
      var i :| 0 <= i < |rs| && rs[i] == x;
    }
    FilterKeepsAll(ci, AnyRoomType());
  }

  /** When no room type is over-booked, free and occupied rooms make up the
      inventory and the occupancy rate is a percentage. */
  lemma AvailabilityAddsUp(rs: seq<Reservation>)
    requires forall l :: l in DashboardFigures(rs).lines ==> l.occupied <= l.total
    ensures DashboardFigures(rs).totalAvailable + DashboardFigures(rs).totalOccupied == TotalRooms
    ensures 0 <= DashboardFigures(rs).occupancyPct <= 100
  {
    var f := DashboardFigures(rs);
    assert f.lines[0] in f.lines && f.lines[1] in f.lines && f.lines[2] in f.lines;
    OccupancyIsFivePerRoom(rs);
  }

  /** Nothing is free exactly when every room type is fully occupied. */
  lemma NothingFreeIffAllFull(rs: seq<Reservation>)
    ensures DashboardFigures(rs).totalAvailable == 0 <==>
      forall l :: l in DashboardFigures(rs).lines ==> l.occupied >= l.total
  {
    var f := DashboardFigures(rs);
    assert f.lines[0] in f.lines && f.lines[1] in f.lines && f.lines[2] in f.lines;
  }

  /** The badges the panel shows for a number of free rooms. */
  function Badges(totalAvailable: int): (b: seq<Badge>)
    ensures |b| <= 1
  {
    (if totalAvailable == 0 then [FullyOccupied] else [])
    + (if 0 < totalAvailable <= 3 then [AlmostFull] else [])
    + (if totalAvailable > 3 then [RoomsAvailable] else [])
  }

  /** The free-room card turns red when nothing is free. */
  predicate AvailabilityAlarm(totalAvailable: int) {
    totalAvailable == 0
  }

  /** Exactly one badge is shown, and the red card goes with the Fully
      Occupied badge. */
  lemma OneBadge(rs: seq<Reservation>)
    ensures var a := DashboardFigures(rs).totalAvailable;
      && |Badges(a)| == 1
      && (Badges(a) == [FullyOccupied] <==> AvailabilityAlarm(a))
      && (Badges(a) == [AlmostFull] <==> 1 <= a <= 3)
  {
    var a := DashboardFigures(rs).totalAvailable;
    if a == 0 {
      assert Badges(a) == [FullyOccupied];
    } else if a <= 3 {
      assert Badges(a) == [AlmostFull];
    } else {
      assert Badges(a) == [RoomsAvailable];
    }
  }

  /** The occupancy rate's colour: red from 80, amber from 50, green
      below. */
  function OccupancyTone(pct: int): (t: Tone)
    ensures t == Red <==> pct >= 80
    ensures t == Green <==> pct < 50
  {
    if pct >= 80 then Red else if pct >= 50 then Amber else Green
  }

  function Severity(t: Tone): nat {
    match t
    case Green => 0
    case Amber => 1
    case Red => 2
  }

  /** A higher rate never shows a milder colour. */
  lemma ToneMonotone(p: int, q: int)
    requires p <= q
    ensures Severity(OccupancyTone(p)) <= Severity(OccupancyTone(q))
  {
  }

  /** The recent-bookings table: the first ten reservations, or all of them
      when there are fewer. */
  lemma RecentIsFirstTen(rs: seq<Reservation>)
    ensures var recent := DashboardFigures(rs).recent;
      && |recent| == (if |rs| < 10 then |rs| else 10)
      && recent <= rs
  {
  }

  /** The dashboard's income and the reports page's income agree on the
      same reservations. */
  lemma IncomeAgreesWithReports(rs: seq<Reservation>)
    ensures DashboardFigures(rs).totalIncome == ReportsPage.PageStats(rs).totalIncome
    ensures DashboardFigures(rs).active + DashboardFigures(rs).cancelled == |rs|
  {
    CountComplement(rs, StatusIs(Some(Cancelled)), NotCancelled);
  }

  /** The five status cards count every reservation at most once: together
      they make up the bookings exactly when every reservation carries one
      of the five statuses. */
  lemma DashboardCountsAddUp(rs: seq<Reservation>)
    ensures var f := DashboardFigures(rs);
      && f.pending + f.confirmed + f.checkedIn + f.checkedOut + f.cancelled <= f.total
      && (f.pending + f.confirmed + f.checkedIn + f.checkedOut + f.cancelled == f.total
          <==> forall i :: 0 <= i < |rs| ==> rs[i].status.Some? && IsStatus(rs[i].status.value))
  {
    StatusCountsPartition(rs);
    NoOddStatusIff(rs);
  }

  /** The dashboard's status cards show the same five counts as the summary
      endpoint over the same reservations. */
  lemma DashboardCountsAreSummaryCounts(rs: seq<Reservation>)
    requires GetSummary(rs).Ok?
    ensures var f, s := DashboardFigures(rs), GetSummary(rs).value;
      && f.total == s.total
      && f.pending == s.pending && f.confirmed == s.confirmed && f.checkedIn == s.checkedIn
      && f.checkedOut == s.checkedOut && f.cancelled == s.cancelled
  {
  }

  /** A room type's percentage is a percentage when it is not over-booked. */
  lemma LinePercent(rs: seq<Reservation>, roomType: string, total: nat)
    requires total > 0
    requires Line(rs, roomType, total).occupied <= total
    ensures 0 <= Line(rs, roomType, total).pct <= 100
  {
    RoundPercent(Line(rs, roomType, total).occupied, total);
  }
}

=== FILE: form_validation.dfy ===
/** The front end's reference validators: the reservation form, the user
    form, the report date range and the status palette. Each validator
    returns the map of error messages it would put on the form, keyed by
    field; an empty map means the form may be submitted. */
module FormValidation {
  import opened Wrappers
  import opened Text
  import opened Patterns
  import opened Calendar
  import opened IsoDate
  import opened Records

  datatype ReservationField =
    | ReservationNumberField
    | GuestNameField
    | RoomTypeField
    | CheckInField
    | CheckOutField
    | DateRangeField

  /** JavaScript's `a <= b` on two strings. */
  predicate TextAtMost(a: string, b: string) {
    !Less(b, a)
  }

  /** `validateReservationForm`. Every check runs and every failure is
      reported on its own key; a missing or empty date is reported on its
      own field only, and the range is only compared when both dates are
      given. */
  function ValidateReservationForm(f: Reservation): (errs: map<ReservationField, string>)
    ensures ReservationNumberField in errs <==> !Truthy(f.reservationNumber) || AllSpace(f.reservationNumber.value)
    ensures GuestNameField in errs <==> !Truthy(f.guestName) || |Trim(f.guestName.value)| < 2
    ensures RoomTypeField in errs <==> !Truthy(f.roomType) || !IsRoomType(f.roomType.value)
    ensures CheckInField in errs <==> !Truthy(f.checkInDate)
    ensures CheckOutField in errs <==> !Truthy(f.checkOutDate)
    ensures DateRangeField in errs <==>
      Truthy(f.checkInDate) && Truthy(f.checkOutDate) && !Less(f.checkInDate.value, f.checkOutDate.value)
    ensures DateRangeField in errs ==> CheckInField !in errs && CheckOutField !in errs
  {
    var e1: map<ReservationField, string> :=
      if !Truthy(f.reservationNumber) || IsBlank(f.reservationNumber.value)
      then map[ReservationNumberField := "Reservation number is required"] else map[];
    var e2 :=
      if !Truthy(f.guestName) || |Trim(f.guestName.value)| < 2
      then e1[GuestNameField := "Guest name must be at least 2 characters"] else e1;
    var e3 :=
      if !Truthy(f.roomType) || !IsRoomType(f.roomType.value)
      then e2[RoomTypeField := "Select a valid room type"] else e2;
    var e4 := if !Truthy(f.checkInDate) then e3[CheckInField := "Check-in date is required"] else e3;
    var e5 := if !Truthy(f.checkOutDate) then e4[CheckOutField := "Check-out date is required"] else e4;
    if Truthy(f.checkInDate) && Truthy(f.checkOutDate) && TextAtMost(f.checkOutDate.value, f.checkInDate.value)
    then e5[DateRangeField := "Check-out date must be after check-in date"]
    else e5
  }

  /** The reservation form has nothing to report exactly when every check
      passes. */
  predicate ReservationFormPasses(f: Reservation) {
    && Truthy(f.reservationNumber) && !IsBlank(f.reservationNumber.value)
    && Truthy(f.guestName) && |Trim(f.guestName.value)| >= 2
    && Truthy(f.roomType) && IsRoomType(f.roomType.value)
    && Truthy(f.checkInDate) && Truthy(f.checkOutDate)
    && !TextAtMost(f.checkOutDate.value, f.checkInDate.value)
  }

  lemma ReservationFormEmptyIff(f: Reservation)
    ensures ValidateReservationForm(f) == map[] <==> ReservationFormPasses(f)
  {
    var errs := ValidateReservationForm(f);
    if !Truthy(f.reservationNumber) || IsBlank(f.reservationNumber.value) {
      assert ReservationNumberField in errs;
    } else if !Truthy(f.guestName) || |Trim(f.guestName.value)| < 2 {
      assert GuestNameField in errs;
    } else if !Truthy(f.roomType) || !IsRoomType(f.roomType.value) {
      assert RoomTypeField in errs;
    } else if !Truthy(f.checkInDate) {
      assert CheckInField in errs;
    } else if !Truthy(f.checkOutDate) {
      assert CheckOutField in errs;
    } else if TextAtMost(f.checkOutDate.value, f.checkInDate.value) {
      assert DateRangeField in errs;
    }
  }

  /** On two real dates the form's string comparison is the calendar: the
      range is rejected exactly when check-out is not a later day. */
  lemma DateRangeIsCalendarOrder(f: Reservation)
    requires f.checkInDate.Some? && IsDateText(f.checkInDate.value)
    requires f.checkOutDate.Some? && IsDateText(f.checkOutDate.value)
    ensures (DateRangeField in ValidateReservationForm(f))
        <==> !Before(Parse(f.checkInDate.value).value, Parse(f.checkOutDate.value).value)
  {
    var a, b := f.checkInDate.value, f.checkOutDate.value;
    assert a != [] && b != [] by {
      assert |a| == 10 && |b| == 10;
    }
    TextOrderIsDayOrder(a, b);
    BeforeIffFewerDays(Parse(a).value, Parse(b).value);
    LessTrichotomy(a, b);
  }

  datatype UserField = UsernameField | EmailField | PasswordField | RoleField

  /** `validateUserForm` of the unit tests; `isEdit` waives the password. */
  function ValidateUserForm(u: User, isEdit: bool): (errs: map<UserField, string>)
    ensures UsernameField in errs <==> !Truthy(u.username) || |Trim(u.username.value)| < 3
    ensures EmailField in errs <==> !Truthy(u.email) || !IsEmailShape(u.email.value)
    ensures PasswordField in errs <==> !isEdit && (!Truthy(u.password) || |u.password.value| < 4)
    ensures RoleField in errs <==> !Truthy(u.role) || !IsRole(u.role.value)
  {
    var e1: map<UserField, string> :=
      if !Truthy(u.username) || |Trim(u.username.value)| < 3
      then map[UsernameField := "Username must be at least 3 characters"] else map[];
    var e2 :=
      if !Truthy(u.email) || !IsEmailShape(u.email.value)
      then e1[EmailField := "Valid email address required"] else e1;
    var e3 :=
      if !isEdit && (!Truthy(u.password) || |u.password.value| < 4)
      then e2[PasswordField := "Password must be at least 4 characters"] else e2;
    if !Truthy(u.role) || !IsRole(u.role.value)
    then e3[RoleField := "Role must be USER or ADMIN"]
    else e3
  }

  /** What the user form accepts: a username of three or more characters
      after trimming, an email of the right shape, a password of four or
      more characters unless editing, and a role of USER or ADMIN. */
  predicate UserFormPasses(u: User, isEdit: bool) {
    && Truthy(u.username) && |Trim(u.username.value)| >= 3
    && Truthy(u.email) && IsEmailShape(u.email.value)
    && (isEdit || (Truthy(u.password) && |u.password.value| >= 4))
    && Truthy(u.role) && IsRole(u.role.value)
  }

  lemma UserFormEmptyIff(u: User, isEdit: bool)
    ensures ValidateUserForm(u, isEdit) == map[] <==> UserFormPasses(u, isEdit)
  {
    var errs := ValidateUserForm(u, isEdit);
    if UserFormPasses(u, isEdit) {
      forall k: UserField ensures k !in errs {
        match k
        case UsernameField =>
        case EmailField =>
        case PasswordField =>
        case RoleField =>
      }
      assert errs.Keys == {};
    }
  }

  /** Editing differs from creating only in the password check. */
  lemma EditWaivesOnlyPassword(u: User)
    ensures ValidateUserForm(u, true) == ValidateUserForm(u, false) - {PasswordField}
  {
  }

  /** The email check is the email pattern: the field is flagged exactly
      when the address is missing or the pattern does not match it. */
  lemma EmailErrorIffNoMatch(u: User, isEdit: bool)
    ensures (EmailField in ValidateUserForm(u, isEdit))
        <==> (u.email.None? || !MatchesEmailPattern(u.email.value))
  {
    if u.email.Some? {
      EmailShapeMatchesPattern(u.email.value);
    }
  }

  /** `validateReportFilters`: a message when both dates are given and the
      end comes before the start, nothing otherwise. */
  function ValidateReportFilters(from: Option<string>, to: Option<string>): (r: Option<string>)
    ensures r.Some? <==> Truthy(from) && Truthy(to) && Less(to.value, from.value)
    ensures r.Some? ==> r.value == "End date must be on or after start date"
  {
    if Truthy(from) && Truthy(to) && Less(to.value, from.value)
    then Some("End date must be on or after start date")
    else None
  }

  /** On two real dates the range is refused exactly when the end is an
      earlier day than the start: a one-day range is accepted. */
  lemma ReportRangeIsDayOrder(from: string, to: string)
    requires IsDateText(from) && IsDateText(to)
    ensures ValidateReportFilters(Some(from), Some(to)).Some? <==> DayNumber(to) < DayNumber(from)
  {
    assert |from| == 10 && |to| == 10;
    TextOrderIsDayOrder(to, from);
  }

  /** A badge's background and text colours. */
  datatype Palette = Palette(background: string, color: string)

  /** `getStatusColor`: the palette of each of the five statuses, none for
      anything else. */
  function StatusColor(status: string): (p: Option<Palette>)
    ensures p.Some? <==> IsStatus(status)
    ensures status == Pending ==> p == Some(Palette("#fff3cd", "#856404"))
    ensures status == Confirmed ==> p == Some(Palette("#d1e7dd", "#0f5132"))
    ensures status == CheckedIn ==> p == Some(Palette("#cfe2ff", "#084298"))
    ensures status == CheckedOut ==> p == Some(Palette("#e2e3e5", "#41464b"))
    ensures status == Cancelled ==> p == Some(Palette("#f8d7da", "#842029"))
  {
    if status == Pending then Some(Palette("#fff3cd", "#856404"))
    else if status == Confirmed then Some(Palette("#d1e7dd", "#0f5132"))
    else if status == CheckedIn then Some(Palette("#cfe2ff", "#084298"))
    else if status == CheckedOut then Some(Palette("#e2e3e5", "#41464b"))
    else if status == Cancelled then Some(Palette("#f8d7da", "#842029"))
    else None
  }

  /** No two statuses share a badge background, so the colour alone tells
      the status. */
  lemma StatusColorsDistinct(s: string, t: string)
    requires IsStatus(s) && IsStatus(t) && s != t
    ensures StatusColor(s).value.background != StatusColor(t).value.background
  {
  }
}

=== FILE: iso_date.dfy ===
/** Calendar dates written in the complete extended format of ISO 8601
    (`YYYY-MM-DD`, section 4.1.2.2 of ISO 8601:2004): parsing, formatting,
    and the fact that comparing two such strings character by character
    compares the dates they denote. */
module IsoDate {
  import opened Wrappers
  import opened Text
  import opened Calendar

  predicate IsDigit(c: char) {
    '0' <= c <= '9'
  }

  predicate AllDigits(s: string) {
    forall i :: 0 <= i < |s| ==> IsDigit(s[i])
  }

  function DigitChar(n: int): (c: char)
    requires 0 <= n < 10
    ensures IsDigit(c)
  {
    ('0' as int + n) as char
  }

  function Pow10(w: nat): (p: nat)
    ensures p >= 1
  {
    if w == 0 then 1 else 10 * Pow10(w - 1)
  }

  /** The low `w` decimal digits of `n`, zero-padded to width `w`. */
  function Digits(n: nat, w: nat): (s: string)
    ensures |s| == w && AllDigits(s)
  {
    if w == 0 then [] else Digits(n / 10, w - 1) + [DigitChar(n % 10)]
  }

  /** The number a string of decimal digits denotes. */
  function ValueOf(s: string): (n: nat)
    requires AllDigits(s)
  {
    if s == [] then 0 else 10 * ValueOf(s[..|s| - 1]) + (s[|s| - 1] as int - '0' as int)
  }

  lemma {:induction false} ValueOfBound(s: string)
    requires AllDigits(s)
    ensures ValueOf(s) < Pow10(|s|)
  {
    if s != [] {
      ValueOfBound(s[..|s| - 1]);
    }
  }

  /** Writing a number that fits and reading it back gives the number. */
  lemma {:induction false} ValueOfDigits(n: nat, w: nat)
    requires n < Pow10(w)
    ensures ValueOf(Digits(n, w)) == n
  {
    if w > 0 {
      ValueOfDigits(n / 10, w - 1);
      var s := Digits(n, w);
      assert s[..|s| - 1] == Digits(n / 10, w - 1);
    }
  }

  /** Reading a digit string and writing it back at the same width gives the
      string. */
  lemma {:induction false} DigitsOfValue(s: string)
    requires AllDigits(s)
    ensures Digits(ValueOf(s), |s|) == s
  {
    if s != [] {
      var init := s[..|s| - 1];
      DigitsOfValue(init);
      assert s == init + [s[|s| - 1]];
    }
  }

  /** At a fixed width, digit strings compare like the numbers they write. */
  lemma {:induction false} DigitsOrder(x: nat, y: nat, w: nat)
    requires x < Pow10(w) && y < Pow10(w)
    ensures Less(Digits(x, w), Digits(y, w)) <==> x < y
    ensures Digits(x, w) == Digits(y, w) <==> x == y
  {
    if w > 0 {
      DigitsOrder(x / 10, y / 10, w - 1);
      var hx, hy := Digits(x / 10, w - 1), Digits(y / 10, w - 1);
      var lx, ly := [DigitChar(x % 10)], [DigitChar(y % 10)];
      LessAppend(hx, lx, hy, ly);
      assert Less(lx, ly) <==> x % 10 < y % 10 by {
        assert lx[1..] == [] && ly[1..] == [];
      }
      if Digits(x, w) == Digits(y, w) {
        assert hx == Digits(x, w)[..w - 1] && hy == Digits(y, w)[..w - 1];
        assert lx[0] == Digits(x, w)[w - 1] && ly[0] == Digits(y, w)[w - 1];
      }
    }
  }

  /** A date fits the four-digit year of the format. */
  predicate IsWritable(d: Date) {
    IsValid(d) && d.year <= 9999
  }

  /** `YYYY-MM-DD`. */
  function Format(d: Date): (s: string)
    requires IsWritable(d)
    ensures |s| == 10
  {
    Digits(d.year, 4) + ("-" + (Digits(d.month, 2) + ("-" + Digits(d.day, 2))))
  }

  /** Strict parsing of `YYYY-MM-DD`: ten characters, dashes at positions 4
      and 7, digits elsewhere, and a day that exists in that month. */
  function Parse(s: string): (r: Option<Date>)
    ensures r.Some? ==> IsWritable(r.value)
  {
    if |s| == 10 && s[4] == '-' && s[7] == '-'
       && AllDigits(s[..4]) && AllDigits(s[5..7]) && AllDigits(s[8..])
    then
      ValueOfBound(s[..4]);
      var d := Date(ValueOf(s[..4]), ValueOf(s[5..7]), ValueOf(s[8..]));
      if IsValid(d) then Some(d) else None
    else None
  }

  /** A string that parses as a date. */
  predicate IsDateText(s: string) {
    Parse(s).Some?
  }

  /** The day number of a date string. */
  function DayNumber(s: string): int
    requires IsDateText(s)
  {
    DaysFromCivil(Parse(s).value)
  }

  lemma FormatParts(d: Date)
    requires IsWritable(d)
    ensures Format(d)[..4] == Digits(d.year, 4)
    ensures Format(d)[5..7] == Digits(d.month, 2)
    ensures Format(d)[8..] == Digits(d.day, 2)
    ensures Format(d)[4] == '-' && Format(d)[7] == '-'
  {
  }

  /** Parsing a formatted date gives the date back. */
  lemma ParseFormat(d: Date)
    requires IsWritable(d)
    ensures Parse(Format(d)) == Some(d)
  {
    FormatParts(d);
    ValueOfDigits(d.year, 4);
    ValueOfDigits(d.month, 2);
    ValueOfDigits(d.day, 2);
  }

  /** A string known to be the formatting of a date parses to that date. */
  lemma ParseFormatted(s: string, d: Date)
    requires IsWritable(d) && Format(d) == s
    ensures IsDateText(s) && Parse(s) == Some(d)
    ensures DayNumber(s) == DaysFromCivil(d)
  {
    ParseFormat(d);
  }

  /** A string that parses is the formatting of the date it denotes. */
  lemma FormatParse(s: string)
    requires IsDateText(s)
    ensures Format(Parse(s).value) == s
  {
    var d := Parse(s).value;
    DigitsOfValue(s[..4]);
    DigitsOfValue(s[5..7]);
    DigitsOfValue(s[8..]);
    assert s == s[..4] + ("-" + (s[5..7] + ("-" + s[8..])));
  }

  /** Comparing two formatted dates as strings compares the dates. */
  lemma FormatOrder(a: Date, b: Date)
    requires IsWritable(a) && IsWritable(b)
    ensures Less(Format(a), Format(b)) <==> Before(a, b)
  {
    DigitsOrder(a.year, b.year, 4);
    DigitsOrder(a.month, b.month, 2);
    DigitsOrder(a.day, b.day, 2);
    var ya, yb := Digits(a.year, 4), Digits(b.year, 4);
    var ma, mb := Digits(a.month, 2), Digits(b.month, 2);
    var da, db := Digits(a.day, 2), Digits(b.day, 2);
    LessAppend(ma, "-" + da, mb, "-" + db);
    LessAppend("-", ma + ("-" + da), "-", mb + ("-" + db));
    LessAppend(ya, "-" + (ma + ("-" + da)), yb, "-" + (mb + ("-" + db)));
    LessAppend("-", da, "-", db);
    assert !Less("-", "-");
  }

  /** For two date strings, lexicographic order is calendar order and is the
      order of day numbers. */
  lemma TextOrderIsDayOrder(s: string, t: string)
    requires IsDateText(s) && IsDateText(t)
    ensures Less(s, t) <==> DayNumber(s) < DayNumber(t)
    ensures s == t <==> DayNumber(s) == DayNumber(t)
  {
    FormatParse(s);
    FormatParse(t);
    FormatOrder(Parse(s).value, Parse(t).value);
    BeforeIffFewerDays(Parse(s).value, Parse(t).value);
  }
}

=== FILE: js_math.dfy ===
/** JavaScript's `Math.round` applied to a quotient of whole numbers, the
    one rounding the pages do. */
module JsMath {

  /** `Math.round(a / b)` for a positive `b`: the nearest integer, a half
      rounded up (towards positive infinity, as `Math.round` does). */
  function RoundQuotient(a: int, b: int): (r: int)
    requires b > 0
    ensures 2 * r * b <= 2 * a + b < 2 * r * b + 2 * b
  {
    var q := (2 * a + b) / (2 * b);
    assert 2 * a + b == (2 * b) * q + (2 * a + b) % (2 * b);
    assert (2 * b) * q == 2 * q * b;
    q
  }

  /** A positive factor can be cancelled from a strict inequality. */
  lemma CancelFactor(x: int, y: int, b: int)
    requires b > 0 && x * b < y * b
    ensures x < y
  {
    assert (y - x) * b == y * b - x * b;
  }

  /** A rounded share of a whole is a percentage from 0 to 100. */
  lemma RoundPercent(part: int, whole: int)
    requires 0 <= part <= whole && whole > 0
    ensures 0 <= RoundQuotient(100 * part, whole) <= 100
  {
    var r := RoundQuotient(100 * part, whole);
    CancelFactor(2 * r, 202, whole);
    CancelFactor(0, 2 * r + 2, whole);
  }

  /** An exact quotient is not moved by rounding. */
  lemma RoundExact(a: int, b: int, q: int)
    requires b > 0 && a == q * b
    ensures RoundQuotient(a, b) == q
  {
    var r := RoundQuotient(a, b);
    assert (2 * r) * b <= 2 * q * b + b < (2 * q + 2) * b;
    CancelFactor(2 * r, 2 * q + 2, b);
    assert (2 * q + 1) * b < (2 * r + 2) * b;
    CancelFactor(2 * q + 1, 2 * r + 2, b);
  }
}

=== FILE: patterns.dfy ===
/** The two regular expressions the validators use, as executable predicates,
    each proved equal to a literal reading of its pattern. */
module Patterns {
  import opened Wrappers
  import opened Text

  /** A character of the class `[^\s@]`. */
  predicate PlainChar(c: char) {
    !IsSpace(c) && c != '@'
  }

  predicate AllPlain(s: string) {
    forall i :: 0 <= i < |s| ==> PlainChar(s[i])
  }

  /** The first index of `c` in `s`, if any. */
  function IndexOf(s: string, c: char): (r: Option<nat>)
    ensures r.None? <==> c !in s
    ensures r.Some? ==> r.value < |s| && s[r.value] == c && c !in s[..r.value]
  {
    if s == [] then None
    else if s[0] == c then Some(0)
    else
      match IndexOf(s[1..], c)
      case None => None
      case Some(i) =>
        assert s[..i + 1] == [s[0]] + s[1..][..i];
        Some(i + 1)
  }

  /** The domain part holds a '.' that is neither its first nor its last
      character. */
  predicate HasInnerDot(domain: string) {
    exists k | 0 < k < |domain| - 1 :: domain[k] == '.'
  }

  /** The `local@domain.tld` shape, decided by splitting at the first '@':
      a non-empty local part and a domain part free of whitespace and '@'
      with an inner dot. */
  predicate IsEmailShape(s: string) {
    match IndexOf(s, '@')
    case None => false
    case Some(at) =>
      var local := s[..at];
      var domain := s[at + 1..];
      local != [] && AllPlain(local) && AllPlain(domain) && HasInnerDot(domain)
  }

  /** `^[^\s@]+@[^\s@]+\.[^\s@]+$` read literally: `s` is A "@" B "." C with
      A, B and C non-empty runs of `[^\s@]`; `i` and `j` locate the '@' and
      the '.'. */
  ghost predicate EmailSplit(s: string, i: int, j: int) {
    && 0 < i && i + 1 < j && j + 1 < |s|
    && s[i] == '@' && s[j] == '.'
    && AllPlain(s[..i]) && AllPlain(s[i + 1..j]) && AllPlain(s[j + 1..])
  }

  ghost predicate MatchesEmailPattern(s: string) {
    exists i, j :: EmailSplit(s, i, j)
  }

  /** A slice of a run of `[^\s@]` is one too. */
  lemma AllPlainSlice(s: string, a: int, b: int)
    requires AllPlain(s) && 0 <= a <= b <= |s|
    ensures AllPlain(s[a..b])
  {
    forall n | 0 <= n < b - a ensures PlainChar(s[a..b][n]) {
      assert s[a..b][n] == s[a + n];
    }
  }

  /** A string in the accepted shape matches the email pattern. */
  lemma ShapeMatchesPattern(s: string)
    requires IsEmailShape(s)
    ensures MatchesEmailPattern(s)
  {
    var at := IndexOf(s, '@').value;
    var domain := s[at + 1..];
    var k :| 0 < k < |domain| - 1 && domain[k] == '.';
    var j := at + 1 + k;
    AllPlainSlice(domain, 0, k);
    AllPlainSlice(domain, k + 1, |domain|);
    assert s[at + 1..j] == domain[..k];
    assert s[j + 1..] == domain[k + 1..];
    assert EmailSplit(s, at, j);
  }

  /** A string the email pattern matches has the accepted shape. */
  lemma PatternMatchesShape(s: string, i: int, j: int)
    requires EmailSplit(s, i, j)
    ensures IsEmailShape(s)
  {
    assert '@' !in s[..i] by {
      forall c | c in s[..i] ensures c != '@' {
        var n :| 0 <= n < i && s[..i][n] == c;
      }
    }
    assert IndexOf(s, '@') == Some(i);
    var domain := s[i + 1..];
    assert AllPlain(domain) by {
      forall n | 0 <= n < |domain| ensures PlainChar(domain[n]) {
        if n < j - i - 1 {
          assert domain[n] == s[i + 1..j][n];
        } else if n > j - i - 1 {
          assert domain[n] == s[j + 1..][n - (j - i)];
        } else {
          assert domain[n] == s[j];
        }
      }
    }
    assert domain[j - i - 1] == '.';
  }

  /** The executable shape check accepts exactly the strings the email
      pattern matches. */
  lemma EmailShapeMatchesPattern(s: string)
    ensures IsEmailShape(s) <==> MatchesEmailPattern(s)
  {
    if IsEmailShape(s) {
      ShapeMatchesPattern(s);
    }
    if MatchesEmailPattern(s) {
      var i, j :| EmailSplit(s, i, j);
      PatternMatchesShape(s, i, j);
    }
  }

  /** An email in the accepted shape has exactly one '@' and a non-empty
      local part before it. */
  lemma EmailShapeHasOneAt(s: string)
    requires IsEmailShape(s)
    ensures exists at :: 0 < at < |s| && s[at] == '@'
              && forall k :: 0 <= k < |s| && s[k] == '@' ==> k == at
  {
    var at := IndexOf(s, '@').value;
    assert forall k :: at < k < |s| ==> s[k] == s[at + 1..][k - at - 1];
  }

  /** A character of the class `[0-9\s\-]`. */
  predicate PhoneChar(c: char) {
    ('0' <= c <= '9') || IsSpace(c) || c == '-'
  }

  predicate AllPhone(s: string) {
    forall i :: 0 <= i < |s| ==> PhoneChar(s[i])
  }

  /** The contact-number check: strip one leading '+', then 7 to 15
      characters that are digits, whitespace or '-'. */
  predicate IsContactNumber(s: string) {
    var body := if |s| > 0 && s[0] == '+' then s[1..] else s;
    7 <= |body| <= 15 && AllPhone(body)
  }

  /** `^[+]?[0-9\s\-]{7,15}$` read literally: either no '+' and a 7-15
      character run, or a '+' followed by such a run. */
  ghost predicate MatchesContactPattern(s: string) {
    || (7 <= |s| <= 15 && AllPhone(s))
    || (|s| > 0 && s[0] == '+' && 7 <= |s| - 1 <= 15 && AllPhone(s[1..]))
  }

  lemma ContactNumberMatchesPattern(s: string)
    ensures IsContactNumber(s) <==> MatchesContactPattern(s)
  {
    if |s| > 0 && s[0] == '+' {
      assert !PhoneChar(s[0]);
    }
  }
}

=== FILE: records.dfy ===
/** The two stored entities, reservations and users. Every field of both is
    nullable on the server (a Java reference) and may be absent in a JSON
    body, so every field is an `Option`. */
module Records {
  import opened Wrappers

  /** A reservation document. `totalBill` is held in whole rupees: every
      bill the front end computes is a nightly rate times a night count. */
  datatype Reservation = Reservation(
    id: Option<string>,
    reservationNumber: Option<string>,
    guestName: Option<string>,
    address: Option<string>,
    contactNumber: Option<string>,
    roomType: Option<string>,
    checkInDate: Option<string>,
    checkOutDate: Option<string>,
    totalBill: Option<int>,
    status: Option<string>)

  /** A user account: the fields the controllers read and write. */
  datatype User = User(
    id: Option<string>,
    username: Option<string>,
    email: Option<string>,
    password: Option<string>,
    role: Option<string>)

  const Pending := "Pending"
  const Confirmed := "Confirmed"
  const CheckedIn := "Checked-In"
  const CheckedOut := "Checked-Out"
  const Cancelled := "Cancelled"

  /** The five reservation statuses, in the order the pages list them. */
  const Statuses: seq<string> := [Pending, Confirmed, CheckedIn, CheckedOut, Cancelled]

  const Standard := "Standard"
  const Deluxe := "Deluxe"
  const Suite := "Suite"

  /** The three room types, in the order the pages list them. */
  const RoomTypes: seq<string> := [Standard, Deluxe, Suite]

  predicate IsRoomType(s: string) {
    s == Standard || s == Deluxe || s == Suite
  }

  predicate IsStatus(s: string) {
    s == Pending || s == Confirmed || s == CheckedIn || s == CheckedOut || s == Cancelled
  }

  const UserRole := "USER"
  const AdminRole := "ADMIN"

  predicate IsRole(s: string) {
    s == UserRole || s == AdminRole
  }

  /** JavaScript truthiness of a string-valued property: present and not the
      empty string. */
  predicate Truthy(v: Option<string>) {
    v.Some? && v.value != ""
  }

  predicate IsCancelled(r: Reservation) {
    r.status == Some(Cancelled)
  }

  /** A bill with a missing amount counted as zero. */
  function BillOrZero(r: Reservation): int {
    r.totalBill.GetOr(0)
  }

  /** The same reservation with another status. */
  function WithStatus(r: Reservation, s: string): (r': Reservation)
    ensures r'.status == Some(s)
    ensures r'.(status := r.status) == r
  {
    r.(status := Some(s))
  }

  /** A merged field: the body's value when the body carries one, the
      stored value otherwise. */
  predicate Overlays<T(==)>(merged: Option<T>, given: Option<T>, stored: Option<T>) {
    && (given.Some? ==> merged == given)
    && (given.None? ==> merged == stored)
  }

  /** An id as a template string writes it into a request path: a missing
      id is written `null`. Both pages build their delete and update paths
      this way. */
  function PathSegment(id: Option<string>): (s: string)
    ensures id.Some? ==> s == id.value
    ensures id.None? ==> s == "null"
  {
    if id.Some? then id.value else "null"
  }
}

=== FILE: report_controller.dfy ===
/** The report endpoints: a summary of counts and income, an income report
    over a check-in window, an occupancy breakdown, and a filtered list.
    Each reads the whole reservation collection, given here as the sequence
    `findAll` returns. */
module ReportController {
  import opened Wrappers
  import opened Text
  import opened IsoDate
  import opened Records
  import opened Seqs
  import opened ValidationService

  function StatusIs(v: Option<string>): Reservation -> bool {
    (r: Reservation) => r.status == v
  }

  function RoomIs(v: Option<string>): Reservation -> bool {
    (r: Reservation) => r.roomType == v
  }

  /** `checkInDate.compareTo(from) >= 0`, false for a missing date. */
  function CheckInFrom(from: string): Reservation -> bool {
    (r: Reservation) => r.checkInDate.Some? && !Less(r.checkInDate.value, from)
  }

  /** `checkInDate.compareTo(to) <= 0`, false for a missing date. */
  function CheckInTo(to: string): Reservation -> bool {
    (r: Reservation) => r.checkInDate.Some? && !Less(to, r.checkInDate.value)
  }

  predicate NotCancelled(r: Reservation) {
    !IsCancelled(r)
  }

  /** Counted towards income and carrying a bill. */
  predicate Billed(r: Reservation) {
    !IsCancelled(r) && r.totalBill.Some?
  }

  function Unit(r: Reservation): int { 1 }

  /** The group-by key; only read where every key is present. */
  function RoomOf(r: Reservation): string { r.roomType.GetOr("") }
  function StatusOf(r: Reservation): string { r.status.GetOr("") }

  /** The date-window step shared by the income report and the filter: a
      bound applies when it is given and not empty. */
  function DateWindow(xs: seq<Reservation>, from: Option<string>, to: Option<string>): (r: seq<Reservation>)
    ensures forall x :: x in r <==>
      (x in xs && (Truthy(from) ==> CheckInFrom(from.value)(x)) && (Truthy(to) ==> CheckInTo(to.value)(x)))
  {
    var a := if Truthy(from) then Filter(xs, CheckInFrom(from.value)) else xs;
    if Truthy(to) then Filter(a, CheckInTo(to.value)) else a
  }

  /** The lower bound as a filter that passes everything when no bound is
      given. */
  function FromStage(from: Option<string>): Reservation -> bool {
    (r: Reservation) => !Truthy(from) || CheckInFrom(from.value)(r)
  }

  /** The upper bound, likewise. */
  function ToStage(to: Option<string>): Reservation -> bool {
    (r: Reservation) => !Truthy(to) || CheckInTo(to.value)(r)
  }

  /** Both bounds as one filter. */
  function WindowStage(from: Option<string>, to: Option<string>): Reservation -> bool {
    (r: Reservation) => FromStage(from)(r) && ToStage(to)(r)
  }

  /** On real dates the text bounds are the calendar: a reservation is inside
      the window exactly when its check-in day lies between the two days,
      both included. */
  lemma WindowIsDayWindow(r: Reservation, from: string, to: string)
    requires r.checkInDate.Some? && IsDateText(r.checkInDate.value)
    requires IsDateText(from) && IsDateText(to)
    ensures CheckInFrom(from)(r) <==> DayNumber(from) <= DayNumber(r.checkInDate.value)
    ensures CheckInTo(to)(r) <==> DayNumber(r.checkInDate.value) <= DayNumber(to)
  {
    TextOrderIsDayOrder(r.checkInDate.value, from);
    TextOrderIsDayOrder(to, r.checkInDate.value);
  }

  // ---------------------------------------------------------------- summary

  datatype Summary = Summary(
    total: nat,
    pending: nat,
    confirmed: nat,
    checkedIn: nat,
    checkedOut: nat,
    cancelled: nat,
    totalIncome: int,
    avgBill: real,
    incomeByRoom: map<string, int>,
    bookingsByRoom: map<string, int>)

  /** `GET /api/reports/summary`. Both group-bys are keyed by room type, and
      a group-by throws on a missing key; the bookings group-by reads every
      reservation. */
  function GetSummary(all: seq<Reservation>): (r: Result<Summary, Thrown>)
    ensures r.Err? <==> exists i :: 0 <= i < |all| && all[i].roomType.None?
    ensures r.Ok? ==> r.value.total == |all|
    ensures r.Ok? ==> r.value.incomeByRoom.Keys <= r.value.bookingsByRoom.Keys
    ensures r.Ok? ==> forall k :: k in r.value.bookingsByRoom ==> IsRoomTypeIn(all, k)
  {
    if exists i :: 0 <= i < |all| && all[i].roomType.None? then Err(NullPointerException)
    else
      var billed := Filter(all, Billed);
      var billedTotal := Sum(billed, BillOrZero);
      Ok(Summary(
        |all|,
        Count(all, StatusIs(Some(Pending))),
        Count(all, StatusIs(Some(Confirmed))),
        Count(all, StatusIs(Some(CheckedIn))),
        Count(all, StatusIs(Some(CheckedOut))),
        Count(all, StatusIs(Some(Cancelled))),
        Sum(Filter(all, NotCancelled), BillOrZero),
        Average(billedTotal, |billed|),
        GroupSum(billed, RoomOf, BillOrZero),
        GroupSum(all, RoomOf, Unit)))
  }

  /** `average().orElse(0)` of `n` values adding up to `total`. */
  function Average(total: int, n: nat): (a: real)
    ensures n == 0 ==> a == 0.0
    ensures n > 0 ==> a * n as real == total as real
  {
    if n == 0 then 0.0 else total as real / n as real
  }

  /** Some reservation has room type `k`. */
  predicate IsRoomTypeIn(all: seq<Reservation>, k: string) {
    exists i :: 0 <= i < |all| && all[i].roomType == Some(k)
  }

  /** A status other than the five, or none. */
  predicate OddStatus(r: Reservation) {
    r.status.None? || !IsStatus(r.status.value)
  }

  /** The five status counts and the reservations with any other status
      (or none) make up the whole sequence. */
  lemma StatusCountsPartition(all: seq<Reservation>)
    ensures Count(all, StatusIs(Some(Pending))) + Count(all, StatusIs(Some(Confirmed)))
      + Count(all, StatusIs(Some(CheckedIn))) + Count(all, StatusIs(Some(CheckedOut)))
      + Count(all, StatusIs(Some(Cancelled))) + Count(all, OddStatus) == |all|
  {
    var p1, p2, p3, p4, p5 := StatusIs(Some(Pending)), StatusIs(Some(Confirmed)),
      StatusIs(Some(CheckedIn)), StatusIs(Some(CheckedOut)), StatusIs(Some(Cancelled));
    var u2: Reservation -> bool := (r: Reservation) => p1(r) || p2(r);
    var u3: Reservation -> bool := (r: Reservation) => u2(r) || p3(r);
    var u4: Reservation -> bool := (r: Reservation) => u3(r) || p4(r);
    var u5: Reservation -> bool := (r: Reservation) => u4(r) || p5(r);
    CountPartition(all, p1, p2, u2);
    CountPartition(all, u2, p3, u3);
    CountPartition(all, u3, p4, u4);
    CountPartition(all, u4, p5, u5);
    CountComplement(all, u5, OddStatus);
  }

  /** No reservation has an odd status exactly when none is counted as
      one. */
  lemma NoOddStatusIff(all: seq<Reservation>)
    ensures Count(all, OddStatus) == 0 <==> forall i :: 0 <= i < |all| ==> !OddStatus(all[i])
  {
    var odd := Filter(all, OddStatus);
    if forall i :: 0 <= i < |all| ==> !OddStatus(all[i]) {
      if odd != [] {
        assert odd[0] in all;
      }
    } else {
      var i :| 0 <= i < |all| && OddStatus(all[i]);
      assert all[i] in odd;
    }
  }

  /** The summary's five status counts add up to the total exactly when
      every reservation has one of the five statuses, and never exceed it. */
  lemma SummaryCountsAddUp(all: seq<Reservation>)
    requires GetSummary(all).Ok?
    ensures var s := GetSummary(all).value;
      && s.pending + s.confirmed + s.checkedIn + s.checkedOut + s.cancelled <= s.total
      && (s.pending + s.confirmed + s.checkedIn + s.checkedOut + s.cancelled == s.total
          <==> forall i :: 0 <= i < |all| ==> all[i].status.Some? && IsStatus(all[i].status.value))
  {
    StatusCountsPartition(all);
    NoOddStatusIff(all);
  }

  /** The income by room type adds up to the total income: reservations
      without a bill are left out of the group-by but add nothing to the
      total either. */
  lemma SummaryIncomeAddsUp(all: seq<Reservation>)
    requires GetSummary(all).Ok?
    ensures SumValues(GetSummary(all).value.incomeByRoom) == GetSummary(all).value.totalIncome
  {
    var billed := Filter(all, Billed);
    GroupSumTotal(billed, RoomOf, BillOrZero);
    var unbilled: Reservation -> bool := (r: Reservation) => NotCancelled(r) && r.totalBill.None?;
    SumPartition(all, BillOrZero, Billed, unbilled, NotCancelled);
    var z := Filter(all, unbilled);
    assert forall i :: 0 <= i < |z| ==> BillOrZero(z[i]) == 0 by {
      forall i | 0 <= i < |z| ensures BillOrZero(z[i]) == 0 {
        assert z[i] in z;
      }
    }
    SumZero(z, BillOrZero);
  }

  /** The bookings by room type add up to the number of reservations. */
  lemma SummaryBookingsAddUp(all: seq<Reservation>)
    requires GetSummary(all).Ok?
    ensures SumValues(GetSummary(all).value.bookingsByRoom) == GetSummary(all).value.total
  {
    GroupSumTotal(all, RoomOf, Unit);
    SumOnes(all, Unit);
  }

  /** The average bill is the total income spread over the reservations
      that carry a bill (not over all counted ones): reservations without a
      bill add to neither. */
  lemma SummaryAverage(all: seq<Reservation>)
    requires GetSummary(all).Ok?
    ensures GetSummary(all).value.avgBill == Average(GetSummary(all).value.totalIncome, Count(all, Billed))
  {
    var s := GetSummary(all).value;
    var billed := Filter(all, Billed);
    SummaryIncomeAddsUp(all);
    GroupSumTotal(billed, RoomOf, BillOrZero);
    assert s.totalIncome == Sum(billed, BillOrZero);
  }

  // ---------------------------------------------------------- income report

  /** One row of the income report: the reservation without its id, address
      and contact number. */
  datatype IncomeRow = IncomeRow(
    reservationNumber: Option<string>,
    guestName: Option<string>,
    roomType: Option<string>,
    checkInDate: Option<string>,
    checkOutDate: Option<string>,
    status: Option<string>,
    totalBill: Option<int>)

  function RowOf(r: Reservation): (row: IncomeRow)
    ensures row.totalBill == r.totalBill && row.status == r.status
  {
    IncomeRow(r.reservationNumber, r.guestName, r.roomType, r.checkInDate, r.checkOutDate, r.status, r.totalBill)
  }

  datatype IncomeReport = IncomeReport(records: seq<IncomeRow>, totalIncome: int, count: nat)

  /** What the income report selects: the reservations inside the window
      that are not cancelled, in stored order. */
  function IncomeStage(from: Option<string>, to: Option<string>): Reservation -> bool {
    (r: Reservation) => WindowStage(from, to)(r) && NotCancelled(r)
  }

  /** The window applied first and the cancelled ones dropped after, as the
      endpoint does it, is the one-pass selection. */
  function IncomeKept(all: seq<Reservation>, from: Option<string>, to: Option<string>): (kept: seq<Reservation>)
    ensures kept == Filter(all, IncomeStage(from, to))
  {
    WindowIsFilter(all, from, to);
    FilterFuse(all, WindowStage(from, to), NotCancelled, IncomeStage(from, to));
    Filter(DateWindow(all, from, to), NotCancelled)
  }

  /** `GET /api/reports/income`: the non-cancelled reservations whose
      check-in lies in the window, as rows, with their income and number. */
  function GetIncomeReport(all: seq<Reservation>, from: Option<string>, to: Option<string>): (rep: IncomeReport)
    ensures rep.count == |rep.records| <= |all|
    ensures forall i :: 0 <= i < |rep.records| ==> rep.records[i].status != Some(Cancelled)
    ensures forall i :: 0 <= i < |rep.records| ==>
      exists j :: 0 <= j < |all| && rep.records[i] == RowOf(all[j])
    ensures |rep.records| == |Filter(all, IncomeStage(from, to))|
    ensures forall i :: 0 <= i < |rep.records| ==> rep.records[i] == RowOf(Filter(all, IncomeStage(from, to))[i])
    ensures rep.totalIncome == Sum(Filter(all, IncomeStage(from, to)), BillOrZero)
  {
    var kept := IncomeKept(all, from, to);
    var rows := seq(|kept|, i requires 0 <= i < |kept| => RowOf(kept[i]));
    assert forall i :: 0 <= i < |kept| ==> kept[i] in all by {
      forall i | 0 <= i < |kept| ensures kept[i] in all {
        assert kept[i] in kept;
      }
    }
    IncomeReport(rows, Sum(kept, BillOrZero), |rows|)
  }

  /** With no window the income report's total is the summary's. */
  lemma UnboundedIncomeIsSummaryIncome(all: seq<Reservation>)
    requires GetSummary(all).Ok?
    ensures GetIncomeReport(all, None, None).totalIncome == GetSummary(all).value.totalIncome
  {
  }

  /** A narrower window never reports more income when bills are not
      negative: the report over a window is part of the report with no
      window. */
  lemma WindowIncomeAtMostAll(all: seq<Reservation>, from: Option<string>, to: Option<string>)
    requires forall i :: 0 <= i < |all| ==> BillOrZero(all[i]) >= 0
    ensures 0 <= GetIncomeReport(all, from, to).totalIncome <= GetIncomeReport(all, None, None).totalIncome
  {
    var w := WindowStage(from, to);
    WindowIsFilter(all, from, to);
    FilterCommute(all, w, NotCancelled);
    var nc := Filter(all, NotCancelled);
    assert forall x :: x in nc ==> BillOrZero(x) >= 0 by {
      forall x | x in nc ensures BillOrZero(x) >= 0 {
        assert x in all;
        var i :| 0 <= i < |all| && all[i] == x;
      }
    }
    SumFilterAtMost(nc, BillOrZero, w);
  }

  /** A conditional filter step is a filter whose predicate lets everything
      through when the condition is off. */
  lemma StageIsFilter(xs: seq<Reservation>, c: bool, p: Reservation -> bool, q: Reservation -> bool)
    requires forall x :: q(x) == (!c || p(x))
    ensures (if c then Filter(xs, p) else xs) == Filter(xs, q)
  {
    if c {
      FilterSame(xs, p, q);
    } else {
      FilterKeepsAll(xs, q);
    }
  }

  // ------------------------------------------------------ occupancy report

  datatype Occupancy = Occupancy(byRoomType: map<string, int>, byStatus: map<string, int>, total: nat)

  /** Holding a room now or soon: checked in or confirmed. */
  predicate Occupying(r: Reservation) {
    r.status == Some(CheckedIn) || r.status == Some(Confirmed)
  }

  /** `GET /api/reports/occupancy`. The room-type group-by reads only the
      occupying reservations; the status group-by reads all of them; either
      throws on a missing key. */
  function GetOccupancy(all: seq<Reservation>): (r: Result<Occupancy, Thrown>)
    ensures r.Err? <==>
      (exists i :: 0 <= i < |all| && Occupying(all[i]) && all[i].roomType.None?)
      || (exists i :: 0 <= i < |all| && all[i].status.None?)
    ensures r.Ok? ==> r.value.total == |all|
  {
    if (exists i :: 0 <= i < |all| && Occupying(all[i]) && all[i].roomType.None?)
       || (exists i :: 0 <= i < |all| && all[i].status.None?)
    then Err(NullPointerException)
    else
      Ok(Occupancy(GroupSum(Filter(all, Occupying), RoomOf, Unit), GroupSum(all, StatusOf, Unit), |all|))
  }

  /** The status breakdown adds up to the total, the room-type breakdown to
      the number of occupying reservations, and each status entry is the
      number of reservations with that status. */
  lemma OccupancyAddsUp(all: seq<Reservation>, s: string)
    requires GetOccupancy(all).Ok?
    ensures var o := GetOccupancy(all).value;
      && SumValues(o.byStatus) == o.total
      && SumValues(o.byRoomType) == Count(all, Occupying) <= o.total
      && (s in o.byStatus ==> o.byStatus[s] == Count(all, StatusIs(Some(s))))
  {
    var o := GetOccupancy(all).value;
    GroupSumTotal(all, StatusOf, Unit);
    SumOnes(all, Unit);
    GroupSumTotal(Filter(all, Occupying), RoomOf, Unit);
    SumOnes(Filter(all, Occupying), Unit);
    if s in o.byStatus {
      assert o.byStatus[s] == Sum(Filter(all, KeyIs(StatusOf, s)), Unit);
      SumOnes(Filter(all, KeyIs(StatusOf, s)), Unit);
      FilterSame(all, KeyIs(StatusOf, s), StatusIs(Some(s)));
    }
  }

  // ------------------------------------------------------- filtered list

  /** A filter parameter that selects: given and not `All`. */
  predicate Chosen(v: Option<string>) {
    v.Some? && v.value != "All"
  }

  /** `GET /api/reports/filter`: status, then room type, then the check-in
      window. */
  function FilterReservations(all: seq<Reservation>, status: Option<string>, roomType: Option<string>,
                              from: Option<string>, to: Option<string>): (r: seq<Reservation>)
    ensures |r| <= |all|
  {
    var a := if Chosen(status) then Filter(all, StatusIs(status)) else all;
    var b := if Chosen(roomType) then Filter(a, RoomIs(roomType)) else a;
    DateWindow(b, from, to)
  }

  /** What the filter selects, stated once for the whole record. */
  predicate Selected(status: Option<string>, roomType: Option<string>, from: Option<string>,
                     to: Option<string>, r: Reservation) {
    && (Chosen(status) ==> r.status == status)
    && (Chosen(roomType) ==> r.roomType == roomType)
    && (Truthy(from) ==> r.checkInDate.Some? && !Less(r.checkInDate.value, from.value))
    && (Truthy(to) ==> r.checkInDate.Some? && !Less(to.value, r.checkInDate.value))
  }

  function Selection(status: Option<string>, roomType: Option<string>, from: Option<string>,
                     to: Option<string>): Reservation -> bool {
    (r: Reservation) => Selected(status, roomType, from, to, r)
  }

  /** The window step is one filter. */
  lemma WindowIsFilter(xs: seq<Reservation>, from: Option<string>, to: Option<string>)
    ensures DateWindow(xs, from, to) == Filter(xs, WindowStage(from, to))
  {
    var a := if Truthy(from) then Filter(xs, CheckInFrom(from.value)) else xs;
    StageIsFilter(xs, Truthy(from), CheckInFrom(if from.Some? then from.value else ""), FromStage(from));
    StageIsFilter(a, Truthy(to), CheckInTo(if to.Some? then to.value else ""), ToStage(to));
    FilterFuse(xs, FromStage(from), ToStage(to), WindowStage(from, to));
  }

  /** The status step, passing everything when no status is chosen. */
  function StatusStage(status: Option<string>): Reservation -> bool {
    (r: Reservation) => !Chosen(status) || r.status == status
  }

  /** The room-type step, likewise. */
  function RoomStage(roomType: Option<string>): Reservation -> bool {
    (r: Reservation) => !Chosen(roomType) || r.roomType == roomType
  }

  /** The status and room-type steps as one filter. */
  function ChoiceStage(status: Option<string>, roomType: Option<string>): Reservation -> bool {
    (r: Reservation) => StatusStage(status)(r) && RoomStage(roomType)(r)
  }

  /** The selection is the two choices and the window together. */
  lemma SelectionIsStages(status: Option<string>, roomType: Option<string>, from: Option<string>, to: Option<string>)
    ensures forall x ::
      Selection(status, roomType, from, to)(x) == (ChoiceStage(status, roomType)(x) && WindowStage(from, to)(x))
  {
    forall x ensures
      Selection(status, roomType, from, to)(x) == (ChoiceStage(status, roomType)(x) && WindowStage(from, to)(x))
    {
      assert ChoiceStage(status, roomType)(x) == (StatusStage(status)(x) && RoomStage(roomType)(x));
      assert WindowStage(from, to)(x) == (FromStage(from)(x) && ToStage(to)(x));
      assert Selection(status, roomType, from, to)(x) == Selected(status, roomType, from, to, x);
      assert Truthy(from) ==> FromStage(from)(x) == CheckInFrom(from.value)(x);
      assert Truthy(to) ==> ToStage(to)(x) == CheckInTo(to.value)(x);
    }
  }

  /** The chain of filters is one filter by the whole selection: the result
      keeps exactly the selected reservations, in their order, duplicates
      included. */
  lemma FilterIsSelection(all: seq<Reservation>, status: Option<string>, roomType: Option<string>,
                          from: Option<string>, to: Option<string>)
    ensures FilterReservations(all, status, roomType, from, to) == Filter(all, Selection(status, roomType, from, to))
  {
    var a := if Chosen(status) then Filter(all, StatusIs(status)) else all;
    var b := if Chosen(roomType) then Filter(a, RoomIs(roomType)) else a;
    StageIsFilter(all, Chosen(status), StatusIs(status), StatusStage(status));
    StageIsFilter(a, Chosen(roomType), RoomIs(roomType), RoomStage(roomType));
    WindowIsFilter(b, from, to);
    FilterFuse(all, StatusStage(status), RoomStage(roomType), ChoiceStage(status, roomType));
    SelectionIsStages(status, roomType, from, to);
    FilterFuse(all, ChoiceStage(status, roomType), WindowStage(from, to), Selection(status, roomType, from, to));
  }
}

=== FILE: reports_page.dfy ===
/** The reports page: it loads every reservation once, filters them in the
    browser, and computes its figures from the filtered list. */
module ReportsPage {
  import opened Wrappers
  import opened Text
  import opened Records
  import opened Seqs
  import opened JsMath
  import opened ReportController
  import FormValidation

  /** The filter inputs; an empty date means no bound, `All` means no
      choice. */
  datatype Filters = Filters(dateFrom: string, dateTo: string, status: string, room: string)

  const AllFilters := Filters("", "", "All", "All")

  datatype Page = Page(reservations: seq<Reservation>, filtered: seq<Reservation>, filters: Filters, dateError: string)

  const RangeMessage := "End date must be after start date"

  /** The page once the reservations have arrived: everything is shown. */
  function Loaded(reservations: seq<Reservation>): (p: Page)
    ensures p.filtered == p.reservations == reservations
  {
    Page(reservations, reservations, AllFilters, "")
  }

  /** The four filters in the page's order: from, to, status, room. A date
      bound compares strings and fails on a missing check-in date. */
  function ClientFilter(xs: seq<Reservation>, f: Filters): (r: seq<Reservation>)
    ensures |r| <= |xs|
  {
    var a := if f.dateFrom != "" then Filter(xs, CheckInFrom(f.dateFrom)) else xs;
    var b := if f.dateTo != "" then Filter(a, CheckInTo(f.dateTo)) else a;
    var c := if f.status != "All" then Filter(b, StatusIs(Some(f.status))) else b;
    if f.room != "All" then Filter(c, RoomIs(Some(f.room))) else c
  }

  /** `applyFilters`: a reversed range only sets the message and leaves the
      list as it was; otherwise the message is cleared and the list is
      refiltered from all reservations. */
  function ApplyFilters(p: Page): (p': Page)
    ensures p'.reservations == p.reservations && p'.filters == p.filters
    ensures p'.dateError == RangeMessage <==>
      p.filters.dateFrom != "" && p.filters.dateTo != "" && Less(p.filters.dateTo, p.filters.dateFrom)
    ensures p'.dateError == RangeMessage ==> p'.filtered == p.filtered
    ensures p'.dateError != RangeMessage ==> p'.dateError == "" && p'.filtered == ClientFilter(p.reservations, p.filters)
  {
    var f := p.filters;
    if f.dateFrom != "" && f.dateTo != "" && Less(f.dateTo, f.dateFrom) then p.(dateError := RangeMessage)
    else p.(dateError := "", filtered := ClientFilter(p.reservations, f))
  }

  /** `resetFilters`. */
  function ResetFilters(p: Page): (p': Page)
    ensures p'.filters == AllFilters && p'.dateError == ""
    ensures p'.filtered == p'.reservations == p.reservations
  {
    p.(filters := AllFilters, dateError := "", filtered := p.reservations)
  }

  /** The page's two date steps are the server's window step. */
  lemma ClientDatesAreWindow(xs: seq<Reservation>, f: Filters)
    ensures (var a := if f.dateFrom != "" then Filter(xs, CheckInFrom(f.dateFrom)) else xs;
             if f.dateTo != "" then Filter(a, CheckInTo(f.dateTo)) else a)
            == DateWindow(xs, Some(f.dateFrom), Some(f.dateTo))
  {
  }

  /** The page's chain of filters is one filter by the server's selection. */
  lemma ClientFilterIsSelection(xs: seq<Reservation>, f: Filters)
    ensures ClientFilter(xs, f) == Filter(xs, Selection(Some(f.status), Some(f.room), Some(f.dateFrom), Some(f.dateTo)))
  {
    var status, room, from, to := Some(f.status), Some(f.room), Some(f.dateFrom), Some(f.dateTo);
    var w := WindowStage(from, to);
    var b := DateWindow(xs, from, to);
    var c := if f.status != "All" then Filter(b, StatusIs(status)) else b;
    ClientDatesAreWindow(xs, f);
    WindowIsFilter(xs, from, to);
    StageIsFilter(b, f.status != "All", StatusIs(status), StatusStage(status));
    StageIsFilter(c, f.room != "All", RoomIs(room), RoomStage(room));
    var w3: Reservation -> bool := (r: Reservation) => w(r) && StatusStage(status)(r);
    FilterFuse(xs, w, StatusStage(status), w3);
    SelectionIsStages(status, room, from, to);
    FilterFuse(xs, w3, RoomStage(room), Selection(status, room, from, to));
  }

  /** The browser's filter and the server's filter endpoint select the same
      reservations in the same order, though they apply the steps in a
      different order. */
  lemma ClientFilterIsServerFilter(xs: seq<Reservation>, f: Filters)
    ensures ClientFilter(xs, f) == FilterReservations(xs, Some(f.status), Some(f.room), Some(f.dateFrom), Some(f.dateTo))
  {
    ClientFilterIsSelection(xs, f);
    FilterIsSelection(xs, Some(f.status), Some(f.room), Some(f.dateFrom), Some(f.dateTo));
  }

  /** Reset and apply shows every reservation again. */
  lemma ResetThenApplyShowsAll(p: Page)
    ensures ApplyFilters(ResetFilters(p)).filtered == p.reservations
  {
  }

  /** The page's range check refuses exactly what the reference
      validator refuses, with a different message. */
  lemma RangeCheckIsReference(from: string, to: string)
    ensures (from != "" && to != "" && Less(to, from))
        <==> FormValidation.ValidateReportFilters(Some(from), Some(to)).Some?
    ensures FormValidation.ValidateReportFilters(Some(from), Some(to)) != Some(RangeMessage)
  {
  }

  // ------------------------------------------------------------------ stats

  datatype Stats = Stats(
    totalIncome: int,
    avgBill: int,
    cancelRate: int,
    statusCounts: seq<nat>,
    roomCounts: seq<nat>,
    incomeByRoom: seq<int>)

  function InRoom(room: string): Reservation -> bool {
    (r: Reservation) => r.roomType == Some(room) && NotCancelled(r)
  }

  /** The figures over the filtered list: income of the non-cancelled ones
      (a missing bill counts as zero), their rounded mean, the rounded
      cancelled percentage, and counts and income per status and room type
      in the order the page lists them. */
  function PageStats(filtered: seq<Reservation>): (s: Stats)
    ensures |s.statusCounts| == |Statuses| && |s.roomCounts| == |s.incomeByRoom| == |RoomTypes|
    ensures forall i :: 0 <= i < |Statuses| ==> s.statusCounts[i] == Count(filtered, StatusIs(Some(Statuses[i])))
    ensures forall i :: 0 <= i < |RoomTypes| ==> s.roomCounts[i] == Count(filtered, RoomIs(Some(RoomTypes[i])))
    ensures s.totalIncome == Sum(Filter(filtered, NotCancelled), BillOrZero)
    ensures forall i :: 0 <= i < |RoomTypes| ==>
      s.incomeByRoom[i] == Sum(Filter(filtered, InRoom(RoomTypes[i])), BillOrZero)
    ensures var n := Count(filtered, NotCancelled);
      && (n == 0 ==> s.avgBill == 0)
      && (n > 0 ==> 2 * s.avgBill * n <= 2 * s.totalIncome + n < 2 * s.avgBill * n + 2 * n)
    ensures 0 <= s.cancelRate <= 100
    ensures var c, n := Count(filtered, StatusIs(Some(Cancelled))), |filtered|;
      && (n == 0 ==> s.cancelRate == 0)
      && (n > 0 ==> 2 * s.cancelRate * n <= 200 * c + n < 2 * s.cancelRate * n + 2 * n)
  {
    var active := Filter(filtered, NotCancelled);
    var income := Sum(active, BillOrZero);
    var cancelled := Count(filtered, StatusIs(Some(Cancelled)));
    assert |filtered| > 0 ==> 0 <= RoundQuotient(100 * cancelled, |filtered|) <= 100 by {
      if |filtered| > 0 { RoundPercent(cancelled, |filtered|); }
    }
    Stats(
      income,
      if |active| > 0 then RoundQuotient(income, |active|) else 0,
      if |filtered| > 0 then RoundQuotient(100 * cancelled, |filtered|) else 0,
      seq(|Statuses|, i requires 0 <= i < |Statuses| => Count(filtered, StatusIs(Some(Statuses[i])))),
      seq(|RoomTypes|, i requires 0 <= i < |RoomTypes| => Count(filtered, RoomIs(Some(RoomTypes[i])))),
      seq(|RoomTypes|, i requires 0 <= i < |RoomTypes| => Sum(Filter(filtered, InRoom(RoomTypes[i])), BillOrZero)))
  }

  /** The cancellation rate is a percentage. */
  lemma CancelRateIsPercentage(filtered: seq<Reservation>)
    ensures 0 <= PageStats(filtered).cancelRate <= 100
  {
    if |filtered| > 0 {
      RoundPercent(Count(filtered, StatusIs(Some(Cancelled))), |filtered|);
    }
  }

  /** The page's five status counts and the reservations with any other
      status make up the filtered list, as in the summary endpoint. */
  lemma PageStatusCountsAddUp(filtered: seq<Reservation>)
    ensures var c := PageStats(filtered).statusCounts;
      c[0] + c[1] + c[2] + c[3] + c[4] + Count(filtered, OddStatus) == |filtered|
  {
    StatusCountsPartition(filtered);
  }

  /** The page's income figure is the server summary's over the same list. */
  lemma PageIncomeIsSummaryIncome(filtered: seq<Reservation>)
    requires GetSummary(filtered).Ok?
    ensures PageStats(filtered).totalIncome == GetSummary(filtered).value.totalIncome
  {
  }

  /** The per-room income adds up to the total when every non-cancelled
      reservation has one of the three room types. */
  lemma PageIncomeByRoomAddsUp(filtered: seq<Reservation>)
    requires forall i :: 0 <= i < |filtered| && NotCancelled(filtered[i]) ==>
      filtered[i].roomType.Some? && IsRoomType(filtered[i].roomType.value)
    ensures var s := PageStats(filtered);
      s.incomeByRoom[0] + s.incomeByRoom[1] + s.incomeByRoom[2] == s.totalIncome
  {
    RoomIncomeSplits(filtered);
    ActiveHaveRooms(filtered);
  }

  /** Any of the three room types, not cancelled. */
  function InAnyRoom(): Reservation -> bool {
    Either(Either(InRoom(Standard), InRoom(Deluxe)), InRoom(Suite))
  }

  /** The income of the three rooms is the income of their union. */
  lemma RoomIncomeSplits(xs: seq<Reservation>)
    ensures Sum(Filter(xs, InRoom(Standard)), BillOrZero) + Sum(Filter(xs, InRoom(Deluxe)), BillOrZero)
          + Sum(Filter(xs, InRoom(Suite)), BillOrZero) == Sum(Filter(xs, InAnyRoom()), BillOrZero)
  {
    var p1, p2, p3 := InRoom(Standard), InRoom(Deluxe), InRoom(Suite);
    SumPartition(xs, BillOrZero, p1, p2, Either(p1, p2));
    SumPartition(xs, BillOrZero, Either(p1, p2), p3, InAnyRoom());
  }

  /** When every non-cancelled reservation has a known room type, the union
      of the three rooms is the non-cancelled reservations. */
  lemma ActiveHaveRooms(xs: seq<Reservation>)
    requires forall i :: 0 <= i < |xs| && NotCancelled(xs[i]) ==>
      xs[i].roomType.Some? && IsRoomType(xs[i].roomType.value)
    ensures Filter(xs, InAnyRoom()) == Filter(xs, NotCancelled)
  {
    forall x | x in xs ensures InAnyRoom()(x) == NotCancelled(x) {
      var i :| 0 <= i < |xs| && xs[i] == x;
    }
    FilterSame(xs, InAnyRoom(), NotCancelled);
  }

  /** The page divides the income by every non-cancelled reservation, the
      summary endpoint only by those with a bill; the two averages are of
      the same quotient exactly when every non-cancelled reservation carries
      a bill, and the page then rounds it. */
  lemma AveragesShareQuotientWhenAllBilled(filtered: seq<Reservation>)
    requires GetSummary(filtered).Ok?
    requires forall i :: 0 <= i < |filtered| && NotCancelled(filtered[i]) ==> filtered[i].totalBill.Some?
    ensures var n := Count(filtered, NotCancelled);
      var income := GetSummary(filtered).value.totalIncome;
      && GetSummary(filtered).value.avgBill == Average(income, n)
      && PageStats(filtered).avgBill == (if n > 0 then RoundQuotient(income, n) else 0)
  {
    SummaryAverage(filtered);
    FilterSame(filtered, Billed, NotCancelled);
  }

  /** The page's own badge colours: any status it does not know, or none,
      gets the Pending palette. */
  function PageStatusColor(status: Option<string>): (p: FormValidation.Palette)
    ensures status.Some? && IsStatus(status.value) ==> Some(p) == FormValidation.StatusColor(status.value)
    ensures !(status.Some? && IsStatus(status.value)) ==> Some(p) == FormValidation.StatusColor(Pending)
  {
    if status == Some(Confirmed) then FormValidation.Palette("#d1e7dd", "#0f5132")
    else if status == Some(CheckedIn) then FormValidation.Palette("#cfe2ff", "#084298")
    else if status == Some(CheckedOut) then FormValidation.Palette("#e2e3e5", "#41464b")
    else if status == Some(Cancelled) then FormValidation.Palette("#f8d7da", "#842029")
    else FormValidation.Palette("#fff3cd", "#856404")
  }
}

=== FILE: reservation_controller.dfy ===
/** The reservation endpoints as transitions of the reservation collection:
    create validates and fills in the default status, update patches the
    non-null fields of the body into the stored document, delete and get
    address a document by id. The collection is a map from id to document. */
module ReservationController {
  import opened Wrappers
  import opened Records
  import opened ValidationService

  type Store = map<string, Reservation>

  /** Every document is stored under its own id. */
  predicate WellKeyed(s: Store) {
    forall k :: k in s ==> s[k].id == Some(k)
  }

  /** What an endpoint answers. */
  datatype Outcome =
    | Saved(reservation: Reservation)           // 200 with the saved document
    | Found(reservation: Reservation)           // 200 with the stored document
    | Deleted                                   // 200 "Deleted successfully"
    | Rejected(errors: seq<ReservationError>)   // 400 with the validation errors
    | InvalidStatus                             // 400 "Invalid status value"
    | NotFound                                  // 404 "Reservation not found"
  {
    function Code(): int {
      match this
      case Saved(_) => 200
      case Found(_) => 200
      case Deleted => 200
      case Rejected(_) => 400
      case InvalidStatus => 400
      case NotFound => 404
    }
  }

  datatype Step = Step(store: Store, outcome: Outcome)

  /** `POST /api/reservations`: the body is validated, a missing or empty
      status becomes Pending, and `save` stores the document under the id it
      carries (replacing whatever was there) or under a newly generated
      one. */
  function Create(s: Store, body: Reservation, freshId: string): (st: Step)
    requires freshId !in s
    ensures st.outcome.Rejected? || st.outcome.Saved?
    ensures st.outcome.Rejected? <==> ValidateReservation(body) != []
    ensures st.outcome.Rejected? ==> st.store == s && st.outcome.errors == ValidateReservation(body)
    ensures st.outcome.Saved? ==>
      var saved := st.outcome.reservation;
      && saved.id == (if body.id.Some? then body.id else Some(freshId))
      && st.store == s[saved.id.value := saved]
      && saved.status == (if Truthy(body.status) then body.status else Some(Pending))
      && saved.(id := body.id, status := body.status) == body
      && ValidateReservation(saved) == []
  {
    var errors := ValidateReservation(body);
    if errors != [] then Step(s, Rejected(errors))
    else
      // `save` keeps an id the body carries and generates one otherwise
      var id := if body.id.Some? then body.id.value else freshId;
      var status := if Truthy(body.status) then body.status else Some(Pending);
      var saved := body.(id := Some(id), status := status);
      ValidationIgnoresIdAndStatus(body, Some(id), status);
      Step(s[id := saved], Saved(saved))
  }

  /** The body of the update endpoint merged into the stored document: every
      field the body carries replaces the stored one; the id never changes. */
  function Patch(existing: Reservation, body: Reservation): (r: Reservation)
    ensures r.id == existing.id
    ensures Overlays(r.reservationNumber, body.reservationNumber, existing.reservationNumber)
    ensures Overlays(r.guestName, body.guestName, existing.guestName)
    ensures Overlays(r.address, body.address, existing.address)
    ensures Overlays(r.contactNumber, body.contactNumber, existing.contactNumber)
    ensures Overlays(r.roomType, body.roomType, existing.roomType)
    ensures Overlays(r.checkInDate, body.checkInDate, existing.checkInDate)
    ensures Overlays(r.checkOutDate, body.checkOutDate, existing.checkOutDate)
    ensures Overlays(r.totalBill, body.totalBill, existing.totalBill)
    ensures Overlays(r.status, body.status, existing.status)
  {
    Reservation(
      existing.id,
      if body.reservationNumber.Some? then body.reservationNumber else existing.reservationNumber,
      if body.guestName.Some? then body.guestName else existing.guestName,
      if body.address.Some? then body.address else existing.address,
      if body.contactNumber.Some? then body.contactNumber else existing.contactNumber,
      if body.roomType.Some? then body.roomType else existing.roomType,
      if body.checkInDate.Some? then body.checkInDate else existing.checkInDate,
      if body.checkOutDate.Some? then body.checkOutDate else existing.checkOutDate,
      if body.totalBill.Some? then body.totalBill else existing.totalBill,
      if body.status.Some? then body.status else existing.status)
  }

  /** A body with every field null. */
  const NoFields := Reservation(None, None, None, None, None, None, None, None, None, None)

  /** Applying the same body twice is applying it once. */
  lemma PatchIdempotent(existing: Reservation, body: Reservation)
    ensures Patch(Patch(existing, body), body) == Patch(existing, body)
  {
  }

  /** An empty body changes nothing; a body with every field set replaces
      everything but the id. */
  lemma PatchExtremes(existing: Reservation, body: Reservation)
    ensures Patch(existing, NoFields) == existing
    ensures body.reservationNumber.Some? && body.guestName.Some? && body.address.Some?
            && body.contactNumber.Some? && body.roomType.Some? && body.checkInDate.Some?
            && body.checkOutDate.Some? && body.totalBill.Some? && body.status.Some?
            ==> Patch(existing, body) == body.(id := existing.id)
  {
  }

  /** `PUT /api/reservations/{id}`. A status in the body is checked before
      the lookup; nothing else in the body is validated. */
  function Update(s: Store, id: string, body: Reservation): (st: Step)
    ensures st.outcome.InvalidStatus? <==> body.status.Some? && !IsValidStatus(body.status)
    ensures st.outcome.NotFound? <==> !st.outcome.InvalidStatus? && id !in s
    ensures st.outcome.Saved? <==> !st.outcome.InvalidStatus? && id in s
    ensures !st.outcome.Saved? ==> st.store == s
    ensures st.outcome.Saved? ==>
      st.outcome.reservation == Patch(s[id], body) && st.store == s[id := st.outcome.reservation]
    ensures WellKeyed(s) ==> WellKeyed(st.store)
  {
    if body.status.Some? && !IsValidStatus(body.status) then Step(s, InvalidStatus)
    else if id !in s then Step(s, NotFound)
    else
      var merged := Patch(s[id], body);
      Step(s[id := merged], Saved(merged))
  }

  /** `DELETE /api/reservations/{id}`. */
  function Delete(s: Store, id: string): (st: Step)
    ensures st.outcome.Deleted? <==> id in s
    ensures st.outcome.Deleted? || st.outcome.NotFound?
    ensures st.store == s - {id}
    ensures id !in st.store
    ensures WellKeyed(s) ==> WellKeyed(st.store)
  {
    if id !in s then Step(s, NotFound) else Step(s - {id}, Deleted)
  }

  /** `GET /api/reservations/{id}`. */
  function GetById(s: Store, id: string): (o: Outcome)
    ensures o.Found? <==> id in s
    ensures o.Found? || o.NotFound?
    ensures o.Found? && WellKeyed(s) ==> o.reservation.id == Some(id)
  {
    if id in s then Found(s[id]) else NotFound
  }

  /** Storing a document under its own id keeps the collection well keyed. */
  lemma StoreUnderOwnId(s: Store, r: Reservation)
    requires WellKeyed(s) && r.id.Some?
    ensures WellKeyed(s[r.id.value := r])
  {
  }

  /** Create stores every document under its own id. */
  lemma CreateKeepsKeys(s: Store, body: Reservation, freshId: string)
    requires freshId !in s && WellKeyed(s)
    ensures WellKeyed(Create(s, body, freshId).store)
  {
    var st := Create(s, body, freshId);
    if st.outcome.Saved? {
      StoreUnderOwnId(s, st.outcome.reservation);
    }
  }

  /** A valid body is saved, and what was saved can be read back under the
      id it was given, unchanged. */
  lemma CreateThenGet(s: Store, body: Reservation, freshId: string)
    requires freshId !in s
    ensures ValidateReservation(body) == [] ==> Create(s, body, freshId).outcome.Saved?
    ensures var st := Create(s, body, freshId);
      st.outcome.Saved? ==> GetById(st.store, st.outcome.reservation.id.value) == Found(st.outcome.reservation)
  {
  }

  /** Deleting what was created restores the collection, when the body
      brought no id of its own. */
  lemma CreateThenDelete(s: Store, body: Reservation, freshId: string)
    requires freshId !in s && body.id.None?
    ensures var st := Create(s, body, freshId);
      st.outcome.Saved? ==> Delete(st.store, freshId) == Step(s, Deleted)
  {
    var st := Create(s, body, freshId);
    if st.outcome.Saved? {
      var saved := st.outcome.reservation;
      assert st.store == s[freshId := saved];
      DeleteAdded(s, freshId, saved);
    }
  }

  /** Deleting a key that was just added gives back the store it was added to. */
  lemma DeleteAdded(s: Store, k: string, r: Reservation)
    requires k !in s
    ensures Delete(s[k := r], k) == Step(s, Deleted)
  {
    assert s[k := r] - {k} == s;
  }

  /** A create whose body names an id that is already stored replaces that
      document instead of adding one. */
  lemma CreateWithStoredIdReplaces(s: Store, body: Reservation, freshId: string)
    requires freshId !in s && body.id.Some? && body.id.value in s
    ensures var st := Create(s, body, freshId);
      st.outcome.Saved? ==>
        && st.store.Keys == s.Keys
        && st.store[body.id.value] == st.outcome.reservation
  {
    var st := Create(s, body, freshId);
    if st.outcome.Saved? {
      ReplaceKeepsKeys(s, body.id.value, st.outcome.reservation);
    }
  }

  lemma ReplaceKeepsKeys(s: Store, k: string, r: Reservation)
    requires k in s
    ensures s[k := r].Keys == s.Keys
  {
  }

  /** The update endpoint does not revalidate: a body with a negative bill
      is stored, and the stored document then fails the create checks. */
  lemma UpdateStoresInvalidDocuments(s: Store, id: string, bill: int)
    requires id in s && bill < 0
    ensures var st := Update(s, id, NoFields.(totalBill := Some(bill)));
      && st.outcome.Saved?
      && BillNegative in ValidateReservation(st.store[id])
  {
    var st := Update(s, id, NoFields.(totalBill := Some(bill)));
    OptionalMessages(st.store[id]);
  }
}

=== FILE: seqs.dfy ===
/** Filters, sums and group-by over sequences: the folds every report and
    dashboard figure is computed with. */
module Seqs {

  /** The elements of `xs` satisfying `p`, in their original order
      (`list.filter(p)` / `stream().filter(p)`). */
  function Filter<T(!new)>(xs: seq<T>, p: T -> bool): (r: seq<T>)
    ensures |r| <= |xs|
    ensures forall x :: x in r <==> x in xs && p(x)
  {
    if xs == [] then [] else (if p(xs[0]) then [xs[0]] else []) + Filter(xs[1..], p)
  }

  /** How many elements satisfy `p`. */
  function Count<T(!new)>(xs: seq<T>, p: T -> bool): (n: nat)
    ensures n <= |xs|
  {
    |Filter(xs, p)|
  }

  function Sum<T>(xs: seq<T>, f: T -> int): int {
    if xs == [] then 0 else f(xs[0]) + Sum(xs[1..], f)
  }

  /** `a` is obtained from `b` by deleting elements: an order-preserving
      sub-list. */
  ghost predicate IsSubsequence<T>(a: seq<T>, b: seq<T>) {
    || a == []
    || (b != [] && ((a[0] == b[0] && IsSubsequence(a[1..], b[1..])) || IsSubsequence(a, b[1..])))
  }

  lemma {:induction false} FilterIsSubsequence<T(!new)>(xs: seq<T>, p: T -> bool)
    ensures IsSubsequence(Filter(xs, p), xs)
  {
    if xs != [] {
      FilterIsSubsequence(xs[1..], p);
      var r := Filter(xs, p);
      if p(xs[0]) {
        assert r[0] == xs[0] && r[1..] == Filter(xs[1..], p);
      } else {
        assert r == Filter(xs[1..], p);
      }
    }
  }

  /** Filtering twice is filtering once by the conjunction. */
  lemma {:induction false} FilterFuse<T(!new)>(xs: seq<T>, p: T -> bool, q: T -> bool, both: T -> bool)
    requires forall x :: both(x) == (p(x) && q(x))
    ensures Filter(Filter(xs, p), q) == Filter(xs, both)
  {
    if xs != [] {
      FilterFuse(xs[1..], p, q, both);
      FilterCons(xs, p);
      if p(xs[0]) {
        FilterCons(Filter(xs, p), q);
      }
    }
  }

  /** A filter that every element passes changes nothing. */
  lemma {:induction false} FilterKeepsAll<T(!new)>(xs: seq<T>, p: T -> bool)
    requires forall x :: x in xs ==> p(x)
    ensures Filter(xs, p) == xs
  {
    if xs != [] {
      FilterKeepsAll(xs[1..], p);
      assert xs == [xs[0]] + xs[1..];
    }
  }

  /** Two filters that agree on every element give the same result. */
  lemma {:induction false} FilterSame<T(!new)>(xs: seq<T>, p: T -> bool, q: T -> bool)
    requires forall x :: x in xs ==> p(x) == q(x)
    ensures Filter(xs, p) == Filter(xs, q)
  {
    if xs != [] {
      FilterSame(xs[1..], p, q);
    }
  }

  /** The disjunction of two filters. */
  function Either<T>(p: T -> bool, q: T -> bool): T -> bool {
    (x: T) => p(x) || q(x)
  }

  /** Two filters may be applied in either order. */
  lemma FilterCommute<T(!new)>(xs: seq<T>, p: T -> bool, q: T -> bool)
    ensures Filter(Filter(xs, p), q) == Filter(Filter(xs, q), p)
  {
    var pq := (x: T) => p(x) && q(x);
    var qp := (x: T) => q(x) && p(x);
    FilterFuse(xs, p, q, pq);
    FilterFuse(xs, q, p, qp);
    FilterSame(xs, pq, qp);
  }

  /** Filtering distributes over concatenation. */
  lemma {:induction false} FilterAppend<T(!new)>(xs: seq<T>, ys: seq<T>, p: T -> bool)
    ensures Filter(xs + ys, p) == Filter(xs, p) + Filter(ys, p)
  {
    if xs == [] {
      assert xs + ys == ys;
    } else {
      assert (xs + ys)[1..] == xs[1..] + ys;
      FilterAppend(xs[1..], ys, p);
    }
  }

  /** One step of a filter: the head is kept exactly when it passes. */
  lemma FilterCons<T(!new)>(xs: seq<T>, p: T -> bool)
    requires xs != []
    ensures p(xs[0]) ==> Filter(xs, p) != [] && Filter(xs, p)[0] == xs[0] && Filter(xs, p)[1..] == Filter(xs[1..], p)
    ensures !p(xs[0]) ==> Filter(xs, p) == Filter(xs[1..], p)
  {
    if p(xs[0]) {
      assert Filter(xs, p) == [xs[0]] + Filter(xs[1..], p);
    }
  }

  lemma SumFilterCons<T(!new)>(xs: seq<T>, f: T -> int, p: T -> bool)
    requires xs != []
    ensures Sum(Filter(xs, p), f) == (if p(xs[0]) then f(xs[0]) else 0) + Sum(Filter(xs[1..], p), f)
  {
    FilterCons(xs, p);
  }

  /** Summing over a filter that splits into two disjoint filters. */
  lemma {:induction false} SumPartition<T(!new)>(xs: seq<T>, f: T -> int, p: T -> bool, q: T -> bool, either: T -> bool)
    requires forall x :: either(x) == (p(x) || q(x))
    requires forall x :: !(p(x) && q(x))
    ensures Sum(Filter(xs, either), f) == Sum(Filter(xs, p), f) + Sum(Filter(xs, q), f)
  {
    if xs != [] {
      SumPartition(xs[1..], f, p, q, either);
      SumFilterCons(xs, f, either);
      SumFilterCons(xs, f, p);
      SumFilterCons(xs, f, q);
    }
  }

  /** Counting over a filter that splits into two disjoint filters. */
  lemma {:induction false} CountPartition<T(!new)>(xs: seq<T>, p: T -> bool, q: T -> bool, either: T -> bool)
    requires forall x :: either(x) == (p(x) || q(x))
    requires forall x :: !(p(x) && q(x))
    ensures Count(xs, either) == Count(xs, p) + Count(xs, q)
  {
    if xs != [] {
      CountPartition(xs[1..], p, q, either);
    }
  }

  /** Every element is counted by exactly one of `p` and its negation. */
  lemma {:induction false} CountComplement<T(!new)>(xs: seq<T>, p: T -> bool, notP: T -> bool)
    requires forall x :: notP(x) == !p(x)
    ensures Count(xs, p) + Count(xs, notP) == |xs|
  {
    if xs != [] {
      CountComplement(xs[1..], p, notP);
    }
  }

  /** Summing non-negative terms over a filter gives at most the full sum. */
  lemma {:induction false} SumFilterAtMost<T(!new)>(xs: seq<T>, f: T -> int, p: T -> bool)
    requires forall x :: x in xs ==> f(x) >= 0
    ensures 0 <= Sum(Filter(xs, p), f) <= Sum(xs, f)
  {
    if xs != [] {
      SumFilterAtMost(xs[1..], f, p);
      SumFilterCons(xs, f, p);
    }
  }

  /** Summing a one per element counts the elements. */
  lemma {:induction false} SumOnes<T>(xs: seq<T>, one: T -> int)
    requires forall x :: one(x) == 1
    ensures Sum(xs, one) == |xs|
  {
    if xs != [] {
      SumOnes(xs[1..], one);
    }
  }

  /** A sum whose every term is zero is zero. */
  lemma {:induction false} SumZero<T>(xs: seq<T>, f: T -> int)
    requires forall i :: 0 <= i < |xs| ==> f(xs[i]) == 0
    ensures Sum(xs, f) == 0
  {
    if xs != [] {
      SumZero(xs[1..], f);
    }
  }

  /** Keys of a group-by: the set of keys the elements map to. */
  function KeysOf<T(==,!new), K(==,!new)>(xs: seq<T>, key: T -> K): set<K> {
    set x | x in xs :: key(x)
  }

  /** For each key in `keys`, the sum of `val` over the elements with that
      key. */
  function GroupOver<T(==,!new), K(==,!new)>(xs: seq<T>, key: T -> K, val: T -> int, keys: set<K>): map<K, int> {
    map k | k in keys :: Sum(Filter(xs, KeyIs(key, k)), val)
  }

  /** The elements of group `k`. */
  function KeyIs<T, K(==)>(key: T -> K, k: K): T -> bool {
    x => key(x) == k
  }

  /** `groupingBy(key, summing(val))`: one entry per key that occurs. */
  function GroupSum<T(==,!new), K(==,!new)>(xs: seq<T>, key: T -> K, val: T -> int): map<K, int> {
    GroupOver(xs, key, val, KeysOf(xs, key))
  }

  /** The sum of a map's values. */
  ghost function SumValues<K>(m: map<K, int>): int
    decreases m.Keys
  {
    if m.Keys == {} then 0
    else
      var k :| k in m;
      assert (m - {k}).Keys < m.Keys;
      m[k] + SumValues(m - {k})
  }

  /** The sum of a map's values does not depend on which key is taken out
      first. */
  lemma {:induction false} SumValuesRemove<K(!new)>(m: map<K, int>, k: K)
    requires k in m
    ensures SumValues(m) == m[k] + SumValues(m - {k})
    decreases m.Keys
  {
    var j :| j in m && SumValues(m) == m[j] + SumValues(m - {j});
    if j != k {
      assert (m - {j}).Keys < m.Keys;
      assert (m - {k}).Keys < m.Keys;
      SumValuesRemove(m - {j}, k);
      SumValuesRemove(m - {k}, j);
      assert m - {j} - {k} == m - {k} - {j};
    }
  }

  lemma {:induction false} GroupOverSum<T(!new), K(!new)>(xs: seq<T>, key: T -> K, val: T -> int, keys: set<K>)
    ensures SumValues(GroupOver(xs, key, val, keys)) == Sum(Filter(xs, x => key(x) in keys), val)
    decreases keys
  {
    var g := GroupOver(xs, key, val, keys);
    if keys == {} {
      assert g.Keys == {};
      FilterSame(xs, x => key(x) in keys, x => false);
      NothingPasses(xs);
    } else {
      var k :| k in keys;
      var rest := keys - {k};
      SumValuesRemove(g, k);
      assert g - {k} == GroupOver(xs, key, val, rest);
      GroupOverSum(xs, key, val, rest);
      SumPartition(xs, val, KeyIs(key, k), x => key(x) in rest, x => key(x) in keys);
    }
  }

  lemma {:induction false} NothingPasses<T(!new)>(xs: seq<T>)
    ensures Filter(xs, (x: T) => false) == []
  {
    if xs != [] {
      NothingPasses(xs[1..]);
    }
  }

  /** The per-key sums of a group-by add up to the sum over all elements. */
  lemma GroupSumTotal<T(!new), K(!new)>(xs: seq<T>, key: T -> K, val: T -> int)
    ensures SumValues(GroupSum(xs, key, val)) == Sum(xs, val)
  {
    GroupOverSum(xs, key, val, KeysOf(xs, key));
    FilterKeepsAll(xs, x => key(x) in KeysOf(xs, key));
  }
}

=== FILE: text.dfy ===
/** The small string predicates the validators and filters are built from:
    whitespace trimming, ASCII lower-casing, substring search and the
    lexicographic order that both JavaScript's `<` on strings and Java's
    `String.compareTo` implement. */
module Text {

  /** ASCII whitespace: what `\s` matches and what `trim` strips. */
  predicate IsSpace(c: char) {
    c == ' ' || c == '\t' || c == '\n' || c == '\r' || c == '\U{0B}' || c == '\U{0C}'
  }

  predicate AllSpace(s: string) {
    forall i :: 0 <= i < |s| ==> IsSpace(s[i])
  }

  function TrimStart(s: string): (t: string)
    ensures |t| <= |s| && t == s[|s| - |t|..]
    ensures t == [] <==> AllSpace(s)
    ensures t != [] ==> !IsSpace(t[0])
  {
    if |s| > 0 && IsSpace(s[0]) then TrimStart(s[1..]) else s
  }

  function TrimEnd(s: string): (t: string)
    ensures |t| <= |s| && t == s[..|t|]
    ensures t == [] <==> AllSpace(s)
    ensures t != [] ==> !IsSpace(t[|t| - 1])
  {
    if |s| > 0 && IsSpace(s[|s| - 1]) then TrimEnd(s[..|s| - 1]) else s
  }

  /** `s.trim()`: the longest slice of `s` that neither starts nor ends with
      whitespace. */
  function Trim(s: string): (t: string)
    ensures |t| <= |s|
    ensures t == [] <==> AllSpace(s)
    ensures t != [] ==> !IsSpace(t[0]) && !IsSpace(t[|t| - 1])
  {
    TrimEnd(TrimStart(s))
  }

  /** The trimmed string is a slice of the original. */
  lemma TrimOccursIn(s: string)
    ensures Contains(s, Trim(s))
  {
    var a := TrimStart(s);
    assert OccursAt(s, Trim(s), |s| - |a|);
  }

  /** `s.trim().isEmpty()` in Java, `!s.trim()` in JavaScript. */
  predicate IsBlank(s: string) {
    Trim(s) == []
  }

  function LowerChar(c: char): char {
    if 'A' <= c <= 'Z' then (c as int + 32) as char else c
  }

  /** `toLowerCase()` restricted to ASCII letters. */
  function ToLower(s: string): (t: string)
    ensures |t| == |s|
    ensures forall i :: 0 <= i < |s| ==> t[i] == LowerChar(s[i])
  {
    if s == [] then [] else [LowerChar(s[0])] + ToLower(s[1..])
  }

  /** `needle` occurs in `hay` starting at offset `i`. */
  predicate OccursAt(hay: string, needle: string, i: int) {
    0 <= i <= |hay| - |needle| && hay[i..i + |needle|] == needle
  }

  /** `hay.includes(needle)`: `needle` occurs at some offset of `hay`. */
  predicate Contains(hay: string, needle: string) {
    exists i | 0 <= i <= |hay| - |needle| :: OccursAt(hay, needle, i)
  }

  /** Every string includes the empty string. */
  lemma ContainsEmpty(hay: string)
    ensures Contains(hay, "")
  {
    assert OccursAt(hay, "", 0);
  }

  /** Lower-casing twice is lower-casing once. */
  lemma ToLowerIdempotent(s: string)
    ensures ToLower(ToLower(s)) == ToLower(s)
  {
  }

  /** Lexicographic order on code units: JavaScript's `a < b` on two strings
      and Java's `a.compareTo(b) < 0`. A proper prefix is smaller. */
  predicate Less(a: string, b: string) {
    if a == [] then b != []
    else if b == [] then false
    else if a[0] != b[0] then a[0] < b[0]
    else Less(a[1..], b[1..])
  }

  /** Less is a strict total order: exactly one of a < b, a == b, b < a. */
  lemma {:induction false} LessTrichotomy(a: string, b: string)
    ensures Less(a, b) || a == b || Less(b, a)
    ensures !(Less(a, b) && Less(b, a))
    ensures !(Less(a, b) && a == b)
  {
    if a != [] && b != [] && a[0] == b[0] {
      LessTrichotomy(a[1..], b[1..]);
      if a[1..] == b[1..] {
        assert a == [a[0]] + a[1..] && b == [b[0]] + b[1..];
      }
    }
  }

  lemma {:induction false} LessTransitive(a: string, b: string, c: string)
    requires Less(a, b) && Less(b, c)
    ensures Less(a, c)
  {
    if a != [] && b != [] && c != [] && a[0] == b[0] && b[0] == c[0] {
      LessTransitive(a[1..], b[1..], c[1..]);
    }
  }

  /** Comparing two concatenations whose first parts have the same length
      decides on the first parts, and on the second parts only on a tie. */
  lemma {:induction false} LessAppend(a1: string, a2: string, b1: string, b2: string)
    requires |a1| == |b1|
    ensures Less(a1 + a2, b1 + b2) <==> Less(a1, b1) || (a1 == b1 && Less(a2, b2))
  {
    if a1 == [] {
      assert a1 + a2 == a2 && b1 + b2 == b2;
    } else {
      assert (a1 + a2)[0] == a1[0] && (b1 + b2)[0] == b1[0];
      assert (a1 + a2)[1..] == a1[1..] + a2 && (b1 + b2)[1..] == b1[1..] + b2;
      LessAppend(a1[1..], a2, b1[1..], b2);
      if a1[0] == b1[0] && a1[1..] == b1[1..] {
        assert a1 == [a1[0]] + a1[1..] && b1 == [b1[0]] + b1[1..];
      }
    }
  }
}

=== FILE: user_management_page.dfy ===
/** The administrators' user page: a form that registers a user or puts an
    edited one, with its own validation; deletion guarded against deleting
    oneself; and a case-blind search over the loaded users. */
module UserManagementPage {
  import opened Wrappers
  import opened Text
  import opened Patterns
  import opened Records
  import opened Seqs
  import FormValidation
  import AuthController

  type UserField = FormValidation.UserField

  /** The form: the four fields of a user, never an id, so the form is sent
      as it is. */
  predicate IsForm(u: User) {
    u.id.None?
  }

  /** The empty form, with the USER role chosen. */
  const EmptyForm := User(None, Some(""), Some(""), Some(""), Some(UserRole))

  /** The field errors on display; a cleared error is an absent one. */
  type Errors = map<UserField, string>

  datatype Page = Page(form: User, errors: Errors, editId: Option<string>, showForm: bool)

  const UsernameMessage := "Username must be at least 3 characters"
  const EmailMessage := "Valid email address required"
  const PasswordMessage := "Password must be at least 4 characters"
  const RoleMessage := "Role is required"

  /** The page's own `validateUser`: like the reference validator except
      that any non-empty role passes. */
  function ValidateUser(u: User, isEdit: bool): (errs: Errors)
    ensures FormValidation.UsernameField in errs <==> !Truthy(u.username) || |Trim(u.username.value)| < 3
    ensures FormValidation.EmailField in errs <==> !Truthy(u.email) || !MatchesEmailPattern(u.email.value)
    ensures FormValidation.PasswordField in errs <==> !isEdit && (!Truthy(u.password) || |u.password.value| < 4)
    ensures FormValidation.RoleField in errs <==> !Truthy(u.role)
  {
    EmailShapeMatchesPattern(u.email.GetOr(""));
    var e1: Errors :=
      if !Truthy(u.username) || |Trim(u.username.value)| < 3
      then map[FormValidation.UsernameField := UsernameMessage] else map[];
    var e2 :=
      if !Truthy(u.email) || !IsEmailShape(u.email.value)
      then e1[FormValidation.EmailField := EmailMessage] else e1;
    var e3 :=
      if !isEdit && (!Truthy(u.password) || |u.password.value| < 4)
      then e2[FormValidation.PasswordField := PasswordMessage] else e2;
    if !Truthy(u.role) then e3[FormValidation.RoleField := RoleMessage] else e3
  }

  /** The page and the reference validator flag the same username, email
      and password problems; on the role the page only asks for one, where
      the reference asks for USER or ADMIN. */
  lemma PageValidatorIsReferenceButRole(u: User, isEdit: bool)
    ensures ValidateUser(u, isEdit) - {FormValidation.RoleField}
         == FormValidation.ValidateUserForm(u, isEdit) - {FormValidation.RoleField}
    ensures FormValidation.RoleField in FormValidation.ValidateUserForm(u, isEdit)
        <==> !Truthy(u.role) || !IsRole(u.role.value)
  {
    if Truthy(u.email) {
      EmailShapeMatchesPattern(u.email.value);
    }
  }

  /** A role outside the two passes the page, fails the reference
      validator, and the register endpoint stores it as given. */
  lemma UnknownRolePassesPage(s: AuthController.Users, u: User, freshId: string)
    requires freshId !in s
    requires u.role == Some("SUPERADMIN")
    requires AuthController.Register(s, u, freshId).outcome.Registered?
    ensures FormValidation.RoleField !in ValidateUser(u, false)
    ensures FormValidation.RoleField in FormValidation.ValidateUserForm(u, false)
    ensures var id := if u.id.Some? then u.id.value else freshId;
      AuthController.Register(s, u, freshId).users[id].role == Some("SUPERADMIN")
  {
  }

  /** `handleChange`: the field takes the value and its error is cleared;
      every other error stays. */
  function HandleChange(p: Page, field: UserField, value: string): (p': Page)
    ensures p'.errors == p.errors - {field}
    ensures p'.editId == p.editId && p'.showForm == p.showForm
    ensures p'.form.id == p.form.id
    ensures match field
      case UsernameField => p'.form == p.form.(username := Some(value))
      case EmailField => p'.form == p.form.(email := Some(value))
      case PasswordField => p'.form == p.form.(password := Some(value))
      case RoleField => p'.form == p.form.(role := Some(value))
  {
    var v := Some(value);
    var form := match field
      case UsernameField => p.form.(username := v)
      case EmailField => p.form.(email := v)
      case PasswordField => p.form.(password := v)
      case RoleField => p.form.(role := v);
    p.(form := form, errors := p.errors - {field})
  }

  /** What submitting sends: the form to the register endpoint, the form
      to the edited user, or nothing with the errors found. */
  datatype Request =
    | RegisterUser(body: User)
    | PutUser(path: string, body: User)
    | Invalid(errors: Errors)

  /** `handleSubmit`: an edit is an edit exactly when the edited id is
      truthy, and then the password is not checked. */
  function Submit(p: Page): (q: Request)
    ensures q.Invalid? <==> ValidateUser(p.form, Truthy(p.editId)) != map[]
    ensures q.Invalid? ==> q.errors == ValidateUser(p.form, Truthy(p.editId))
    ensures q.PutUser? <==> !q.Invalid? && Truthy(p.editId)
    ensures q.PutUser? ==> q.path == p.editId.value
    ensures !q.Invalid? ==> q.body == p.form
  {
    var errs := ValidateUser(p.form, Truthy(p.editId));
    if errs != map[] then Invalid(errs)
    else if Truthy(p.editId) then PutUser(p.editId.value, p.form)
    else RegisterUser(p.form)
  }

  /** `resetForm`. */
  function ResetForm(p: Page): (p': Page)
    ensures p'.form == EmptyForm && p'.errors == map[] && p'.editId.None? && !p'.showForm
  {
    Page(EmptyForm, map[], None, false)
  }

  /** The page once the request `Submit` chose has been answered: invalid
      input shows its errors; a sent request clears them, and its success
      resets the form. */
  function AfterSubmit(p: Page, succeeded: bool): (p': Page)
    ensures Submit(p).Invalid? ==> p' == p.(errors := Submit(p).errors)
    ensures !Submit(p).Invalid? && succeeded ==> p' == ResetForm(p)
    ensures !Submit(p).Invalid? && !succeeded ==> p' == p.(errors := map[])
  {
    var q := Submit(p);
    if q.Invalid? then p.(errors := q.errors)
    else if succeeded then ResetForm(p)
    else p.(errors := map[])
  }

  /** `handleEdit`: the user's fields fill the form with an empty password,
      and the form is shown. */
  function HandleEdit(p: Page, user: User): (p': Page)
    ensures p'.editId == user.id && p'.errors == map[] && p'.showForm
    ensures IsForm(p'.form) && p'.form.password == Some("")
    ensures p'.form.(id := user.id, password := user.password) == user
  {
    Page(User(None, user.username, user.email, Some(""), user.role), map[], user.id, true)
  }

  /** What a delete click leads to. */
  datatype Deletion = SelfDeletion | Declined | RemoveUser(path: string)

  /** `handleDelete`: one's own account is refused before the confirmation
      is asked for. */
  function HandleDelete(currentId: Option<string>, id: Option<string>, confirmed: bool): (d: Deletion)
    ensures d == SelfDeletion <==> id == currentId
    ensures d == Declined <==> id != currentId && !confirmed
    ensures d.RemoveUser? ==> d.path == PathSegment(id)
  {
    if id == currentId then SelfDeletion
    else if !confirmed then Declined
    else RemoveUser(PathSegment(id))
  }

  /** `(field || "")`. */
  function TextOf(v: Option<string>): (t: string)
    ensures Truthy(v) ==> t == v.value
    ensures !Truthy(v) ==> t == ""
  {
    if v.Some? then v.value else ""
  }

  /** One user matches a search when the lower-cased search occurs in the
      lower-cased username, email or role. */
  function Matches(search: string): User -> bool {
    (u: User) =>
      var needle := ToLower(search);
      Contains(ToLower(TextOf(u.username)), needle)
      || Contains(ToLower(TextOf(u.email)), needle)
      || Contains(ToLower(TextOf(u.role)), needle)
  }

  /** `filteredUsers`. */
  function FilteredUsers(users: seq<User>, search: string): (r: seq<User>)
    ensures forall u :: u in r <==> u in users && Matches(search)(u)
    ensures |r| <= |users|
  {
    Filter(users, Matches(search))
  }

  /** An empty search shows every user. */
  lemma EmptySearchShowsAll(users: seq<User>)
    ensures FilteredUsers(users, "") == users
  {
    forall u | u in users ensures Matches("")(u) {
      ContainsEmpty(ToLower(TextOf(u.username)));
    }
    FilterKeepsAll(users, Matches(""));
  }

  /** The search does not see case: searching the lower-cased text finds
      the same users. */
  lemma SearchIgnoresCase(users: seq<User>, search: string)
    ensures FilteredUsers(users, ToLower(search)) == FilteredUsers(users, search)
  {
    ToLowerIdempotent(search);
    FilterSame(users, Matches(ToLower(search)), Matches(search));
  }

  /** Editing a stored user and saving without a change: the form passes
      when the stored username, email and role do, the put carries an empty
      password, and the update endpoint leaves the account as it was, the
      password included. */
  lemma EditAndSaveKeepsAccount(s: AuthController.Users, p: Page, id: string)
    requires id != "" && id in s && s[id].id == Some(id)
    requires ValidateUser(s[id], true) == map[]
    ensures var q := Submit(HandleEdit(p, s[id]));
      && q == PutUser(id, q.body)
      && AuthController.UpdateUser(s, id, q.body) == AuthController.Step(s, AuthController.Done(AuthController.UserUpdated))
  {
    var user := s[id];
    var e := HandleEdit(p, user);
    assert ValidateUser(e.form, true) == map[];
    var q := Submit(e);
    assert q == PutUser(id, e.form);
    assert AuthController.PatchUser(user, e.form) == user;
    assert s[id := user] == s;
  }

  /** Creating needs a password of four or more characters; editing does
      not look at it. */
  lemma CreateNeedsPassword(p: Page)
    requires !Truthy(p.editId)
    requires !Truthy(p.form.password)
    ensures Submit(p).Invalid? && FormValidation.PasswordField in Submit(p).errors
  {
  }

  /** Self-deletion is refused whatever the confirmation would say. */
  lemma NoSelfDeletion(currentId: string, confirmed: bool)
    ensures HandleDelete(Some(currentId), Some(currentId), confirmed) == SelfDeletion
  {
  }
}

=== FILE: validation_service.dfy ===
/** The back end's validation service: user and reservation checks that
    return the list of error messages in the order the checks run, and the
    status check the update endpoint uses. */
module ValidationService {
  import opened Wrappers
  import opened Text
  import opened Patterns
  import opened Calendar
  import opened IsoDate
  import opened Records
  import opened Seqs
  import FormValidation

  /** The user checks' failures, one per message. */
  datatype UserError = UsernameTooShort | EmailInvalid | PasswordTooShort | RoleInvalid {
    function Message(): string {
      match this
      case UsernameTooShort => "Username must be at least 3 characters"
      case EmailInvalid => "Valid email address is required"
      case PasswordTooShort => "Password must be at least 4 characters"
      case RoleInvalid => "Role must be USER or ADMIN"
    }
  }

  /** The one-error list when a check fails, the empty list otherwise. */
  function Flag<E(==, !new)>(fails: bool, e: E): (r: seq<E>)
    ensures forall x :: x in r <==> fails && x == e
    ensures r == [] <==> !fails
    ensures |r| <= 1
  {
    if fails then [e] else []
  }

  /** The create errors in check order, from which checks failed. */
  function CreateErrorList(username: bool, email: bool, password: bool): (errs: seq<UserError>)
    ensures |errs| <= 3 && RoleInvalid !in errs
    ensures UsernameTooShort in errs <==> username
    ensures EmailInvalid in errs <==> email
    ensures PasswordTooShort in errs <==> password
    ensures errs == [] <==> !username && !email && !password
  {
    Flag(username, UsernameTooShort) + Flag(email, EmailInvalid) + Flag(password, PasswordTooShort)
  }

  /** The checks a create makes besides the role: a username, an email and
      a password are all demanded. */
  function CreateErrors(u: User): (errs: seq<UserError>)
    ensures |errs| <= 3 && RoleInvalid !in errs
    ensures UsernameTooShort in errs <==> u.username.None? || |Trim(u.username.value)| < 3
    ensures EmailInvalid in errs <==> u.email.None? || !IsEmailShape(u.email.value)
    ensures PasswordTooShort in errs <==> u.password.None? || |u.password.value| < 4
    ensures errs == [] <==>
      && u.username.Some? && |Trim(u.username.value)| >= 3
      && u.email.Some? && IsEmailShape(u.email.value)
      && u.password.Some? && |u.password.value| >= 4
  {
    CreateErrorList(
      u.username.None? || |Trim(u.username.value)| < 3,
      u.email.None? || !IsEmailShape(u.email.value),
      u.password.None? || |u.password.value| < 4)
  }

  /** The check an update makes besides the role: only a non-blank username
      that is too short is refused. */
  function UpdateErrors(u: User): (errs: seq<UserError>)
    ensures errs == [] || errs == [UsernameTooShort]
    ensures errs == [UsernameTooShort] <==> u.username.Some? && 0 < |Trim(u.username.value)| < 3
  {
    Flag(u.username.Some? && 0 < |Trim(u.username.value)| < 3, UsernameTooShort)
  }

  /** `validateUser`. Creating demands a username, an email and a password;
      updating only refuses a non-blank username that is too short. A role,
      when given, must be USER or ADMIN in both modes. */
  function ValidateUser(u: User, isUpdate: bool): (errs: seq<UserError>)
    ensures |errs| <= 4
    ensures isUpdate ==> EmailInvalid !in errs && PasswordTooShort !in errs
    ensures RoleInvalid in errs <==> u.role.Some? && !IsRole(u.role.value)
  {
    (if !isUpdate then CreateErrors(u) else UpdateErrors(u))
    + Flag(u.role.Some? && !IsRole(u.role.value), RoleInvalid)
  }

  /** Whatever a create accepts, an update accepts too. */
  lemma UpdateNoStricterThanCreate(u: User)
    ensures ValidateUser(u, false) == [] ==> ValidateUser(u, true) == []
  {
  }

  /** An update that changes nothing is always accepted. */
  lemma EmptyUpdateAccepted()
    ensures ValidateUser(User(None, None, None, None, None), true) == []
  {
  }

  /** What the create check accepts: a username of three or more
      characters after trimming, an email of the right shape, a password of
      four or more characters, and no role or USER or ADMIN. */
  predicate CreateAcceptable(u: User) {
    && u.username.Some? && |Trim(u.username.value)| >= 3
    && u.email.Some? && IsEmailShape(u.email.value)
    && u.password.Some? && |u.password.value| >= 4
    && (u.role.None? || IsRole(u.role.value))
  }

  lemma CreateAcceptedIff(u: User)
    ensures ValidateUser(u, false) == [] <==> CreateAcceptable(u)
  {
  }

  /** When a role is given, the reference form and the server's create
      check accept the same users. (With no role the form refuses and the
      server accepts.) */
  lemma UserFormAgreesWithCreate(u: User)
    requires u.role.Some?
    ensures FormValidation.ValidateUserForm(u, false) == map[] <==> ValidateUser(u, false) == []
  {
    FormValidation.UserFormEmptyIff(u, false);
    CreateAcceptedIff(u);
    FormPassesIffAcceptable(u);
  }

  /** With a role given, the form's conditions and the create conditions
      coincide: an empty field fails both. */
  lemma FormPassesIffAcceptable(u: User)
    requires u.role.Some?
    ensures FormValidation.UserFormPasses(u, false) <==> CreateAcceptable(u)
  {
    assert !IsEmailShape("");
    assert |Trim("")| == 0;
  }

  /** The reservation checks' failures, one per message. */
  datatype ReservationError =
    | NumberRequired
    | GuestRequired
    | GuestTooShort
    | RoomTypeInvalid
    | CheckInRequired
    | CheckOutRequired
    | StayNotForward
    | DateFormatInvalid
    | BillNegative
    | ContactInvalid
  {
    function Message(): string {
      match this
      case NumberRequired => "Reservation number is required"
      case GuestRequired => "Guest name is required"
      case GuestTooShort => "Guest name must be at least 2 characters"
      case RoomTypeInvalid => "Room type must be Standard, Deluxe, or Suite"
      case CheckInRequired => "Check-in date is required"
      case CheckOutRequired => "Check-out date is required"
      case StayNotForward => "Check-out date must be after check-in date"
      case DateFormatInvalid => "Dates must be in YYYY-MM-DD format"
      case BillNegative => "Total bill cannot be negative"
      case ContactInvalid => "Contact number format is invalid"
    }

  }

  /** A field that is missing or holds only whitespace. */
  predicate Missing(v: Option<string>) {
    v.None? || IsBlank(v.value)
  }

  /** The date-logic step: only when both dates are present. Both are parsed
      before they are compared, so one unreadable date gives the format
      message and never the order message. */
  function DateLogic(checkIn: Option<string>, checkOut: Option<string>): (errs: seq<ReservationError>)
    ensures errs == [StayNotForward] <==>
      checkIn.Some? && checkOut.Some? && IsDateText(checkIn.value) && IsDateText(checkOut.value)
      && !Before(Parse(checkIn.value).value, Parse(checkOut.value).value)
    ensures errs == [DateFormatInvalid] <==>
      checkIn.Some? && checkOut.Some? && (!IsDateText(checkIn.value) || !IsDateText(checkOut.value))
    ensures errs == [] || errs == [StayNotForward] || errs == [DateFormatInvalid]
  {
    if checkIn.Some? && checkOut.Some? then
      match (Parse(checkIn.value), Parse(checkOut.value))
      case (Some(a), Some(b)) => if !Before(a, b) then [StayNotForward] else []
      case _ => [DateFormatInvalid]
    else []
  }

  /** The messages in the order the checks are made. */
  const CheckOrder: seq<ReservationError> := [
    NumberRequired, GuestRequired, GuestTooShort, RoomTypeInvalid, CheckInRequired,
    CheckOutRequired, StayNotForward, DateFormatInvalid, BillNegative, ContactInvalid
  ]

  /** Every message has its place in the check order. */
  lemma AllMessagesChecked()
    ensures forall e :: e in CheckOrder
  {
    forall e: ReservationError
      ensures e in CheckOrder
    {
      var i := match e
        case NumberRequired => 0 case GuestRequired => 1 case GuestTooShort => 2
        case RoomTypeInvalid => 3 case CheckInRequired => 4 case CheckOutRequired => 5
        case StayNotForward => 6 case DateFormatInvalid => 7 case BillNegative => 8
        case ContactInvalid => 9;
      assert CheckOrder[i] == e;
    }
  }

  /** The check behind each message. The guest name is checked twice, so a
      blank name breaks both of its rules; the two dates are compared only
      when both are present. */
  predicate Broken(r: Reservation, e: ReservationError) {
    match e
    case NumberRequired => Missing(r.reservationNumber)
    case GuestRequired => Missing(r.guestName)
    case GuestTooShort => r.guestName.Some? && |Trim(r.guestName.value)| < 2
    case RoomTypeInvalid => r.roomType.None? || !IsRoomType(r.roomType.value)
    case CheckInRequired => Missing(r.checkInDate)
    case CheckOutRequired => Missing(r.checkOutDate)
    case StayNotForward => DateLogic(r.checkInDate, r.checkOutDate) == [StayNotForward]
    case DateFormatInvalid => DateLogic(r.checkInDate, r.checkOutDate) == [DateFormatInvalid]
    case BillNegative => r.totalBill.Some? && r.totalBill.value < 0
    case ContactInvalid => Truthy(r.contactNumber) && !IsContactNumber(r.contactNumber.value)
  }

  /** Each message's check, spelled out. */
  lemma BrokenRules(r: Reservation)
    ensures Broken(r, NumberRequired) <==> Missing(r.reservationNumber)
    ensures Broken(r, GuestRequired) <==> Missing(r.guestName)
    ensures Broken(r, GuestTooShort) <==> r.guestName.Some? && |Trim(r.guestName.value)| < 2
    ensures Broken(r, RoomTypeInvalid) <==> r.roomType.None? || !IsRoomType(r.roomType.value)
    ensures Broken(r, CheckInRequired) <==> Missing(r.checkInDate)
    ensures Broken(r, CheckOutRequired) <==> Missing(r.checkOutDate)
    ensures Broken(r, StayNotForward) <==>
      && r.checkInDate.Some? && IsDateText(r.checkInDate.value)
      && r.checkOutDate.Some? && IsDateText(r.checkOutDate.value)
      && !Before(Parse(r.checkInDate.value).value, Parse(r.checkOutDate.value).value)
    ensures Broken(r, DateFormatInvalid) <==>
      && r.checkInDate.Some? && r.checkOutDate.Some?
      && (!IsDateText(r.checkInDate.value) || !IsDateText(r.checkOutDate.value))
    ensures Broken(r, BillNegative) <==> r.totalBill.Some? && r.totalBill.value < 0
    ensures Broken(r, ContactInvalid) <==> Truthy(r.contactNumber) && !IsContactNumber(r.contactNumber.value)
  {
  }

  /** `validateReservation`: every check runs and every failure is listed,
      in the order the checks are made. What the list holds is stated by
      the lemmas after it. */
  function ValidateReservation(r: Reservation): (errs: seq<ReservationError>)
    ensures |errs| <= |CheckOrder|
  {
    Filter(CheckOrder, e => Broken(r, e))
  }

  /** The identity fields: the reservation number is required; the guest
      name is checked twice, so a missing one is only "required", a blank
      one is also "too short", and a one-character one is only "too short";
      the room type must be one of the three. */
  /** A message is in the list exactly when its check fails, and the
      messages keep the order of the checks. */
  lemma ListedIffBroken(r: Reservation)
    ensures forall e :: e in ValidateReservation(r) <==> Broken(r, e)
    ensures IsSubsequence(ValidateReservation(r), CheckOrder)
  {
    AllMessagesChecked();
    FilterIsSubsequence(CheckOrder, e => Broken(r, e));
  }

  lemma IdentityMessages(r: Reservation)
    ensures NumberRequired in ValidateReservation(r) <==> Missing(r.reservationNumber)
    ensures GuestRequired in ValidateReservation(r) <==> Missing(r.guestName)
    ensures GuestTooShort in ValidateReservation(r) <==> r.guestName.Some? && |Trim(r.guestName.value)| < 2
    ensures RoomTypeInvalid in ValidateReservation(r) <==> r.roomType.None? || !IsRoomType(r.roomType.value)
  {
    ListedIffBroken(r);
    BrokenRules(r);
  }

  /** The dates: each is required on its own, and the two are compared only
      when both are present; then an unreadable one gives the format message,
      and two readable ones give the order message when check-out is not on
      a later day. */
  lemma DateMessages(r: Reservation)
    ensures CheckInRequired in ValidateReservation(r) <==> Missing(r.checkInDate)
    ensures CheckOutRequired in ValidateReservation(r) <==> Missing(r.checkOutDate)
    ensures StayNotForward in ValidateReservation(r) <==>
      && r.checkInDate.Some? && IsDateText(r.checkInDate.value)
      && r.checkOutDate.Some? && IsDateText(r.checkOutDate.value)
      && !Before(Parse(r.checkInDate.value).value, Parse(r.checkOutDate.value).value)
    ensures DateFormatInvalid in ValidateReservation(r) <==>
      && r.checkInDate.Some? && r.checkOutDate.Some?
      && (!IsDateText(r.checkInDate.value) || !IsDateText(r.checkOutDate.value))
  {
    ListedIffBroken(r);
    BrokenRules(r);
  }

  /** The optional fields: a bill, when given, must not be negative, and a
      contact number, when given and not empty, must match the pattern. */
  lemma OptionalMessages(r: Reservation)
    ensures BillNegative in ValidateReservation(r) <==> r.totalBill.Some? && r.totalBill.value < 0
    ensures ContactInvalid in ValidateReservation(r) <==>
      Truthy(r.contactNumber) && !MatchesContactPattern(r.contactNumber.value)
  {
    ListedIffBroken(r);
    BrokenRules(r);
    if Truthy(r.contactNumber) {
      ContactNumberMatchesPattern(r.contactNumber.value);
    }
  }


  /** The checks never read the id or the status. */
  lemma ValidationIgnoresIdAndStatus(r: Reservation, id: Option<string>, status: Option<string>)
    ensures ValidateReservation(r.(id := id, status := status)) == ValidateReservation(r)
  {
    var r' := r.(id := id, status := status);
    forall e | e in CheckOrder
      ensures Broken(r', e) == Broken(r, e)
    {
    }
    FilterSame(CheckOrder, e => Broken(r', e), e => Broken(r, e));
  }

  /** What an accepted reservation is, stated with the calendar and the
      literal reading of the contact pattern: a non-blank number, a guest
      name of at least two characters after trimming, one of the three room
      types, two real dates with check-out on a later day, a bill that is not
      negative, and a contact number that is absent, empty or matches. */
  ghost predicate Acceptable(r: Reservation) {
    && r.reservationNumber.Some? && !IsBlank(r.reservationNumber.value)
    && r.guestName.Some? && |Trim(r.guestName.value)| >= 2
    && r.roomType.Some? && IsRoomType(r.roomType.value)
    && r.checkInDate.Some? && IsDateText(r.checkInDate.value)
    && r.checkOutDate.Some? && IsDateText(r.checkOutDate.value)
    && DayNumber(r.checkInDate.value) < DayNumber(r.checkOutDate.value)
    && (r.totalBill.None? || r.totalBill.value >= 0)
    && (!Truthy(r.contactNumber) || MatchesContactPattern(r.contactNumber.value))
  }

  /** No check fails. */
  predicate NothingBroken(r: Reservation) {
    && !Broken(r, NumberRequired) && !Broken(r, GuestRequired) && !Broken(r, GuestTooShort)
    && !Broken(r, RoomTypeInvalid) && !Broken(r, CheckInRequired) && !Broken(r, CheckOutRequired)
    && !Broken(r, StayNotForward) && !Broken(r, DateFormatInvalid) && !Broken(r, BillNegative)
    && !Broken(r, ContactInvalid)
  }

  /** The list is empty exactly when no check fails. */
  lemma EmptyIffNothingBroken(r: Reservation)
    ensures ValidateReservation(r) == [] <==> NothingBroken(r)
  {
    ListedIffBroken(r);
    var errs := ValidateReservation(r);
    if errs != [] {
      assert Broken(r, errs[0]);
    }
  }

  /** A date string is never blank: it has a dash at position 4. */
  lemma DateTextNotBlank(s: string)
    requires IsDateText(s)
    ensures !IsBlank(s)
  {
    assert !IsSpace(s[4]);
  }

  /** The four date checks pass exactly on two real dates with check-out on
      a later day. */
  lemma DatesPassIff(r: Reservation)
    ensures (&& !Broken(r, CheckInRequired) && !Broken(r, CheckOutRequired)
             && !Broken(r, StayNotForward) && !Broken(r, DateFormatInvalid)) <==>
      && r.checkInDate.Some? && IsDateText(r.checkInDate.value)
      && r.checkOutDate.Some? && IsDateText(r.checkOutDate.value)
      && DayNumber(r.checkInDate.value) < DayNumber(r.checkOutDate.value)
  {
    if r.checkInDate.Some? && r.checkOutDate.Some?
       && IsDateText(r.checkInDate.value) && IsDateText(r.checkOutDate.value) {
      DateTextNotBlank(r.checkInDate.value);
      DateTextNotBlank(r.checkOutDate.value);
      BeforeIffFewerDays(Parse(r.checkInDate.value).value, Parse(r.checkOutDate.value).value);
    }
  }

  /** No check fails exactly on an acceptable reservation. */
  lemma NothingBrokenIffAcceptable(r: Reservation)
    ensures NothingBroken(r) <==> Acceptable(r)
  {
    DatesPassIff(r);
    BrokenRules(r);
    if Truthy(r.contactNumber) {
      ContactNumberMatchesPattern(r.contactNumber.value);
    }
  }

  /** The server accepts a reservation exactly when it is acceptable. */
  lemma AcceptedIffAcceptable(r: Reservation)
    ensures ValidateReservation(r) == [] <==> Acceptable(r)
  {
    EmptyIffNothingBroken(r);
    NothingBrokenIffAcceptable(r);
  }

  /** Two empty date strings are reported three times: each as required,
      and both together as unreadable. */
  lemma EmptyDatesReportedThrice(r: Reservation)
    requires r.checkInDate == Some("") && r.checkOutDate == Some("")
    ensures CheckInRequired in ValidateReservation(r)
    ensures CheckOutRequired in ValidateReservation(r)
    ensures DateFormatInvalid in ValidateReservation(r)
  {
    assert !IsDateText("") && IsBlank("");
    DateMessages(r);
  }

  /** On forms whose dates are empty, missing or real dates, with no
      negative bill and a well-formed or empty contact number (the checks
      the form does not make), the reference form and the server accept
      the same reservations. */
  lemma ReservationFormAgreesWithServer(r: Reservation)
    requires !Truthy(r.checkInDate) || IsDateText(r.checkInDate.value)
    requires !Truthy(r.checkOutDate) || IsDateText(r.checkOutDate.value)
    requires r.totalBill.None? || r.totalBill.value >= 0
    requires !Truthy(r.contactNumber) || IsContactNumber(r.contactNumber.value)
    ensures FormValidation.ValidateReservationForm(r) == map[] <==> ValidateReservation(r) == []
  {
    FormValidation.ReservationFormEmptyIff(r);
    AcceptedIffAcceptable(r);
    ReservationFormPassesIffAcceptable(r);
  }

  /** Under the same conditions, the form's test and the server's
      conditions coincide. */
  lemma ReservationFormPassesIffAcceptable(r: Reservation)
    requires !Truthy(r.checkInDate) || IsDateText(r.checkInDate.value)
    requires !Truthy(r.checkOutDate) || IsDateText(r.checkOutDate.value)
    requires r.totalBill.None? || r.totalBill.value >= 0
    requires !Truthy(r.contactNumber) || IsContactNumber(r.contactNumber.value)
    ensures FormValidation.ReservationFormPasses(r) <==> Acceptable(r)
  {
    if Truthy(r.contactNumber) {
      ContactNumberMatchesPattern(r.contactNumber.value);
    }
    assert IsBlank("") && !IsDateText("");
    if Truthy(r.checkInDate) && Truthy(r.checkOutDate) {
      FormRangeIsDayOrder(r.checkInDate.value, r.checkOutDate.value);
    }
  }

  /** The form's string test on two real dates is the server's day order. */
  lemma FormRangeIsDayOrder(checkIn: string, checkOut: string)
    requires IsDateText(checkIn) && IsDateText(checkOut)
    ensures !FormValidation.TextAtMost(checkOut, checkIn) <==> DayNumber(checkIn) < DayNumber(checkOut)
  {
    TextOrderIsDayOrder(checkIn, checkOut);
    LessTrichotomy(checkIn, checkOut);
  }

  /** An exception the Java code can raise. */
  datatype Thrown = NullPointerException

  /** `isValidStatus` as written: `List.of(...).contains(null)` throws, since
      the immutable lists of `List.of` reject a null argument to
      `contains`. */
  function IsValidStatusAsWritten(status: Option<string>): (r: Result<bool, Thrown>)
    ensures r.Err? <==> status.None?
    ensures r.Ok? ==> (r.value <==> status.value in Statuses)
  {
    match status
    case None => Err(NullPointerException)
    case Some(s) => Ok(s in Statuses)
  }

  /** `isValidStatus` as its test expects it: a missing status is not
      valid. */
  function IsValidStatus(status: Option<string>): (b: bool)
    ensures b <==> status.Some? && IsStatus(status.value)
  {
    status.Some? && status.value in Statuses
  }

  /** The null case throws where the test expects `false`; on every present
      status the two versions agree. */
  lemma NullStatusThrows(status: Option<string>)
    ensures IsValidStatusAsWritten(None) == Err(NullPointerException) && !IsValidStatus(None)
    ensures status.Some? ==> IsValidStatusAsWritten(status) == Ok(IsValidStatus(status))
  {
  }
}

=== FILE: wrappers.dfy ===
/** Nullable values and error-or-value results, the two shapes every layer of
    the front-desk system passes around. */
module Wrappers {

  /** A Java field that may be null, or a JavaScript value that may be
      null/undefined. */
  datatype Option<+T> = None | Some(value: T) {

    /** The value, or the given default when absent (Java's `x != null ? x : d`). */
    function GetOr(default: T): T {
      match this
      case Some(v) => v
      case None => default
    }
  }

  /** The outcome of a computation that either yields a value or fails. */
  datatype Result<+T, +E> = Ok(value: T) | Err(error: E)
}
